=== FILE: README.md ===
# Sri Lankan news risk analysis — a Dafny model

This project models the analysis core of a Python pipeline that scrapes Sri
Lankan news sites and analyses the headlines. The model covers six parts:

- **Risk taxonomy** (`agent/risk_categories.py`): the five risk levels and the
  twenty risk categories. It includes the keyword table behind ten of the
  categories, and the risk-assessment record with its dictionary form.
- **ReAct loop** (`agent/react_loop.py`): the step history the risk agent keeps
  while it reasons (thought, action, observation). It includes the tagged step
  strings and the analysis prompt.
- **Risk agent** (`agent/risk_agent.py`):
  - the keyword strategy: scan the indicator table, map the number of flagged
    categories to a level, recommend actions;
  - the model-based strategy: parse a language model's free-text answer for a
    level, the categories it mentions and a "NN%" confidence;
  - the fallback from the model strategy to the keyword strategy;
  - batch analysis and the summary report.
- **Topic analyzer** (`analysis/topic_analyzer.py`): keyword-scored headline
  categorisation, trending topics, the topic distribution and the topic report.
- **Insights generator** (`nlp/insights_generator.py`): the daily digest,
  breaking entity trends, the per-source comparison and the export.
- **Entity recogniser** (`nlp/entity_recognizer.py`):
  - grouping recognised named entities by label;
  - most-mentioned entities;
  - the timeline of the articles that mention an entity.

All operations are pure functions over immutable datatypes. Python
dictionaries become association lists kept in insertion order (`Counts`,
`GroupBy`, `Lookup`). `Counter.most_common` and `sorted(..., reverse=True)`
become the stable sorts `SortByCount` and `SortDescBy`. Each sort is proved to
be a permutation, to be ordered, and to keep ties in their input order.

Everything the core gets from outside is an explicit input:

- the language-model backend: `BackendResult`, which is a reply, a reply
  without content, or a raised error;
- spaCy's recogniser output: `Option<seq<Mention>>`, where `None` means the
  recogniser raised;
- Python's `hash`: a function parameter;
- the clock: a date or timestamp string parameter.

Modules, one per file:

| module | contents |
|---|---|
| `Wrappers` | `Option` |
| `Text` | ASCII lower-casing, substring test, integer rendering and parsing, joins |
| `Tally` | counting, de-duplication, stable sorting, grouping, filtering, look-up |
| `Articles` | the article record the components share |
| `RiskCategories` | risk levels, categories, the indicator table, the assessment record |
| `ReactLoop` | the ReAct loop |
| `RiskAgent` | the two strategies, the fallback, batch analysis |
| `RiskAgentExamples` | concrete inputs that show edge behaviour of the response parser |
| `RiskSummary` | the summary report |
| `TopicAnalyzer` | topic categorisation and reports |
| `InsightsGenerator` | digest, trends, source comparison, export |
| `EntityRecognizer` | entity grouping, mention counts, timeline |

## Model

| member | source | states |
|---|---|---|
| RiskCategories.LevelsEnumerated | agent/risk_categories.py:9-15 | there are exactly five distinct levels; each level's display string is one of "Critical".."None" and reads back as that level |
| RiskCategories.RankInjective | agent/risk_categories.py:9-15 | the severity rank tells levels apart |
| RiskCategories.CategoriesEnumerated | agent/risk_categories.py:18-50 | there are exactly twenty distinct categories and every category is among them |
| RiskCategories.CategoryDisplayRoundTrip | agent/risk_categories.py:18-50 | a category's display string reads back as that category |
| RiskCategories.CategoryDisplayInjective | agent/risk_categories.py:18-50 | no two categories share a display string |
| RiskCategories.IndicatorCategories | agent/risk_categories.py:56-97 | the indicator table names ten distinct categories, in declaration order |
| RiskCategories.GetKeywords | agent/risk_categories.py:99-102 | a tabled category gets its table entry's keywords; a category outside the table gets the empty list |
| RiskCategories.AllKeywords | agent/risk_categories.py:104-107 | the table has ten distinct categories; each entry agrees with `GetKeywords`; every other category has no keywords |
| RiskCategories.NewAssessment | agent/risk_categories.py:113-133 | absent key entities become []; an absent geographic scope becomes "Sri Lanka"; the trace starts absent; all other fields are kept |
| RiskCategories.ToDict | agent/risk_categories.py:135-147 | the dictionary has exactly the nine fields; the level and the categories appear as display strings; every other field is copied |
| RiskCategories.DisplaysRoundTrip | agent/risk_categories.py:139-140 | reading back the displayed category list gives the original list |
| RiskCategories.ToDictDecodes | agent/risk_categories.py:135-147 | the level and the categories can be recovered from the dictionary |
| ReactLoop.NewLoop | agent/react_loop.py:31-40 | a fresh loop is valid, with an empty history, step 0 and the given ceiling |
| ReactLoop.TagRoundTrip | agent/react_loop.py:53 | a `[Step n - PHASE] text` string decodes back to its step number, phase and text |
| ReactLoop.ThinkTagged | agent/react_loop.py:42-55 | a thought is tagged THOUGHT with the next step number and carries the model's response |
| ReactLoop.Act | agent/react_loop.py:57-89 | the result has the action type, status "executed", and the given parameters (none gives the empty list) |
| ReactLoop.ObserveTagged | agent/react_loop.py:91-103 | an observation is tagged OBSERVATION with the next step number and carries the data |
| ReactLoop.AddStep | agent/react_loop.py:105-114 | exactly one step is appended and the old history is a prefix; the counter advances by one; validity is kept; a loop past its ceiling still grows and stays past it |
| ReactLoop.ThinkActObserve | agent/react_loop.py:42-114 | a step made of a thought and an observation on the loop, with an action, is appended under the current number and keeps the old history; its thought and observation read back as the given texts under the next step number |
| ReactLoop.ExtendsTrans | agent/react_loop.py:105-114 | keeping the old history and validity carries over a chain of additions |
| ReactLoop.AddStepsFromFresh | agent/react_loop.py:105-118 | n steps on a fresh loop give n history entries numbered 0..n-1; the loop may continue exactly while n is below the ceiling |
| ReactLoop.AddStepsExtend | agent/react_loop.py:105-114 | adding steps to a valid loop keeps the old history as a prefix and numbers the new steps consecutively |
| ReactLoop.ParamRepr | agent/react_loop.py:83-89 | a parameter value is written with no control character |
| ReactLoop.ParamsRepr | agent/react_loop.py:83-89 | the parameter entries, each key and string value written as a Python string literal, have no control character |
| ReactLoop.ActionText | agent/react_loop.py:83-89 | `str()` of the action-result dictionary has no control character, so the action stays on one line |
| ReactLoop.ActionFramePrintable | agent/react_loop.py:83-89 | the fixed text around the three fields of the rendered dictionary adds no control character |
| ReactLoop.GetReasoningTrace | agent/react_loop.py:120-130 | one entry per history step, with the same fields; on a valid loop entry i has step number i |
| ReactLoop.Reset | agent/react_loop.py:145-148 | the loop is cleared to a fresh one with the same ceiling |
| RiskAgent.HasKeyword | agent/risk_agent.py:179-184 | true exactly when some lower-cased keyword occurs in the lower-cased text |
| RiskAgent.KeywordCategoriesSpec | agent/risk_agent.py:179-184 | a category is flagged exactly when it is tabled and one of its keywords occurs; flags come in table order, without repeats |
| RiskAgent.ScanTable | agent/risk_agent.py:179-184 | the scan loop collects the categories of the entries that hit, and the score is their number |
| RiskAgent.KeywordScan | agent/risk_agent.py:179-184 | scanning the indicator table gives the flagged categories and a score from 0 to 10 |
| RiskAgent.LevelForScore | agent/risk_agent.py:199-206 | High exactly when the score is 5 or more; Medium exactly for 3-4; Low for 1-2; None below 1; never Critical |
| RiskAgent.LevelForScoreMonotonic | agent/risk_agent.py:199-206 | a higher score never gives a lower level |
| RiskAgent.MoreFlagsHigherLevel | agent/risk_agent.py:179-206 | text that flags a superset of the categories gets a score and a level at least as high |
| RiskAgent.TierActions | agent/risk_agent.py:279-297 | Critical and High get three actions; the other levels get fewer, at least one |
| RiskAgent.Recommendations | agent/risk_agent.py:271-306 | at most three actions, starting with the level's tier; Critical and High get exactly their tier; a category's addendum appears exactly when the category is present and the tier leaves room |
| RiskAgent.RecommendationsFacts | agent/risk_agent.py:300-306 | the truncated list keeps the tier as a prefix; the length is min(3, tier + addenda); membership of each addendum is characterised |
| RiskAgent.KeywordAssessment | agent/risk_agent.py:209-221 | the level comes from the number of flagged categories; the first three flags are kept; confidence is 0.3 with no flag and 0.6 otherwise; the id is the hash of the URL; never Critical |
| RiskAgent.KeywordAnalysis | agent/risk_agent.py:157-221 | gives the keyword assessment and adds exactly one step, numbered by the loop's counter, to the loop, keeping its validity |
| RiskAgent.KeywordAnalysisTagged | agent/risk_agent.py:186-196 | the recorded thought decodes to the keyword-analysis thought, tagged with the step number |
| RiskAgent.ParseLevel | agent/risk_agent.py:230-242 | the level found is mentioned in the answer and is the most severe level mentioned, None when none is mentioned |
| RiskAgent.MentionedCategoriesSpec | agent/risk_agent.py:245-248 | a category is picked exactly when its lower-cased display string occurs in the answer; picks come in declaration order without repeats |
| RiskAgent.FirstPercentFrom | agent/risk_agent.py:251-257 | finds the first position from i where a digit run ending in "%" starts, or reports that none exists |
| RiskAgent.PercentNumber | agent/risk_agent.py:251-257 | absent exactly when the answer has no "digits%" match |
| RiskAgent.ParseConfidence | agent/risk_agent.py:251-257 | with "confidence" and a "NN%" match the value is NN/100; otherwise 0.75; never negative |
| RiskAgent.ParseLlmResponse | agent/risk_agent.py:223-269 | level, the first three mentioned categories, confidence and recommendations come from the answer; the answer is the reasoning; the id is the hash of the URL |
| RiskAgent.LlmAssessment | agent/risk_agent.py:123-153 | a reply is parsed; a reply without content or a failed call falls back to the keyword assessment |
| RiskAgent.LlmLoop | agent/risk_agent.py:117-153 | one step is added, or two when the reply has no content; the old history is kept; validity is kept |
| RiskAgent.LlmLoopReply | agent/risk_agent.py:117-145 | after an answer the new step is numbered by the counter; its thought reads back as the model thought, its action is `str()` of the ANALYZE_WITH_LLM result carrying the prompt, and its observation reads back as the answer's text |
| RiskAgent.LlmLoopNoContent | agent/risk_agent.py:134-153 | for a reply without content the first new step is the model step observing "None"; the second is the keyword step, numbered one later |
| RiskAgent.LlmLoopFailed | agent/risk_agent.py:150-153 | after a failed call the new step is the keyword step, numbered by the counter, with the KEYWORD_SCAN action and the found-categories observation |
| RiskAgent.LlmStepRecorded | agent/risk_agent.py:117-145 | the model step adds one step under the counter's number that records the model thought, the ANALYZE_WITH_LLM action and the observed text, keeping the old history |
| RiskAgent.KeywordStepRecorded | agent/risk_agent.py:167-196 | the keyword step adds one step under the counter's number that records the keyword thought, the KEYWORD_SCAN action with the score, and the found categories, keeping the old history |
| RiskAgent.NoContentRecorded | agent/risk_agent.py:134-153 | the model step observing "None" followed by the keyword step adds two steps, numbered consecutively, keeping the old history |
| RiskAgent.LlmAnalysis | agent/risk_agent.py:150-153 | a failed call gives exactly what the keyword strategy gives on the same loop |
| RiskAgent.AnalyzeArticle | agent/risk_agent.py:72-97 | the result carries a trace of one step (two for a reply without content), numbered from 0; apart from the trace it is the parsed reply when the model is available and answers, and the keyword assessment otherwise |
| RiskAgent.FallbackIdempotence | agent/risk_agent.py:150-153 | with the model configured, a failed call gives exactly what the keyword strategy gives with no model configured, trace included |
| RiskAgent.LlmActionOneLine | agent/risk_agent.py:110-145 | the prompt has a line break, yet the action recorded for the model step is free of line breaks and other control characters, because the prompt is written escaped |
| RiskAgent.FallbackTrace | agent/risk_agent.py:150-153 | after a failed call the trace is the single keyword step, numbered 0 and tagged as step 1 |
| RiskAgent.ModelTrace | agent/risk_agent.py:117-145 | after an answer the trace is the single model step: numbered 0, its thought and observation tagged as step 1 and reading back as the model thought and the answer, its action the ANALYZE_WITH_LLM result |
| RiskAgent.KeepCompleted | agent/risk_agent.py:308-320 | one result per item that completes, in input order; items that raise are skipped |
| RiskAgent.KeepCompletedAppend | agent/risk_agent.py:308-320 | processing a concatenation is processing each part |
| RiskAgent.AnalyzeBatch | agent/risk_agent.py:308-320 | the i-th result is the analysis of the i-th completing item |
| RiskAgent.AnalyzeBatchAppend | agent/risk_agent.py:308-320 | a batch split anywhere gives the same assessments in the same order |
| RiskAgent.BatchIsolation | agent/risk_agent.py:313-319 | an item that raises in the middle of a batch drops out; its neighbours are still analysed, in order |
| RiskAgentExamples.SkipNonDigits | agent/risk_agent.py:252 | non-digit characters before a match do not change where the search finds it |
| RiskAgentExamples.ConfidenceNotClamped | agent/risk_agent.py:251-257 | "Confidence: 150%" parses to 1.5: the value is not clamped |
| RiskAgentExamples.ConfidenceDefault | agent/risk_agent.py:251-257 | "Confidence is high" has no percentage and parses to 0.75 |
| RiskAgentExamples.ParseLevelReadsDisplay | agent/risk_agent.py:230-242 | a level's own display string parses back as that level |
| RiskAgentExamples.SubstringLevel | agent/risk_agent.py:230-242 | "Follow up" reads as Low, because "low" occurs inside "follow" |
| RiskAgentExamples.QuietArticle | agent/risk_agent.py:199-221 | an article with no keyword hit gets level None, no categories, confidence 0.3, the reasoning "found 0 risk indicators" and the single action "✓ No immediate action required" |
| RiskSummary.LevelCounts | agent/risk_agent.py:327-329 | one count per level, in declaration order, each the number of assessments with that level |
| RiskSummary.LevelCountsSum | agent/risk_agent.py:327-329 | the level counts add up to the number of assessments |
| RiskSummary.Distribution | agent/risk_agent.py:327-329 | the distribution is keyed by the five display strings, in order, with the level counts |
| RiskSummary.DistributionSum | agent/risk_agent.py:343-355 | the distribution accounts for every assessment |
| RiskSummary.TopCategories | agent/risk_agent.py:332-351 | at most five category names, most frequent first, each once, with its number of occurrences over all assessments; a category is left out only when five were listed, the last occurring at least as often; equal counts come in the order the categories are first met, and a category as frequent as the fifth is left out only when first met after it |
| RiskSummary.TopCategoriesCounted | agent/risk_agent.py:332-335 | a category's count is the sum of its counts in each assessment |
| RiskSummary.HighPriorityCounted | agent/risk_agent.py:338-341 | the high-priority assessments are exactly the Critical ones plus the High ones |
| RiskSummary.AverageConfidence | agent/risk_agent.py:354 | 0 for no assessments; otherwise average times count equals the sum of the confidences |
| RiskSummary.AverageConfidenceBounds | agent/risk_agent.py:354 | confidences in [0, 1] average to a value in [0, 1] |
| RiskSummary.GenerateSummaryReport | agent/risk_agent.py:322-355 | the total and distribution agree; high priority counts Critical plus High; at most five high-priority assessments are rendered, in order; the average is the mean confidence |
| TopicAnalyzer.TableOrDefault | analysis/topic_analyzer.py:18-26 | a given non-empty table is used; a missing or empty one falls back to the configured table |
| TopicAnalyzer.Score | analysis/topic_analyzer.py:46 | a score lies between 0 and the number of keywords, and is 0 exactly when no keyword occurs |
| TopicAnalyzer.ScoreCountsMentions | analysis/topic_analyzer.py:46 | the score is the number of the topic's keywords found in the headline |
| TopicAnalyzer.Scores | analysis/topic_analyzer.py:45-48 | one score per topic, in table order |
| TopicAnalyzer.FirstMaxIndex | analysis/topic_analyzer.py:51-52 | the index holds a largest score, and every earlier index has a strictly smaller score (Python's `max` keeps the first maximum) |
| TopicAnalyzer.FirstMaxOfPositive | analysis/topic_analyzer.py:47-52 | the first maximum among the positive scores is the first maximum among all scores |
| TopicAnalyzer.CategorizeHeadline | analysis/topic_analyzer.py:28-54 | an empty headline is "Other"; every result is "Other" or a topic of the table |
| TopicAnalyzer.CategorizeSpec | analysis/topic_analyzer.py:41-54 | with no keyword hit the result is "Other"; otherwise it is the first topic with the largest score, which is positive |
| TopicAnalyzer.ProcessArticles | analysis/topic_analyzer.py:56-77 | each article, in order, gets its title's topic, and nothing else changes |
| TopicAnalyzer.DefaultTopicsNamed | config.py:72-121 | the configured topics all have non-empty names |
| TopicAnalyzer.ProcessedHaveTopics | analysis/topic_analyzer.py:68-77 | with named topics every processed article has a topic |
| TopicAnalyzer.TrendingTopics | analysis/topic_analyzer.py:79-92 | at most topN topics, most frequent first, each once, with its number of articles; a topic is left out only when topN topics, the last of them with at least as many articles, were listed; topics with equal counts come in first-seen order, and one as frequent as the last listed is left out only when first seen after it |
| TopicAnalyzer.TopicDistribution | analysis/topic_analyzer.py:94-102 | one entry per topic present, in first-seen order, with its number of articles |
| TopicAnalyzer.TopicDistributionSum | analysis/topic_analyzer.py:94-102 | the distribution counts exactly the articles that have a topic |
| TopicAnalyzer.GenerateTopicReport | analysis/topic_analyzer.py:104-137 | the total, distribution and trending topics agree; the per-topic buckets file articles without a topic under "Other" and account for every article |
| InsightsGenerator.SortedGroups | nlp/insights_generator.py:36-48 | the sorted groups are the topic groups: one per topic, each holding that topic's articles |
| InsightsGenerator.SortedGroupsTies | nlp/insights_generator.py:36-48 | sorted groups of equal size keep the order in which their keys first occur |
| InsightsGenerator.Sections | nlp/insights_generator.py:36-54 | one section per topic, largest first, with the topic's article count and its first three articles; topics of equal size come in the order they first occur |
| InsightsGenerator.SectionsCoverTopics | nlp/insights_generator.py:36-48 | every topic present has exactly one section |
| InsightsGenerator.SectionsSum | nlp/insights_generator.py:36-48 | the section counts add up to the number of articles |
| InsightsGenerator.HeadlineLinesAt | nlp/insights_generator.py:52-55 | headline k appears as line 2k, numbered from the start number, and its source line follows it |
| InsightsGenerator.ListingAt | nlp/insights_generator.py:52-55 | a two-line-per-item listing puts item k's lines at 2k and 2k+1 |
| InsightsGenerator.SectionLines | nlp/insights_generator.py:49-55 | a section is its header line followed by two lines per headline, numbered from 1 |
| InsightsGenerator.SummaryLines | nlp/insights_generator.py:41-55 | the digest opens with the dated title, the total and a blank line; every later line belongs to a section, the sections taken in order and each contributing its own lines in order |
| InsightsGenerator.SectionLinesCount | nlp/insights_generator.py:47-55 | the section lines number exactly the sum of each section's line count |
| InsightsGenerator.DailySummary | nlp/insights_generator.py:22-57 | no articles give the fixed message; otherwise the digest starts with the dated title line and the total line, and for every topic present it holds the topic's heading with its article count and the title and source lines of each of its first three articles |
| InsightsGenerator.DigestHoldsSections | nlp/insights_generator.py:47-55 | every present topic's heading, with the number of its articles, and the lines of its first three articles occur in the joined digest |
| InsightsGenerator.SectionInDigest | nlp/insights_generator.py:49-55 | the heading and every headline line of any one section occur in the joined digest |
| InsightsGenerator.SectionLineAt | nlp/insights_generator.py:52-55 | the section lines after the heading list headline k, numbered k + 1, followed by its source line |
| InsightsGenerator.DailySummaryDistinguishesEmpty | nlp/insights_generator.py:32-45 | the digest is the no-articles message exactly when there are no articles |
| InsightsGenerator.RankTrends | nlp/insights_generator.py:80-91 | at most ten ranked elements, most frequent first |
| InsightsGenerator.RankTrendsCounts | nlp/insights_generator.py:72-91 | each ranked element appears once, with its number of occurrences, which is at least three |
| InsightsGenerator.RankTrendsTies | nlp/insights_generator.py:80-91 | ranked elements with equal counts come in the order of their first occurrence |
| InsightsGenerator.RankTrendsComplete | nlp/insights_generator.py:80-91 | an element occurring three or more times is left out only when ten elements occurring at least as often were ranked |
| InsightsGenerator.TrendsOf | nlp/insights_generator.py:80-91 | at most ten entity trends, each a distinct entity occurring at least three times, with its count, most mentioned first; entities mentioned equally often come in the order they are first mentioned |
| InsightsGenerator.TrendsOfComplete | nlp/insights_generator.py:80-91 | a frequent entity is missing only from a full list whose last entry has at least as many mentions |
| InsightsGenerator.BreakingTrends | nlp/insights_generator.py:59-91 | the trends count every mention in every entity list of every article |
| InsightsGenerator.Stats | nlp/insights_generator.py:111-124 | the total, the sentiment counts (which add up to the articles that have a sentiment), and at most five top topics with their counts, most frequent first; a topic is left out only when five were listed, the last with at least as many articles; equal counts come in first-seen order, and a topic as frequent as the fifth is left out only when first seen after it |
| InsightsGenerator.CompareSources | nlp/insights_generator.py:93-126 | one entry per source, in first-seen order, holding the statistics of exactly that source's articles |
| InsightsGenerator.CompareSourcesSum | nlp/insights_generator.py:103-124 | the per-source totals add up to the number of articles |
| InsightsGenerator.ExportInsights | nlp/insights_generator.py:128-151 | "json" gives the full record, built from the digest, the trends and the comparison; any other format gives exactly the digest |
| EntityRecognizer.LabelTextsMember | nlp/entity_recognizer.py:53-61 | a text is listed under a label exactly when the recogniser produced that (label, text) pair |
| EntityRecognizer.AddMention | nlp/entity_recognizer.py:53-61 | a new label is appended with a one-element list; a known label's list gains the text only if it is not already there; no other list changes |
| EntityRecognizer.Collect | nlp/entity_recognizer.py:51-63 | labels in first-seen order, each once, and under each label its texts in first-seen order, each once |
| EntityRecognizer.ExtractEntities | nlp/entity_recognizer.py:36-66 | empty text or a failing recogniser gives no entities; otherwise the collected grouping |
| EntityRecognizer.ExtractEntitiesMembers | nlp/entity_recognizer.py:53-63 | labels are distinct; each list is duplicate-free; a text is in a label's list exactly when that pair was recognised |
| EntityRecognizer.ExtractEntitiesLabels | nlp/entity_recognizer.py:53-58 | every recognised label gets a list |
| EntityRecognizer.ProcessArticles | nlp/entity_recognizer.py:68-92 | each article, in order, gets its title's entities, and nothing else changes |
| EntityRecognizer.ProcessArticlesIdempotent | nlp/entity_recognizer.py:80-92 | processing twice is processing once |
| EntityRecognizer.ArticleMentions | nlp/entity_recognizer.py:108-117 | an article without entities contributes nothing; with a type, only that type's list counts |
| EntityRecognizer.GetMostMentioned | nlp/entity_recognizer.py:94-121 | at most topN entities, most mentioned first, each once, with its mention count; a missing entity has no more mentions than the last of a full list; equal counts come in first-mention order, and an entity as frequent as the last listed is left out only when first mentioned after it |
| EntityRecognizer.MentionsOfAllTypes | nlp/entity_recognizer.py:115-117 | without a type every list of every article counts |
| EntityRecognizer.MentionsOfTypeCount | nlp/entity_recognizer.py:112-113 | with a type, an entity's count is the sum of its counts in that type's list of each article |
| EntityRecognizer.InAnyListSpec | nlp/entity_recognizer.py:141-144 | the inner loop finds the entity exactly when some list holds it |
| EntityRecognizer.GetEntityTimeline | nlp/entity_recognizer.py:123-152 | a permutation of the articles that mention the entity, newest first, with articles of equal time in input order |
| EntityRecognizer.TimelineMembers | nlp/entity_recognizer.py:134-144 | an article is on the timeline as often as in the input if it mentions the entity, and otherwise not at all |
| Articles.TopicOrOther | analysis/topic_analyzer.py:122 | a missing topic reads as "Other" and any other topic is kept; the result is never empty |
| Articles.AllMentionsCount | nlp/insights_generator.py:72-77 | a mention count over all articles is the sum of its counts in each article's lists |
| Articles.TimeKey | nlp/entity_recognizer.py:148 | the timestamp when there is one, the scrape time otherwise |
| Text.Lower | analysis/topic_analyzer.py:41 | lower-casing keeps the length and maps each character |
| Text.LowerIdempotent | analysis/topic_analyzer.py:46 | lower-casing a lower-cased string changes nothing |
| Text.IntToStringRoundTrip | agent/risk_agent.py:213 | an integer's decimal rendering parses back to it |
| Text.EscapeChar | agent/risk_agent.py:145 | an escaped character is a non-empty run with no control character |
| Text.Escape | agent/risk_agent.py:145 | escaping never shortens a string and leaves no control character |
| Text.StrRepr | agent/risk_agent.py:145 | a string literal opens and closes with the quote `repr` picks (" only when the string has ' and no ") and has no control character |
| Text.UnescapeChar | agent/risk_agent.py:145 | reading an escaped character back yields that character and continues with the rest |
| Text.EscapeRoundTrip | agent/risk_agent.py:145 | reading an escaped string back gives the string |
| Text.StrReprRoundTrip | agent/risk_agent.py:145 | reading back the inside of a string literal, with its own quote, gives the original string |
| Text.HexRoundTrip | agent/risk_agent.py:145 | a hex digit reads back as its value |
| Text.JoinContains | nlp/insights_generator.py:57 | every line occurs in the newline-joined text |
| Tally.Dedup | nlp/entity_recognizer.py:57-61 | the result has no repeats, and it has the same elements as the input |
| Tally.DedupFirstSeenOrder | nlp/entity_recognizer.py:57-61 | elements come in the order of their first occurrence |
| Tally.Counts | analysis/topic_analyzer.py:98-100 | keys in first-seen order, each with its positive number of occurrences |
| Tally.SortByCount | nlp/insights_generator.py:89 | a permutation, non-increasing in the count, in which equal counts keep their order |
| Tally.SortDescBy | nlp/insights_generator.py:48 | a permutation, non-increasing in the weight, in which equal weights keep their order |
| Tally.MostCommon | analysis/topic_analyzer.py:91-92 | at most n elements, most frequent first, each once, with their counts; a missing element has no more occurrences than the last of a full list; equal counts come in first-seen order, and of the elements as frequent as the last one listed, those first seen earliest are kept |
| Tally.RankedCounts | analysis/topic_analyzer.py:91-92 | every element with its number of occurrences, each once, most frequent first, equal counts in first-seen order |
| Tally.MostCommonTies | analysis/topic_analyzer.py:91-92 | a prefix of the ranked counts keeps ties in first-seen order and keeps, of the elements as frequent as its last, those first seen earliest |
| Tally.SortByCountTies | nlp/insights_generator.py:89 | stably sorting entries listed in first-seen order leaves equal counts in first-seen order |
| Tally.StableTies | nlp/insights_generator.py:48 | a sort that keeps every weight's entries in their input order leaves entries of equal weight in first-seen order when the input was |
| Tally.TieAt | nlp/insights_generator.py:48 | two entries of equal weight are in first-seen order when every weight's entries are |
| Tally.SelectSeenInOrder | nlp/insights_generator.py:48 | selecting the entries of one weight keeps first-seen order |
| Tally.DedupSeenInOrder | analysis/topic_analyzer.py:98-100 | entries keyed in first-seen order are in first-seen order |
| Tally.TakeTies | nlp/insights_generator.py:91 | a prefix keeps ties in first-seen order |
| Tally.FilterIsSelect | nlp/insights_generator.py:79-80 | filtering is selecting the elements on which the test holds |
| Tally.GroupBy | nlp/insights_generator.py:103-105 | one group per key in first-seen order, each holding the elements with that key, in order |
| Tally.GroupBySum | nlp/insights_generator.py:103-105 | the group sizes add up to the number of elements |
| Tally.Lookup | agent/risk_categories.py:102 | an absent key gives the default; otherwise the value of the key's first entry |
| Tally.FilterOccurrences | nlp/entity_recognizer.py:136-144 | filtering keeps every copy of an element that passes and drops every copy of one that fails |

## Left out

- Logging, the timing of the batch loop, and file I/O: they do not affect any returned value.
- The clock (`datetime.now()`): it is a string parameter (`date`, `now`, `timestamp`).
- The OpenAI client: it is the input `BackendResult`, which is a reply, a reply whose content is `None`, or an exception from the call. Whether a client was configured is the flag `llmAvailable`.
- spaCy's model: the recogniser's output for a text is an input. `None` stands for an exception raised while recognising.
- Python's `hash`: the article id is `str(hash(url))`, with `hash` passed as a function.
- Exceptions in the batch loop: each batch item carries whether its analysis raises (`Attempt`).
- The outer `except` of the entity recogniser's `process_articles`: `extract_entities` already catches every exception, so that branch is unreachable.
- The outer `except` of the topic analyzer's `process_articles`: categorising cannot raise on a string headline.
- JSON serialisation in `export_insights`: the "json" case returns the structured record, not its JSON text.
- Text.StrRepr: `repr` of a string that holds a non-ASCII character Python does not print, such as U+0085, writes it as a `\x`, `\u` or `\U` escape. The model writes such characters as they are; it escapes the backslash, the quote, tab, newline, carriage return and the other ASCII control characters as Python does.
- Prompt wording: `build_analysis_prompt` is the same fields in the same order with fixed connecting text. `build_system_prompt`, `format_trace_for_report` and `RiskAssessment.__repr__` are report or prompt text that no analysis result depends on.
- `act`'s own `[Step n - ACTION]` string: `act` only logs it, and the stored action is the action-result text.
- RiskAgent.PercentNumber: `\d` also matches non-ASCII decimal digits, such as the Arabic-Indic digits in "٥٠%". The model reads ASCII digits only, so it finds no match there.
- RiskAgent.ParseConfidence: Python also reads a percentage written in non-ASCII decimal digits, such as "Confidence ٥٠%" giving 0.5; the model gives 0.75 for it. A digit run beyond the float range, about 309 digits, makes `int(...) / 100` raise OverflowError. The `except` at agent/risk_agent.py:150-153 then gives the keyword assessment, with a two-step trace. The model divides exactly and keeps the parsed reply.
- Unicode case mapping: `str.lower` is modelled for ASCII letters only.
- Floating point: confidences are exact reals, so 0.75, 0.6 and NN/100 are exact.
- `collections.Counter` and `sorted` are library code, not part of this model. The model takes two facts from the Python documentation: `sorted` is stable, also with `reverse=True`, and `most_common` lists equal counts in the order the elements were first met. From these it proves tie order for `SortByCount`, `SortDescBy` and `MostCommon`.
- Optional strings (`topic`, `sentiment`, `description`): `None` and `""` are both the empty string, since the core only tests them for truthiness. Missing or empty entities are `[]`.
- Entity dictionaries: they are lists of (label, texts) pairs in insertion order.
- Article construction: `models/article.py` is not part of this model. The article fields are those the core reads.
- The scrapers, the storage layer, the HTML report, the clusterer and the sentiment analyser: they are not part of the analysis core.

=== FILE: articles.dfy ===
/** The article record every component reads. Optional text fields are plain
    strings in which the empty string stands for "missing": the core only ever
    tests them for truthiness, where a missing value and an empty one behave
    alike. */
module Articles {
  import Wrappers
  import opened Tally

  /** A scraped news article. `entities` maps an entity type to the entity
      texts of that type, in insertion order; the empty list stands for both a
      missing and an empty mapping. Times are integers. */
  datatype Article = Article(
    title: string,
    url: string,
    source: string,
    description: string,
    timestamp: Wrappers.Option<int>,
    scrapedAt: int,
    topic: string,
    sentiment: string,
    entities: seq<(string, seq<string>)>)

  /** The bucket name used when an article has no topic. */
  const OtherTopic: string := "Other"

  /** `article.topic or "Other"`. */
  function TopicOrOther(a: Article): (t: string)
    ensures t != ""
    ensures a.topic != "" ==> t == a.topic
    ensures a.topic == "" ==> t == OtherTopic
  {
    if a.topic == "" then OtherTopic else a.topic
  }

  predicate HasTopic(a: Article) {
    a.topic != ""
  }

  function TopicOf(a: Article): string {
    a.topic
  }

  predicate HasSentiment(a: Article) {
    a.sentiment != ""
  }

  function SentimentOf(a: Article): string {
    a.sentiment
  }

  function SourceOf(a: Article): string {
    a.source
  }

  /** `[article.topic for article in articles if article.topic]`. */
  function PresentTopics(articles: seq<Article>): (r: seq<string>)
    ensures |r| == |Filter(articles, HasTopic)|
    ensures forall i :: 0 <= i < |r| ==> r[i] != ""
  {
    Map(Filter(articles, HasTopic), TopicOf)
  }

  /** The sentiments of the articles that have one, in order. */
  function PresentSentiments(articles: seq<Article>): (r: seq<string>)
    ensures |r| == |Filter(articles, HasSentiment)|
    ensures forall i :: 0 <= i < |r| ==> r[i] != ""
  {
    Map(Filter(articles, HasSentiment), SentimentOf)
  }

  /** The entity lists of an article, in type order. */
  function EntityLists(a: Article): (r: seq<seq<string>>)
    ensures |r| == |a.entities|
    ensures forall i :: 0 <= i < |r| ==> r[i] == a.entities[i].1
  {
    seq(|a.entities|, i requires 0 <= i < |a.entities| => a.entities[i].1)
  }

  /** Every entity mention of every article, list after list, article after
      article. */
  function AllMentions(articles: seq<Article>): seq<string>
    decreases |articles|
  {
    if articles == [] then [] else Flatten(EntityLists(articles[0])) + AllMentions(articles[1..])
  }

  /** A mention count over all articles is the sum of the counts in each
      article's entity lists. */
  lemma {:induction false} AllMentionsCount(articles: seq<Article>, e: string)
    ensures Occurrences(AllMentions(articles), e) ==
      SumOf(articles, (a: Article) => SumOf(EntityLists(a), (xs: seq<string>) => Occurrences(xs, e)))
    decreases |articles|
  {
    if articles != [] {
      AllMentionsCount(articles[1..], e);
      FlattenOccurrences(EntityLists(articles[0]), e);
    }
  }

  /** `a.timestamp if a.timestamp else a.scraped_at` (a datetime is always truthy). */
  function TimeKey(a: Article): (t: int)
    ensures a.timestamp.Some? ==> t == a.timestamp.value
    ensures a.timestamp.None? ==> t == a.scrapedAt
  {
    match a.timestamp
    case Some(t) => t
    case None => a.scrapedAt
  }
}

=== FILE: entity_recognizer.dfy ===
/** The entity recogniser: grouping the mentions a named-entity pipeline finds
    in a title by entity type, attaching them to articles, counting the most
    mentioned entities and building the newest-first timeline of one entity.
    The pipeline itself is an input: for a text it yields either the ordered
    (label, text) mentions it recognised or nothing, when it raises. */
module EntityRecognizer {
  import Wrappers
  import opened Tally
  import opened Articles

  /** A recognised mention: its entity label and its text. */
  type Mention = (string, string)

  /** The entity lists of one text: label to texts, in first-seen order. */
  type Entities = seq<(string, seq<string>)>

  function LabelOf(m: Mention): string {
    m.0
  }

  function TextOf(m: Mention): string {
    m.1
  }

  /** The texts of the mentions labelled `l`, in order, repetitions kept. */
  function LabelTexts(ms: seq<Mention>, l: string): seq<string> {
    Map(Select(ms, LabelOf, l), TextOf)
  }

  /** A text is among those labelled `l` exactly when it was mentioned with
      that label. */
  lemma LabelTextsMember(ms: seq<Mention>, l: string, t: string)
    ensures t in LabelTexts(ms, l) <==> (l, t) in ms
  {
    var s := Select(ms, LabelOf, l);
    if (l, t) in ms {
      SelectMembership(ms, LabelOf, (l, t));
      var j :| 0 <= j < |s| && s[j] == (l, t);
      assert LabelTexts(ms, l)[j] == t;
    }
    if t in LabelTexts(ms, l) {
      var j :| 0 <= j < |s| && s[j].1 == t;
      assert s[j] in ms && s[j].0 == l;
    }
  }

  /** One pass of the loop over the recognised mentions: a new label opens a
      list holding the text; a known label gets the text appended unless its
      list already holds it. */
  function AddMention(d: Entities, m: Mention): (r: Entities)
    requires Distinct(Keys(d))
    ensures Keys(r) == if m.0 in Keys(d) then Keys(d) else Keys(d) + [m.0]
    ensures forall i :: 0 <= i < |d| ==>
      r[i].1 == if d[i].0 == m.0 && m.1 !in d[i].1 then d[i].1 + [m.1] else d[i].1
    ensures m.0 !in Keys(d) ==> r[|d|] == (m.0, [m.1])
  {
    if m.0 in Keys(d) then
      var k := FirstIndex(Keys(d), m.0);
      var r := d[k := (m.0, if m.1 in d[k].1 then d[k].1 else d[k].1 + [m.1])];
      assert forall i :: 0 <= i < |d| && i != k ==> d[i].0 != m.0 by {
        forall i | 0 <= i < |d| && i != k ensures d[i].0 != m.0 {
          assert Keys(d)[i] != Keys(d)[k];
        }
      }
      assert Keys(r) == Keys(d);
      r
    else
      var r := d + [(m.0, [m.1])];
      assert Keys(r) == Keys(d) + [m.0];
      r
  }

  /** The loop of `extract_entities` over all recognised mentions. Its labels
      are the distinct labels in the order first seen, and each label's list
      holds the distinct texts mentioned with it, in the order first seen. */
  function Collect(ms: seq<Mention>): (r: Entities)
    ensures Keys(r) == Dedup(Map(ms, LabelOf))
    ensures forall i :: 0 <= i < |r| ==> r[i].1 == Dedup(LabelTexts(ms, r[i].0))
    decreases |ms|
  {
    if ms == [] then []
    else
      var init := ms[..|ms| - 1];
      var prev := Collect(init);
      var r := AddMention(prev, ms[|ms| - 1]);
      CollectKeysStep(ms, prev, r);
      CollectTextsStep(ms, prev, r);
      r
  }

  lemma CollectKeysStep(ms: seq<Mention>, prev: Entities, r: Entities)
    requires ms != [] && Keys(prev) == Dedup(Map(ms[..|ms| - 1], LabelOf))
    requires r == AddMention(prev, ms[|ms| - 1])
    ensures Keys(r) == Dedup(Map(ms, LabelOf))
  {
    var labels := Map(ms[..|ms| - 1], LabelOf);
    var l := ms[|ms| - 1].0;
    MapLast(ms, LabelOf);
    DedupSnoc(labels, l);
    assert l in Keys(prev) <==> l in labels;
  }

  lemma CollectTextsStep(ms: seq<Mention>, prev: Entities, r: Entities)
    requires ms != [] && Keys(prev) == Dedup(Map(ms[..|ms| - 1], LabelOf))
    requires forall j :: 0 <= j < |prev| ==> prev[j].1 == Dedup(LabelTexts(ms[..|ms| - 1], prev[j].0))
    requires r == AddMention(prev, ms[|ms| - 1])
    ensures forall i :: 0 <= i < |r| ==> r[i].1 == Dedup(LabelTexts(ms, r[i].0))
  {
    forall i | 0 <= i < |r| ensures r[i].1 == Dedup(LabelTexts(ms, r[i].0)) {
      CollectTextAt(ms[..|ms| - 1], ms[|ms| - 1], prev, r, i);
      LabelTextsLast(ms, r[i].0);
    }
  }

  /** The texts of a label grow by the last mention when it carries the label. */
  lemma LabelTextsLast(ms: seq<Mention>, l: string)
    requires ms != []
    ensures LabelTexts(ms, l) ==
      LabelTexts(ms[..|ms| - 1], l) + (if ms[|ms| - 1].0 == l then [ms[|ms| - 1].1] else [])
  {
    var last := ms[|ms| - 1];
    SelectLast(ms, LabelOf, l);
    MapAppend(Select(ms[..|ms| - 1], LabelOf, l), if last.0 == l then [last] else [], TextOf);
  }

  lemma CollectTextAt(init: seq<Mention>, last: Mention, prev: Entities, r: Entities, i: int)
    requires Keys(prev) == Dedup(Map(init, LabelOf))
    requires forall j :: 0 <= j < |prev| ==> prev[j].1 == Dedup(LabelTexts(init, prev[j].0))
    requires r == AddMention(prev, last)
    requires 0 <= i < |r|
    ensures r[i].1 == Dedup(LabelTexts(init, r[i].0) + (if last.0 == r[i].0 then [last.1] else []))
  {
    if i < |prev| {
      assert Keys(r)[i] == Keys(prev)[i];
      CollectTextKnown(LabelTexts(init, prev[i].0), last, prev[i], r[i]);
    } else {
      NoTextsOfNewLabel(init, last.0);
      DedupSnoc([], last.1);
    }
  }

  /** A known label's list is the deduplicated texts, extended by the new one. */
  lemma CollectTextKnown(texts: seq<string>, last: Mention, p: (string, seq<string>), q: (string, seq<string>))
    requires p.1 == Dedup(texts) && q.0 == p.0
    requires q.1 == if p.0 == last.0 && last.1 !in p.1 then p.1 + [last.1] else p.1
    ensures q.1 == Dedup(texts + (if last.0 == q.0 then [last.1] else []))
  {
    if last.0 == q.0 {
      DedupSnoc(texts, last.1);
      assert last.1 in texts <==> last.1 in p.1;
    } else {
      assert texts + [] == texts;
    }
  }

  /** A label never seen has no texts. */
  lemma NoTextsOfNewLabel(ms: seq<Mention>, l: string)
    requires l !in Map(ms, LabelOf)
    ensures LabelTexts(ms, l) == []
  {
    forall i | 0 <= i < |ms| ensures LabelOf(ms[i]) != l {
      assert Map(ms, LabelOf)[i] == ms[i].0;
    }
    SelectAbsent(ms, LabelOf, l);
  }

  /** `extract_entities(text)`: an empty text, or a pipeline that raises,
      gives no entities; otherwise the collected mentions. */
  function ExtractEntities(text: string, recognised: Wrappers.Option<seq<Mention>>): (r: Entities)
    ensures text == "" || recognised.None? ==> r == []
    ensures text != "" && recognised.Some? ==>
      Keys(r) == Dedup(Map(recognised.value, LabelOf)) &&
      forall i :: 0 <= i < |r| ==> r[i].1 == Dedup(LabelTexts(recognised.value, r[i].0))
  {
    if text == "" then []
    else match recognised
      case None => []
      case Some(ms) => Collect(ms)
  }

  /** The recognised entities form a mapping whose lists repeat nothing and
      hold exactly the texts mentioned with their label. */
  lemma ExtractEntitiesMembers(text: string, ms: seq<Mention>, i: int, t: string)
    requires text != ""
    requires 0 <= i < |ExtractEntities(text, Wrappers.Some(ms))|
    ensures Distinct(Keys(ExtractEntities(text, Wrappers.Some(ms))))
    ensures Distinct(ExtractEntities(text, Wrappers.Some(ms))[i].1)
    ensures t in ExtractEntities(text, Wrappers.Some(ms))[i].1 <==>
      (ExtractEntities(text, Wrappers.Some(ms))[i].0, t) in ms
  {
    var r := ExtractEntities(text, Wrappers.Some(ms));
    LabelTextsMember(ms, r[i].0, t);
  }

  /** Every label of the recognised mentions has a list. */
  lemma ExtractEntitiesLabels(text: string, ms: seq<Mention>, m: Mention)
    requires text != "" && m in ms
    ensures m.0 in Keys(ExtractEntities(text, Wrappers.Some(ms)))
  {
    var j :| 0 <= j < |ms| && ms[j] == m;
    assert Map(ms, LabelOf)[j] == m.0;
  }

  /** `process_articles`: each article gets the entities of its title; every
      other field is left as it was. */
  function ProcessArticles(articles: seq<Article>, recognise: string -> Wrappers.Option<seq<Mention>>): (r: seq<Article>)
    ensures |r| == |articles|
    ensures forall i :: 0 <= i < |r| ==>
      r[i].entities == ExtractEntities(articles[i].title, recognise(articles[i].title)) &&
      r[i].(entities := articles[i].entities) == articles[i]
  {
    Map(articles, (a: Article) => a.(entities := ExtractEntities(a.title, recognise(a.title))))
  }

  /** Processing depends on titles only, so processing twice is processing once. */
  lemma ProcessArticlesIdempotent(articles: seq<Article>, recognise: string -> Wrappers.Option<seq<Mention>>)
    ensures ProcessArticles(ProcessArticles(articles, recognise), recognise) == ProcessArticles(articles, recognise)
  {
    var once := ProcessArticles(articles, recognise);
    var twice := ProcessArticles(once, recognise);
    assert forall i :: 0 <= i < |once| ==> twice[i] == once[i];
  }

  // ----- mention counts -----

  /** The mentions `get_most_mentioned` reads from one article: none when it
      has no entities; the list of the requested type (none if it is absent);
      every list when no type is requested (the empty type). */
  function ArticleMentions(a: Article, entityType: string): (r: seq<string>)
    ensures a.entities == [] ==> r == []
    ensures entityType != "" ==> r == Lookup(a.entities, entityType, [])
  {
    if a.entities == [] then []
    else if entityType != "" then Lookup(a.entities, entityType, [])
    else Flatten(EntityLists(a))
  }

  /** All mentions read from `articles`, article after article. */
  function MentionsOf(articles: seq<Article>, entityType: string): seq<string>
    decreases |articles|
  {
    if articles == [] then [] else ArticleMentions(articles[0], entityType) + MentionsOf(articles[1..], entityType)
  }

  /** `get_most_mentioned(articles, entity_type, top_n)`: the most frequent
      mentions with their counts, most frequent first, at most `topN` of them. */
  function GetMostMentioned(articles: seq<Article>, entityType: string, topN: int): (r: seq<(string, int)>)
    ensures topN >= 0 ==> |r| <= topN
    ensures topN <= 0 ==> r == []
    ensures NonIncreasing(r) && Distinct(Keys(r))
    ensures forall i :: 0 <= i < |r| ==> r[i].1 == Occurrences(MentionsOf(articles, entityType), r[i].0) && r[i].1 > 0
    ensures topN > 0 ==> forall e :: e in MentionsOf(articles, entityType) && e !in Keys(r) ==>
      |r| == topN && Occurrences(MentionsOf(articles, entityType), e) <= r[topN - 1].1
    ensures TiesFirstSeen(r, MentionsOf(articles, entityType)) && CutFirstSeen(r, MentionsOf(articles, entityType), topN)
  {
    var ms := MentionsOf(articles, entityType);
    var r := MostCommon(ms, topN);
    forall e | e in ms && e !in Keys(r) && topN > 0 ensures |r| == topN && Occurrences(ms, e) <= r[topN - 1].1 {
      var k :| 0 <= k < |ms| && ms[k] == e;
    }
    r
  }

  /** Without a type, every entity list of every article is counted. */
  lemma {:induction false} MentionsOfAllTypes(articles: seq<Article>)
    ensures MentionsOf(articles, "") == AllMentions(articles)
    decreases |articles|
  {
    if articles != [] {
      MentionsOfAllTypes(articles[1..]);
    }
  }

  /** With a type, a mention's count is the sum over the articles of its count
      in that type's list. */
  lemma {:induction false} MentionsOfTypeCount(articles: seq<Article>, entityType: string, e: string)
    requires entityType != ""
    ensures Occurrences(MentionsOf(articles, entityType), e) ==
      SumOf(articles, (a: Article) => Occurrences(Lookup(a.entities, entityType, []), e))
    decreases |articles|
  {
    if articles != [] {
      MentionsOfTypeCount(articles[1..], entityType, e);
      var a := articles[0];
      assert a.entities == [] ==> Lookup(a.entities, entityType, []) == [];
    }
  }

  // ----- timeline -----

  /** The inner loop of `get_entity_timeline`: some list holds `entity`. */
  predicate InAnyList(lists: seq<seq<string>>, entity: string)
    decreases |lists|
  {
    lists != [] && (entity in lists[0] || InAnyList(lists[1..], entity))
  }

  lemma {:induction false} InAnyListSpec(lists: seq<seq<string>>, entity: string)
    ensures InAnyList(lists, entity) <==> exists j :: 0 <= j < |lists| && entity in lists[j]
    decreases |lists|
  {
    if lists != [] {
      InAnyListSpec(lists[1..], entity);
      if exists j :: 0 <= j < |lists| && entity in lists[j] {
        var j :| 0 <= j < |lists| && entity in lists[j];
        if j > 0 {
          assert entity in lists[1..][j - 1];
        }
      }
      if exists j :: 0 <= j < |lists[1..]| && entity in lists[1..][j] {
        var j :| 0 <= j < |lists[1..]| && entity in lists[1..][j];
        assert entity in lists[j + 1];
      }
    }
  }

  /** Some entity list of `a` holds `entity`. */
  predicate MentionsEntity(a: Article, entity: string) {
    exists j :: 0 <= j < |a.entities| && entity in a.entities[j].1
  }

  function Mentioning(entity: string): Article -> bool {
    (a: Article) => InAnyList(EntityLists(a), entity)
  }

  /** `get_entity_timeline(articles, entity)`: the articles mentioning
      `entity`, newest first by timestamp (scrape time when there is none),
      ties in input order. */
  function GetEntityTimeline(articles: seq<Article>, entity: string): (r: seq<Article>)
    ensures multiset(r) == multiset(Filter(articles, Mentioning(entity)))
    ensures forall i, j :: 0 <= i < j < |r| ==> TimeKey(r[i]) >= TimeKey(r[j])
    ensures forall k :: Select(r, TimeKey, k) == Select(Filter(articles, Mentioning(entity)), TimeKey, k)
  {
    SortDescBy(Filter(articles, Mentioning(entity)), TimeKey)
  }

  /** An article is on the timeline as often as it occurs in the input if it
      mentions the entity, and not at all otherwise. */
  lemma TimelineMembers(articles: seq<Article>, entity: string, a: Article)
    ensures Occurrences(GetEntityTimeline(articles, entity), a) ==
      if MentionsEntity(a, entity) then Occurrences(articles, a) else 0
  {
    FilterOccurrences(articles, Mentioning(entity), a);
    InAnyListSpec(EntityLists(a), entity);
    if MentionsEntity(a, entity) {
      var j :| 0 <= j < |a.entities| && entity in a.entities[j].1;
      assert entity in EntityLists(a)[j];
    }
  }
}

=== FILE: insights_generator.dfy ===
/** Insights over a collection of articles: the daily digest grouped by
    topic, the entities mentioned often enough to count as a trend, and a
    per-outlet comparison. The current date and time are arguments. */
module InsightsGenerator {
  import opened Text
  import opened Tally
  import opened Articles

  // ----- daily summary -----

  /** The digest text when there is nothing to summarise. */
  const NoArticlesMessage: string := "No articles available for summary."

  /** The most headlines listed under one topic. */
  const HeadlinesPerTopic: int := 3

  /** One topic of the digest: its name, its number of articles and the
      headlines it lists. */
  datatype Section = Section(topic: string, count: int, headlines: seq<Article>)

  /** The number of elements of a group. */
  function GroupSize<K, T>(g: (K, seq<T>)): int {
    |g.1|
  }

  /** The articles under topic `t` (a missing topic counting as "Other"), in
      input order. */
  function InTopic(articles: seq<Article>, t: string): seq<Article> {
    Select(articles, TopicOrOther, t)
  }

  /** Groups ordered by size are still the groups: one per key present, each
      holding exactly the elements with its key. */
  lemma SortedGroups<T, K>(xs: seq<T>, key: T -> K)
    ensures var gs := GroupBy(xs, key); var r := SortDescBy(gs, GroupSize);
      && |r| == |gs| == |Dedup(Map(xs, key))|
      && Distinct(Keys(r))
      && (forall i :: 0 <= i < |r| ==> r[i].1 == Select(xs, key, r[i].0) && r[i].0 in Map(xs, key))
      && (forall k :: k in Map(xs, key) ==> k in Keys(r))
  {
    var gs := GroupBy(xs, key);
    SortedGroupsFacts(xs, key, gs, SortDescBy(gs, GroupSize));
  }

  /** Groups of equal size keep the order in which their keys first occur. */
  lemma SortedGroupsTies<T, K>(xs: seq<T>, key: T -> K)
    ensures var r := SortDescBy(GroupBy(xs, key), GroupSize);
      forall i, j :: 0 <= i < j < |r| && GroupSize(r[i]) == GroupSize(r[j]) ==>
        SeenAt(Map(xs, key), r[i].0) < SeenAt(Map(xs, key), r[j].0)
  {
    var gs := GroupBy(xs, key);
    DedupSeenInOrder(gs, Map(xs, key));
    StableTies(gs, SortDescBy(gs, GroupSize), Map(xs, key), GroupSize);
  }

  lemma SortedGroupsFacts<T, K>(xs: seq<T>, key: T -> K, gs: seq<(K, seq<T>)>, r: seq<(K, seq<T>)>)
    requires Keys(gs) == Dedup(Map(xs, key))
    requires forall i :: 0 <= i < |gs| ==> gs[i].1 == Select(xs, key, gs[i].0)
    requires multiset(r) == multiset(gs)
    ensures |r| == |gs| == |Dedup(Map(xs, key))|
    ensures Distinct(Keys(r))
    ensures forall i :: 0 <= i < |r| ==> r[i].1 == Select(xs, key, r[i].0) && r[i].0 in Map(xs, key)
    ensures forall k :: k in Map(xs, key) ==> k in Keys(r)
  {
    assert |r| == |gs| by {
      assert |multiset(r)| == |multiset(gs)|;
    }
    PermutedKeysDistinct(gs, r);
    forall i | 0 <= i < |r|
      ensures r[i].1 == Select(xs, key, r[i].0) && r[i].0 in Map(xs, key)
    {
      assert r[i] in multiset(gs);
      var k :| 0 <= k < |gs| && gs[k] == r[i];
      assert Keys(gs)[k] == r[i].0;
    }
    forall k | k in Map(xs, key) ensures k in Keys(r) {
      assert k in Dedup(Map(xs, key));
      var a :| 0 <= a < |gs| && Keys(gs)[a] == k;
      assert gs[a] in multiset(r);
      var i :| 0 <= i < |r| && r[i] == gs[a];
      assert Keys(r)[i] == k;
    }
  }

  /** A topic group as a section: its topic, its size and its first headlines. */
  function SectionOf(g: (string, seq<Article>)): Section {
    Section(g.0, |g.1|, Take(g.1, HeadlinesPerTopic))
  }

  /** The topic groups of the digest, largest first, each with its first
      three articles; topics of equal size come in the order in which they
      first occur. */
  function Sections(articles: seq<Article>): (r: seq<Section>)
    ensures |r| == |Dedup(Map(articles, TopicOrOther))|
    ensures forall i, j :: 0 <= i < j < |r| ==> r[i].count >= r[j].count
    ensures forall i :: 0 <= i < |r| ==>
      && r[i].count == |InTopic(articles, r[i].topic)|
      && r[i].headlines == Take(InTopic(articles, r[i].topic), HeadlinesPerTopic)
      && |r[i].headlines| <= HeadlinesPerTopic
    ensures forall i :: 0 <= i < |r| ==> r[i].topic in Map(articles, TopicOrOther)
    ensures forall i, j :: 0 <= i < j < |r| && r[i].count == r[j].count ==>
      SeenAt(Map(articles, TopicOrOther), r[i].topic) < SeenAt(Map(articles, TopicOrOther), r[j].topic)
  {
    var ordered := SortDescBy(GroupBy(articles, TopicOrOther), GroupSize);
    SortedGroups(articles, TopicOrOther);
    SortedGroupsTies(articles, TopicOrOther);
    var r := Map(ordered, SectionOf);
    SectionsFacts(articles, ordered, r);
    r
  }

  lemma SectionsFacts(articles: seq<Article>, ordered: seq<(string, seq<Article>)>, r: seq<Section>)
    requires |ordered| == |Dedup(Map(articles, TopicOrOther))|
    requires forall i :: 0 <= i < |ordered| ==>
      ordered[i].1 == Select(articles, TopicOrOther, ordered[i].0) && ordered[i].0 in Map(articles, TopicOrOther)
    requires forall i, j :: 0 <= i < j < |ordered| ==> GroupSize(ordered[i]) >= GroupSize(ordered[j])
    requires forall i, j :: 0 <= i < j < |ordered| && GroupSize(ordered[i]) == GroupSize(ordered[j]) ==>
      SeenAt(Map(articles, TopicOrOther), ordered[i].0) < SeenAt(Map(articles, TopicOrOther), ordered[j].0)
    requires r == Map(ordered, SectionOf)
    ensures |r| == |Dedup(Map(articles, TopicOrOther))|
    ensures forall i, j :: 0 <= i < j < |r| ==> r[i].count >= r[j].count
    ensures forall i :: 0 <= i < |r| ==>
      && r[i].count == |InTopic(articles, r[i].topic)|
      && r[i].headlines == Take(InTopic(articles, r[i].topic), HeadlinesPerTopic)
      && |r[i].headlines| <= HeadlinesPerTopic
    ensures forall i :: 0 <= i < |r| ==> r[i].topic in Map(articles, TopicOrOther)
    ensures forall i, j :: 0 <= i < j < |r| && r[i].count == r[j].count ==>
      SeenAt(Map(articles, TopicOrOther), r[i].topic) < SeenAt(Map(articles, TopicOrOther), r[j].topic)
  {
  }

  /** Every topic present gets exactly one section. */
  lemma SectionsCoverTopics(articles: seq<Article>)
    ensures forall t :: t in Map(articles, TopicOrOther) <==>
      exists i :: 0 <= i < |Sections(articles)| && Sections(articles)[i].topic == t
    ensures forall i, j :: 0 <= i < j < |Sections(articles)| ==>
      Sections(articles)[i].topic != Sections(articles)[j].topic
  {
    var ordered := SortDescBy(GroupBy(articles, TopicOrOther), GroupSize);
    SortedGroups(articles, TopicOrOther);
    SectionsCover(Map(articles, TopicOrOther), ordered, Sections(articles));
  }

  lemma SectionsCover(topics: seq<string>, ordered: seq<(string, seq<Article>)>, r: seq<Section>)
    requires Distinct(Keys(ordered))
    requires forall i :: 0 <= i < |ordered| ==> ordered[i].0 in topics
    requires forall t :: t in topics ==> t in Keys(ordered)
    requires r == Map(ordered, SectionOf)
    ensures forall t :: t in topics <==> exists i :: 0 <= i < |r| && r[i].topic == t
    ensures forall i, j :: 0 <= i < j < |r| ==> r[i].topic != r[j].topic
  {
    assert forall i :: 0 <= i < |r| ==> r[i].topic == Keys(ordered)[i];
    forall t | t in topics ensures exists i :: 0 <= i < |r| && r[i].topic == t {
      var i :| 0 <= i < |ordered| && Keys(ordered)[i] == t;
      assert r[i].topic == t;
    }
  }

  /** The sections account for every article exactly once. */
  lemma SectionsSum(articles: seq<Article>)
    ensures SumOf(Sections(articles), (s: Section) => s.count) == |articles|
  {
    var groups := GroupBy(articles, TopicOrOther);
    var ordered := SortDescBy(groups, GroupSize);
    SortedGroups(articles, TopicOrOther);
    GroupBySum(articles, TopicOrOther);
    SumOfPermuted(ordered, groups, GroupSize);
    SizesSum(groups);
    SumOfSections(Sections(articles), ordered);
  }

  lemma {:induction false} SizesSum<K, T>(gs: seq<(K, seq<T>)>)
    ensures SumOf(gs, GroupSize) == SumCounts(Sizes(gs))
    decreases |gs|
  {
    if gs != [] {
      assert Sizes(gs)[1..] == Sizes(gs[1..]);
      SizesSum(gs[1..]);
    }
  }

  lemma {:induction false} SumOfSections(r: seq<Section>, gs: seq<(string, seq<Article>)>)
    requires |r| == |gs| && forall i :: 0 <= i < |r| ==> r[i].count == |gs[i].1|
    ensures SumOf(r, (s: Section) => s.count) == SumOf(gs, GroupSize)
    decreases |r|
  {
    if r != [] {
      SumOfSections(r[1..], gs[1..]);
    }
  }

  /** `{"positive": "📈", "negative": "📉", "neutral": "➡️"}.get(sentiment, "")`. */
  function SentimentEmoji(sentiment: string): string {
    if sentiment == "positive" then "📈"
    else if sentiment == "negative" then "📉"
    else if sentiment == "neutral" then "➡️"
    else ""
  }

  /** The text between a headline's number and its title. */
  const NumberSuffix: string := ". "

  /** The start of the line naming a headline's outlet. */
  const SourcePrefix: string := "     Source: "

  /** The line that lists headline number `k`. */
  function HeadlineLine(a: Article, k: int): string {
    "  " + IntToString(k) + NumberSuffix + a.title + " " + SentimentEmoji(a.sentiment)
  }

  /** The line that names a headline's outlet. */
  function SourceLine(a: Article): string {
    SourcePrefix + a.source
  }

  /** Two lines per item, the first numbered from `n`. */
  function Listing<T>(xs: seq<T>, n: int, first: (T, int) -> string, second: T -> string): (r: seq<string>)
    ensures |r| == 2 * |xs|
    decreases |xs|
  {
    if xs == [] then [] else [first(xs[0], n), second(xs[0])] + Listing(xs[1..], n + 1, first, second)
  }

  lemma PairConsAt<T>(a: T, b: T, rest: seq<T>, k: int)
    requires 0 <= k && 2 * k + 1 < |rest|
    ensures ([a, b] + rest)[2 * (k + 1)] == rest[2 * k]
    ensures ([a, b] + rest)[2 * (k + 1) + 1] == rest[2 * k + 1]
  {
  }

  /** Line `2k` of a listing is item `k` under number `n + k`; line `2k + 1`
      is its second line. */
  lemma {:induction false} ListingAt<T>(xs: seq<T>, n: int, first: (T, int) -> string, second: T -> string, k: int)
    requires 0 <= k < |xs|
    ensures Listing(xs, n, first, second)[2 * k] == first(xs[k], n + k)
    ensures Listing(xs, n, first, second)[2 * k + 1] == second(xs[k])
    decreases k
  {
    if k > 0 {
      ListingAt(xs[1..], n + 1, first, second, k - 1);
      PairConsAt(first(xs[0], n), second(xs[0]), Listing(xs[1..], n + 1, first, second), k - 1);
    }
  }

  /** The two lines of each listed headline, numbered from `n`. */
  function HeadlineLines(headlines: seq<Article>, n: int): (r: seq<string>)
    ensures |r| == 2 * |headlines|
  {
    Listing(headlines, n, HeadlineLine, SourceLine)
  }

  /** Line `2k` lists headline `k` under number `n + k`; line `2k + 1` names
      its outlet. */
  lemma HeadlineLinesAt(headlines: seq<Article>, n: int, k: int)
    requires 0 <= k < |headlines|
    ensures HeadlineLines(headlines, n)[2 * k] == HeadlineLine(headlines[k], n + k)
    ensures HeadlineLines(headlines, n)[2 * k + 1] == SourcePrefix + headlines[k].source
  {
    ListingAt(headlines, n, HeadlineLine, SourceLine, k);
  }

  /** The text after a topic's article count. */
  const CountSuffix: string := " articles):"

  /** The heading line of a topic's section: a blank line, then the topic and
      its article count. */
  function TopicHeader(topic: string, count: int): string {
    "\n" + topic + " (" + IntToString(count) + CountSuffix
  }

  /** The heading line of a section followed by its numbered headlines. */
  function SectionLines(s: Section): (r: seq<string>)
    ensures |r| == 1 + 2 * |s.headlines|
    ensures r[0] == TopicHeader(s.topic, s.count)
    ensures r[1..] == HeadlineLines(s.headlines, 1)
  {
    [TopicHeader(s.topic, s.count)] + HeadlineLines(s.headlines, 1)
  }

  /** The first line of a digest. */
  const TitlePrefix: string := "Daily News Summary - "

  /** The second line of a digest starts with this. */
  const TotalPrefix: string := "Total Articles Analyzed: "

  /** The number of lines the sections of a digest take. */
  function LineCount(sections: seq<Section>): nat
    decreases |sections|
  {
    if sections == [] then 0 else 1 + 2 * |sections[0].headlines| + LineCount(sections[1..])
  }

  /** All lines of a digest: the dated title, the total, an empty line, then
      the lines of each section in order. */
  function SummaryLines(date: string, total: int, sections: seq<Section>): (r: seq<string>)
    ensures |r| == 3 + LineCount(sections)
    ensures r[0] == TitlePrefix + date && r[1] == TotalPrefix + IntToString(total) && r[2] == ""
    ensures r[3..] == Flatten(Map(sections, SectionLines))
  {
    var body := Flatten(Map(sections, SectionLines));
    SectionLinesCount(sections);
    [TitlePrefix + date, TotalPrefix + IntToString(total), ""] + body
  }

  lemma {:induction false} SectionLinesCount(sections: seq<Section>)
    ensures |Flatten(Map(sections, SectionLines))| == LineCount(sections)
    decreases |sections|
  {
    if sections != [] {
      assert Map(sections, SectionLines)[1..] == Map(sections[1..], SectionLines);
      SectionLinesCount(sections[1..]);
    }
  }

  /** `generate_daily_summary`: the fixed message for no articles; otherwise
      the digest lines joined by newlines, which opens with the dated title
      and the total and holds, for every topic present, its heading with the
      topic's article count and the lines of its first three articles. */
  function DailySummary(articles: seq<Article>, date: string): (r: string)
    ensures articles == [] ==> r == NoArticlesMessage
    ensures articles != [] ==>
      StartsWith(r, (TitlePrefix + date) + "\n" + (TotalPrefix + IntToString(|articles|)) + "\n")
    ensures articles != [] ==> forall t :: t in Map(articles, TopicOrOther) ==>
      Contains(r, TopicHeader(t, |InTopic(articles, t)|))
    ensures articles != [] ==> forall t, k :: t in Map(articles, TopicOrOther) && 0 <= k < HeadlinesPerTopic && k < |InTopic(articles, t)| ==>
      Contains(r, HeadlineLine(InTopic(articles, t)[k], k + 1)) && Contains(r, SourceLine(InTopic(articles, t)[k]))
  {
    if articles == [] then NoArticlesMessage
    else
      var lines := SummaryLines(date, |articles|, Sections(articles));
      JoinStartsWith(lines, "\n");
      DigestHoldsSections(articles, lines);
      Join(lines, "\n")
  }

  /** Each topic's heading and headline lines are among the digest's lines. */
  lemma DigestHoldsSections(articles: seq<Article>, lines: seq<string>)
    requires |lines| >= 3 && lines[3..] == Flatten(Map(Sections(articles), SectionLines))
    ensures forall t :: t in Map(articles, TopicOrOther) ==>
      Contains(Join(lines, "\n"), TopicHeader(t, |InTopic(articles, t)|))
    ensures forall t, k :: t in Map(articles, TopicOrOther) && 0 <= k < HeadlinesPerTopic && k < |InTopic(articles, t)| ==>
      Contains(Join(lines, "\n"), HeadlineLine(InTopic(articles, t)[k], k + 1))
      && Contains(Join(lines, "\n"), SourceLine(InTopic(articles, t)[k]))
  {
    forall t | t in Map(articles, TopicOrOther)
      ensures Contains(Join(lines, "\n"), TopicHeader(t, |InTopic(articles, t)|))
      ensures forall k :: 0 <= k < HeadlinesPerTopic && k < |InTopic(articles, t)| ==>
        Contains(Join(lines, "\n"), HeadlineLine(InTopic(articles, t)[k], k + 1))
        && Contains(Join(lines, "\n"), SourceLine(InTopic(articles, t)[k]))
    {
      var i := SectionIndex(articles, t);
      var s := Sections(articles)[i];
      SectionInDigest(Sections(articles), lines, i);
      forall k | 0 <= k < HeadlinesPerTopic && k < |InTopic(articles, t)|
        ensures k < |s.headlines| && s.headlines[k] == InTopic(articles, t)[k]
      {
        TakeAt(InTopic(articles, t), HeadlinesPerTopic, k);
      }
    }
  }

  /** The position of a present topic's section. */
  lemma SectionIndex(articles: seq<Article>, t: string) returns (i: int)
    requires t in Map(articles, TopicOrOther)
    ensures 0 <= i < |Sections(articles)| && Sections(articles)[i].topic == t
    ensures Sections(articles)[i].count == |InTopic(articles, t)|
    ensures Sections(articles)[i].headlines == Take(InTopic(articles, t), HeadlinesPerTopic)
  {
    SectionsCoverTopics(articles);
    i :| 0 <= i < |Sections(articles)| && Sections(articles)[i].topic == t;
  }

  /** The heading and headline lines of section `i` are in the joined digest. */
  lemma SectionInDigest(sections: seq<Section>, lines: seq<string>, i: int)
    requires |lines| >= 3 && lines[3..] == Flatten(Map(sections, SectionLines))
    requires 0 <= i < |sections|
    ensures Contains(Join(lines, "\n"), TopicHeader(sections[i].topic, sections[i].count))
    ensures forall k :: 0 <= k < |sections[i].headlines| ==>
      Contains(Join(lines, "\n"), HeadlineLine(sections[i].headlines[k], k + 1))
      && Contains(Join(lines, "\n"), SourceLine(sections[i].headlines[k]))
  {
    LineOfSection(sections, lines, i, 0);
    forall k | 0 <= k < |sections[i].headlines|
      ensures Contains(Join(lines, "\n"), HeadlineLine(sections[i].headlines[k], k + 1))
      ensures Contains(Join(lines, "\n"), SourceLine(sections[i].headlines[k]))
    {
      HeadlineInDigest(sections, lines, i, k);
    }
  }

  /** The two lines of headline `k` of section `i` are in the joined digest. */
  lemma HeadlineInDigest(sections: seq<Section>, lines: seq<string>, i: int, k: int)
    requires |lines| >= 3 && lines[3..] == Flatten(Map(sections, SectionLines))
    requires 0 <= i < |sections| && 0 <= k < |sections[i].headlines|
    ensures Contains(Join(lines, "\n"), HeadlineLine(sections[i].headlines[k], k + 1))
    ensures Contains(Join(lines, "\n"), SourceLine(sections[i].headlines[k]))
  {
    SectionLineAt(sections[i], k);
    LineOfSection(sections, lines, i, 1 + 2 * k);
    LineOfSection(sections, lines, i, 2 + 2 * k);
  }

  /** Lines `1 + 2k` and `2 + 2k` of a section list its headline `k`. */
  lemma SectionLineAt(s: Section, k: int)
    requires 0 <= k < |s.headlines|
    ensures SectionLines(s)[1 + 2 * k] == HeadlineLine(s.headlines[k], k + 1)
    ensures SectionLines(s)[2 + 2 * k] == SourceLine(s.headlines[k])
  {
    HeadlineLinesAt(s.headlines, 1, k);
    assert SectionLines(s)[1 + 2 * k] == HeadlineLines(s.headlines, 1)[2 * k];
    assert SectionLines(s)[2 + 2 * k] == HeadlineLines(s.headlines, 1)[2 * k + 1];
  }

  /** Line `m` of section `i` is in the joined digest. */
  lemma LineOfSection(sections: seq<Section>, lines: seq<string>, i: int, m: int)
    requires |lines| >= 3 && lines[3..] == Flatten(Map(sections, SectionLines))
    requires 0 <= i < |sections| && 0 <= m < |SectionLines(sections[i])|
    ensures Contains(Join(lines, "\n"), SectionLines(sections[i])[m])
  {
    var xss := Map(sections, SectionLines);
    assert xss[i] == SectionLines(sections[i]);
    FlattenMember(xss, i, m);
    var p :| 0 <= p < |lines[3..]| && lines[3..][p] == xss[i][m];
    JoinContains(lines, "\n", 3 + p);
  }

  /** A digest of some articles is never the no-articles message. */
  lemma DailySummaryDistinguishesEmpty(articles: seq<Article>, date: string)
    ensures DailySummary(articles, date) == NoArticlesMessage <==> articles == []
  {
    if articles != [] {
      var r := DailySummary(articles, date);
      assert r[0] == TitlePrefix[0];
    }
  }

  // ----- breaking trends -----

  /** The least number of mentions that makes an entity a trend. */
  const TrendThreshold: int := 3

  /** The most trends reported. */
  const MaxTrends: int := 10

  /** The `type` of every reported trend. */
  const EntityTrend: string := "entity"

  /** One reported trend. */
  datatype Trend = Trend(trendType: string, name: string, mentions: int)

  /** An entry counted at least `TrendThreshold` times. */
  predicate Frequent<T>(p: (T, int)) {
    p.1 >= TrendThreshold
  }

  /** Filtering an association list keeps its keys distinct. */
  lemma {:induction false} FilterDistinctKeys<K, V>(ps: seq<(K, V)>, p: ((K, V)) -> bool)
    requires Distinct(Keys(ps))
    ensures Distinct(Keys(Filter(ps, p)))
    decreases |ps|
  {
    if ps != [] {
      assert Keys(ps[1..]) == Keys(ps)[1..];
      FilterDistinctKeys(ps[1..], p);
      var rest := Filter(ps[1..], p);
      if p(ps[0]) {
        KeysCons(ps[0], rest);
        forall j | 0 <= j < |rest| ensures rest[j].0 != ps[0].0 {
          var k :| 0 <= k < |ps[1..]| && ps[1..][k] == rest[j];
          assert Keys(ps)[k + 1] == rest[j].0;
        }
      }
    }
  }

  /** The entries kept by the threshold filter carry the counts of the
      tally, and each is at least three. */
  lemma FrequentCounts<T>(xs: seq<T>, counts: seq<(T, int)>, hot: seq<(T, int)>)
    requires forall i :: 0 <= i < |counts| ==> counts[i].1 == Occurrences(xs, counts[i].0)
    requires forall i :: 0 <= i < |hot| ==> Frequent(hot[i]) && hot[i] in counts
    ensures forall i :: 0 <= i < |hot| ==> hot[i].1 == Occurrences(xs, hot[i].0) >= TrendThreshold
  {
  }

  /** Every entry of the tally that reaches the threshold is kept. */
  lemma FrequentKept<T>(counts: seq<(T, int)>, hot: seq<(T, int)>)
    requires hot == Filter(counts, Frequent)
    ensures forall j :: 0 <= j < |counts| && Frequent(counts[j]) ==> counts[j] in hot
  {
    forall j | 0 <= j < |counts| && Frequent(counts[j]) ensures counts[j] in hot {
      FilterMembership(counts, Frequent, counts[j]);
    }
  }

  /** An element occurring three times or more, whose tally entry is kept,
      is among the kept keys. */
  lemma FrequentCovers<T>(xs: seq<T>, counts: seq<(T, int)>, hot: seq<(T, int)>)
    requires forall i :: 0 <= i < |counts| ==> counts[i].1 == Occurrences(xs, counts[i].0)
    requires forall i :: 0 <= i < |xs| ==> xs[i] in Keys(counts)
    requires forall j :: 0 <= j < |counts| && Frequent(counts[j]) ==> counts[j] in hot
    ensures forall i :: 0 <= i < |xs| && Occurrences(xs, xs[i]) >= TrendThreshold ==> xs[i] in Keys(hot)
  {
    forall k | 0 <= k < |xs| && Occurrences(xs, xs[k]) >= TrendThreshold ensures xs[k] in Keys(hot) {
      FrequentCoversAt(xs, counts, hot, k);
    }
  }

  lemma FrequentCoversAt<T>(xs: seq<T>, counts: seq<(T, int)>, hot: seq<(T, int)>, k: int)
    requires forall i :: 0 <= i < |counts| ==> counts[i].1 == Occurrences(xs, counts[i].0)
    requires forall j :: 0 <= j < |counts| && Frequent(counts[j]) ==> counts[j] in hot
    requires 0 <= k < |xs| && xs[k] in Keys(counts) && Occurrences(xs, xs[k]) >= TrendThreshold
    ensures xs[k] in Keys(hot)
  {
    var a :| 0 <= a < |counts| && Keys(counts)[a] == xs[k];
    assert counts[a] in hot;
    var b :| 0 <= b < |hot| && hot[b] == counts[a];
    assert Keys(hot)[b] == xs[k];
  }

  /** The first ten of the frequent entries sorted by count keep the facts of
      the frequent entries, and an element left out has no more occurrences
      than the tenth reported one. */
  lemma TopTrendsFacts<T>(xs: seq<T>, hot: seq<(T, int)>, sorted: seq<(T, int)>, r: seq<(T, int)>)
    requires Distinct(Keys(hot))
    requires forall i :: 0 <= i < |hot| ==> hot[i].1 == Occurrences(xs, hot[i].0) >= TrendThreshold
    requires forall i :: 0 <= i < |xs| && Occurrences(xs, xs[i]) >= TrendThreshold ==> xs[i] in Keys(hot)
    requires multiset(sorted) == multiset(hot) && NonIncreasing(sorted)
    requires r == Take(sorted, MaxTrends)
    ensures Distinct(Keys(r))
    ensures forall i :: 0 <= i < |r| ==> r[i].1 == Occurrences(xs, r[i].0) >= TrendThreshold
    ensures forall i :: 0 <= i < |xs| && Occurrences(xs, xs[i]) >= TrendThreshold && xs[i] !in Keys(r) ==>
      |r| == MaxTrends && Occurrences(xs, xs[i]) <= r[MaxTrends - 1].1
  {
    PermutedKeysDistinct(hot, sorted);
    assert forall i :: 0 <= i < |r| ==> r[i] == sorted[i];
    assert forall i :: 0 <= i < |r| ==> Keys(r)[i] == Keys(sorted)[i];
    forall i | 0 <= i < |r| ensures r[i].1 == Occurrences(xs, r[i].0) >= TrendThreshold {
      assert r[i] in multiset(hot);
    }
    forall k | 0 <= k < |xs| && Occurrences(xs, xs[k]) >= TrendThreshold && xs[k] !in Keys(r)
      ensures |r| == MaxTrends && Occurrences(xs, xs[k]) <= r[MaxTrends - 1].1
    {
      var a :| 0 <= a < |hot| && Keys(hot)[a] == xs[k];
      assert hot[a] in multiset(sorted);
      var p :| 0 <= p < |sorted| && sorted[p] == hot[a];
      assert forall q :: 0 <= q < |r| ==> sorted[q].0 != xs[k] by {
        forall q | 0 <= q < |r| ensures sorted[q].0 != xs[k] {
          assert Keys(r)[q] == sorted[q].0;
        }
      }
    }
  }

  /** The ranking of `identify_breaking_trends` over the mentions `xs`: the
      elements occurring at least three times with their counts, most
      frequent first, at most ten. */
  function RankTrends<T(==)>(xs: seq<T>): (r: seq<(T, int)>)
    ensures |r| <= MaxTrends && NonIncreasing(r)
  {
    Take(SortByCount(Filter(Counts(xs), Frequent)), MaxTrends)
  }

  /** Each ranked element is reported once, with its number of occurrences,
      which is at least three. */
  lemma RankTrendsCounts<T>(xs: seq<T>)
    ensures Distinct(Keys(RankTrends(xs)))
    ensures forall i :: 0 <= i < |RankTrends(xs)| ==>
      RankTrends(xs)[i].1 == Occurrences(xs, RankTrends(xs)[i].0) >= TrendThreshold
  {
    var counts := Counts(xs);
    var hot := Filter(counts, Frequent);
    FrequentHot(xs, counts, hot);
    TopTrendsFacts(xs, hot, SortByCount(hot), RankTrends(xs));
  }

  /** Elements ranked with equal counts come in first-seen order. */
  lemma RankTrendsTies<T>(xs: seq<T>)
    ensures TiesFirstSeen(RankTrends(xs), xs)
  {
    var counts := Counts(xs);
    DedupSeenInOrder(counts, xs);
    var hot := Filter(counts, Frequent);
    FilterIsSelect(counts, Frequent);
    SelectSeenInOrder(counts, xs, Frequent, true);
    SortByCountTies(hot, SortByCount(hot), xs);
    TakeTies(SortByCount(hot), xs, MaxTrends);
  }

  /** An element occurring three times or more is left out of the ranking
      only when ten elements occurring at least as often were ranked. */
  lemma RankTrendsComplete<T>(xs: seq<T>)
    ensures forall i :: 0 <= i < |xs| && Occurrences(xs, xs[i]) >= TrendThreshold && xs[i] !in Keys(RankTrends(xs)) ==>
      |RankTrends(xs)| == MaxTrends && Occurrences(xs, xs[i]) <= RankTrends(xs)[MaxTrends - 1].1
  {
    var counts := Counts(xs);
    var hot := Filter(counts, Frequent);
    FrequentHot(xs, counts, hot);
    TopTrendsFacts(xs, hot, SortByCount(hot), RankTrends(xs));
  }

  /** The threshold filter over a tally of `xs`. */
  lemma FrequentHot<T>(xs: seq<T>, counts: seq<(T, int)>, hot: seq<(T, int)>)
    requires counts == Counts(xs) && hot == Filter(counts, Frequent)
    ensures Distinct(Keys(hot))
    ensures forall i :: 0 <= i < |hot| ==> hot[i].1 == Occurrences(xs, hot[i].0) >= TrendThreshold
    ensures forall i :: 0 <= i < |xs| && Occurrences(xs, xs[i]) >= TrendThreshold ==> xs[i] in Keys(hot)
  {
    assert forall i :: 0 <= i < |xs| ==> xs[i] in Keys(counts) by {
      assert Keys(counts) == Dedup(xs);
    }
    FilterDistinctKeys(counts, Frequent);
    FrequentCounts(xs, counts, hot);
    FrequentKept(counts, hot);
    FrequentCovers(xs, counts, hot);
  }

  function TrendOf(p: (string, int)): Trend {
    Trend(EntityTrend, p.0, p.1)
  }

  /** The trends of a list of mentions: the entities mentioned at least three
      times, most mentioned first, each once, at most ten; entities mentioned
      equally often come in the order they are first mentioned. */
  function TrendsOf(mentions: seq<string>): (r: seq<Trend>)
    ensures |r| <= MaxTrends
    ensures forall i :: 0 <= i < |r| ==>
      r[i].trendType == EntityTrend && r[i].mentions == Occurrences(mentions, r[i].name) >= TrendThreshold
    ensures forall i, j :: 0 <= i < j < |r| ==> r[i].mentions >= r[j].mentions && r[i].name != r[j].name
    ensures forall i, j :: 0 <= i < j < |r| && r[i].mentions == r[j].mentions ==>
      SeenAt(mentions, r[i].name) < SeenAt(mentions, r[j].name)
  {
    var ranked := RankTrends(mentions);
    RankTrendsCounts(mentions);
    RankTrendsTies(mentions);
    var r := Map(ranked, TrendOf);
    TrendsOfRanked(mentions, ranked, r);
    r
  }

  /** Turning ranked entries into trends keeps their counts, order and
      distinct names. */
  lemma TrendsOfRanked(mentions: seq<string>, ranked: seq<(string, int)>, r: seq<Trend>)
    requires Distinct(Keys(ranked)) && NonIncreasing(ranked)
    requires forall i :: 0 <= i < |ranked| ==> ranked[i].1 == Occurrences(mentions, ranked[i].0) >= TrendThreshold
    requires TiesFirstSeen(ranked, mentions)
    requires |r| == |ranked| && forall i :: 0 <= i < |ranked| ==> r[i] == TrendOf(ranked[i])
    ensures forall i :: 0 <= i < |r| ==>
      r[i].trendType == EntityTrend && r[i].mentions == Occurrences(mentions, r[i].name) >= TrendThreshold
    ensures forall i, j :: 0 <= i < j < |r| ==> r[i].mentions >= r[j].mentions && r[i].name != r[j].name
    ensures forall i, j :: 0 <= i < j < |r| && r[i].mentions == r[j].mentions ==>
      SeenAt(mentions, r[i].name) < SeenAt(mentions, r[j].name)
  {
    forall i, j | 0 <= i < j < |r| ensures r[i].mentions >= r[j].mentions && r[i].name != r[j].name {
      assert Keys(ranked)[i] == r[i].name && Keys(ranked)[j] == r[j].name;
    }
  }

  /** No entity mentioned three times or more is missing unless ten trends
      with at least as many mentions were reported. */
  lemma TrendsOfComplete(mentions: seq<string>, e: string)
    requires e in mentions && Occurrences(mentions, e) >= TrendThreshold
    requires forall i :: 0 <= i < |TrendsOf(mentions)| ==> TrendsOf(mentions)[i].name != e
    ensures |TrendsOf(mentions)| == MaxTrends
    ensures Occurrences(mentions, e) <= TrendsOf(mentions)[MaxTrends - 1].mentions
  {
    var ranked := RankTrends(mentions);
    RankTrendsComplete(mentions);
    assert TrendsOf(mentions) == Map(ranked, TrendOf);
  }

  /** `identify_breaking_trends`: the trends of every entity mention of every
      article, counted over all entity types. */
  function BreakingTrends(articles: seq<Article>): (r: seq<Trend>)
    ensures |r| <= MaxTrends
    ensures forall i :: 0 <= i < |r| ==>
      r[i].trendType == EntityTrend && r[i].mentions == Occurrences(AllMentions(articles), r[i].name) >= TrendThreshold
    ensures forall i, j :: 0 <= i < j < |r| ==> r[i].mentions >= r[j].mentions && r[i].name != r[j].name
    ensures forall i, j :: 0 <= i < j < |r| && r[i].mentions == r[j].mentions ==>
      SeenAt(AllMentions(articles), r[i].name) < SeenAt(AllMentions(articles), r[j].name)
  {
    TrendsOf(AllMentions(articles))
  }

  // ----- source comparison -----

  /** What `compare_sources` reports for one outlet. */
  datatype SourceStats = SourceStats(
    totalArticles: int,
    sentimentDistribution: seq<(string, int)>,
    topTopics: seq<(string, int)>)

  /** The most topics listed per outlet. */
  const TopTopicsPerSource: int := 5

  /** The statistics of one outlet's articles: their number, the count of each
      sentiment present (first-seen order) and the five most frequent topics,
      a topic being left out only when five at least as frequent are listed. */
  function Stats(group: seq<Article>): (s: SourceStats)
    ensures s.totalArticles == |group|
    ensures Keys(s.sentimentDistribution) == Dedup(PresentSentiments(group))
    ensures forall i :: 0 <= i < |s.sentimentDistribution| ==>
      s.sentimentDistribution[i].1 == Occurrences(PresentSentiments(group), s.sentimentDistribution[i].0)
    ensures SumCounts(s.sentimentDistribution) == |Filter(group, HasSentiment)|
    ensures |s.topTopics| <= TopTopicsPerSource && NonIncreasing(s.topTopics) && Distinct(Keys(s.topTopics))
    ensures forall i :: 0 <= i < |s.topTopics| ==>
      s.topTopics[i].1 == Occurrences(PresentTopics(group), s.topTopics[i].0)
    ensures forall i :: 0 <= i < |PresentTopics(group)| && PresentTopics(group)[i] !in Keys(s.topTopics) ==>
      |s.topTopics| == TopTopicsPerSource
      && Occurrences(PresentTopics(group), PresentTopics(group)[i]) <= s.topTopics[TopTopicsPerSource - 1].1
    ensures TiesFirstSeen(s.topTopics, PresentTopics(group)) && CutFirstSeen(s.topTopics, PresentTopics(group), TopTopicsPerSource)
  {
    TallySum(PresentSentiments(group));
    SourceStats(|group|, Counts(PresentSentiments(group)), MostCommon(PresentTopics(group), TopTopicsPerSource))
  }

  function StatsEntry(g: (string, seq<Article>)): (string, SourceStats) {
    (g.0, Stats(g.1))
  }

  /** `compare_sources`: one entry per outlet, in first-seen order, with the
      statistics of that outlet's articles. */
  function CompareSources(articles: seq<Article>): (r: seq<(string, SourceStats)>)
    ensures Keys(r) == Dedup(Map(articles, SourceOf))
    ensures forall i :: 0 <= i < |r| ==> r[i].1 == Stats(Select(articles, SourceOf, r[i].0))
  {
    var groups := GroupBy(articles, SourceOf);
    var r := Map(groups, StatsEntry);
    assert Keys(r) == Keys(groups);
    r
  }

  /** The outlets' article totals add up to the number of articles. */
  lemma CompareSourcesSum(articles: seq<Article>)
    ensures SumOf(CompareSources(articles), (e: (string, SourceStats)) => e.1.totalArticles) == |articles|
  {
    var groups := GroupBy(articles, SourceOf);
    var r := CompareSources(articles);
    assert r == Map(groups, StatsEntry);
    GroupTotals(groups, r);
    GroupBySum(articles, SourceOf);
    TotalsAreSizes(r, Sizes(groups));
  }

  /** Each outlet's total is the size of its group. */
  lemma GroupTotals(groups: seq<(string, seq<Article>)>, r: seq<(string, SourceStats)>)
    requires r == Map(groups, StatsEntry)
    ensures |r| == |Sizes(groups)|
    ensures forall i :: 0 <= i < |r| ==> r[i].1.totalArticles == Sizes(groups)[i].1
  {
  }

  lemma {:induction false} TotalsAreSizes(r: seq<(string, SourceStats)>, sizes: seq<(string, int)>)
    requires |r| == |sizes| && forall i :: 0 <= i < |r| ==> r[i].1.totalArticles == sizes[i].1
    ensures SumOf(r, (e: (string, SourceStats)) => e.1.totalArticles) == SumCounts(sizes)
    decreases |r|
  {
    if r != [] {
      TotalsAreSizes(r[1..], sizes[1..]);
    }
  }

  // ----- export -----

  /** The insights record `export_insights` assembles. */
  datatype Insights = Insights(
    generatedAt: string,
    totalArticles: int,
    dailySummary: string,
    breakingTrends: seq<Trend>,
    sourceComparison: seq<(string, SourceStats)>)

  /** What `export_insights` hands back: the record, to be serialised as JSON,
      or the plain-text digest. */
  datatype Exported = Json(insights: Insights) | PlainText(text: string)

  /** `export_insights`: for "json" the full record; for any other format
      exactly the daily digest. */
  function ExportInsights(articles: seq<Article>, format: string, now: string, date: string): (r: Exported)
    ensures format == "json" ==>
      && r.Json? && r.insights.totalArticles == |articles|
      && r.insights.dailySummary == DailySummary(articles, date)
      && r.insights.breakingTrends == BreakingTrends(articles)
      && r.insights.sourceComparison == CompareSources(articles)
      && r.insights.generatedAt == now
    ensures format != "json" ==> r == PlainText(DailySummary(articles, date))
  {
    if format == "json" then
      Json(Insights(now, |articles|, DailySummary(articles, date), BreakingTrends(articles), CompareSources(articles)))
    else PlainText(DailySummary(articles, date))
  }
}

=== FILE: react_loop.dfy ===
/** The ReAct (thought, action, observation) reasoning trace: a small record
    that the analysis strategies thread through, holding the steps recorded so
    far, a step counter and an iteration ceiling. */
module ReactLoop {
  import Wrappers
  import opened Text

  /** One recorded step. */
  datatype ReActStep = ReActStep(thought: string, action: string, observation: string, stepNumber: int)

  /** The loop state. `add_step` never consults `maxIterations`; only
      `ShouldContinue` does. */
  datatype ReActLoop = ReActLoop(maxIterations: int, history: seq<ReActStep>, currentStep: int)

  /** The ceiling a loop gets when none is given. */
  const DefaultMaxIterations: int := 5

  /** The counter equals the number of recorded steps, and step `i` carries number `i`. */
  predicate Valid(loop: ReActLoop) {
    && loop.currentStep == |loop.history|
    && forall i :: 0 <= i < |loop.history| ==> loop.history[i].stepNumber == i
  }

  /** A fresh loop: nothing recorded yet. */
  function NewLoop(maxIterations: int := DefaultMaxIterations): (r: ReActLoop)
    ensures Valid(r)
    ensures r.history == [] && r.currentStep == 0 && r.maxIterations == maxIterations
  {
    ReActLoop(maxIterations, [], 0)
  }

  // ----- phase labels -----

  /** The label `[Step n - PHASE] ` that prefixes a thought or an observation. */
  function StepTag(n: int, phase: string): string {
    "[Step " + IntToString(n) + " - " + phase + "] "
  }

  /** The parts of a labelled text. */
  datatype Tagged = Tagged(step: int, phase: string, text: string)

  /** Reads a labelled text back into its step number, phase name and text. */
  function DecodeTagged(s: string): Wrappers.Option<Tagged> {
    match StripPrefix(s, "[Step ")
    case None => Wrappers.None
    case Some(rest) =>
      var (numText, afterNum) := SplitAtChar(rest, ' ');
      match (ParseInt(numText), StripPrefix(afterNum, " - "))
      case (Some(n), Some(body)) =>
        var (phase, tail) := SplitAtChar(body, ']');
        (match StripPrefix(tail, "] ")
         case Some(text) => Wrappers.Some(Tagged(n, phase, text))
         case None => Wrappers.None)
      case _ => Wrappers.None
  }

  /** A label can be read back: the step number, the phase (which has no `]`)
      and the labelled text are all recovered. */
  lemma TagRoundTrip(n: int, phase: string, text: string)
    requires ']' !in phase
    ensures DecodeTagged(StepTag(n, phase) + text) == Wrappers.Some(Tagged(n, phase, text))
  {
    var num := IntToString(n);
    var tail := "] " + text;
    var body := phase + tail;
    var afterNum := " - " + body;
    var rest := num + afterNum;
    assert StepTag(n, phase) + text == "[Step " + rest;
    StripPrefixOf("[Step ", rest);
    SplitAtCharOf(num, ' ', afterNum);
    IntToStringRoundTrip(n);
    StripPrefixOf(" - ", body);
    SplitAtCharOf(phase, ']', tail);
    StripPrefixOf("] ", text);
  }

  // ----- the three phases -----

  /** THOUGHT: labels the reasoning text with the step about to be recorded. */
  function Think(loop: ReActLoop, llmResponse: string): string {
    StepTag(loop.currentStep + 1, "THOUGHT") + llmResponse
  }

  /** A thought reads back as the next step number, the THOUGHT phase and the
      reasoning text. */
  lemma ThinkTagged(loop: ReActLoop, llmResponse: string)
    ensures DecodeTagged(Think(loop, llmResponse)) == Wrappers.Some(Tagged(loop.currentStep + 1, "THOUGHT", llmResponse))
  {
    TagRoundTrip(loop.currentStep + 1, "THOUGHT", llmResponse);
  }

  /** A value in an action's parameter dictionary. */
  datatype ParamValue = IntParam(i: int) | StrParam(s: string)

  /** The record `act` returns. */
  datatype ActionResult = ActionResult(actionType: string, parameters: seq<(string, ParamValue)>, status: string)

  /** ACTION: every action is reported as executed; missing (or empty)
      parameters become the empty dictionary. */
  function Act(actionType: string, parameters: Wrappers.Option<seq<(string, ParamValue)>>): (r: ActionResult)
    ensures r.actionType == actionType && r.status == "executed"
    ensures parameters.None? ==> r.parameters == []
    ensures parameters.Some? ==> r.parameters == parameters.value
  {
    ActionResult(actionType, parameters.GetOr([]), "executed")
  }

  /** OBSERVATION: labels the observed data with the step about to be recorded. */
  function Observe(loop: ReActLoop, observationData: string): string {
    StepTag(loop.currentStep + 1, "OBSERVATION") + observationData
  }

  /** An observation reads back as the next step number, the OBSERVATION
      phase and the observed data. */
  lemma ObserveTagged(loop: ReActLoop, observationData: string)
    ensures DecodeTagged(Observe(loop, observationData)) ==
      Wrappers.Some(Tagged(loop.currentStep + 1, "OBSERVATION", observationData))
  {
    TagRoundTrip(loop.currentStep + 1, "OBSERVATION", observationData);
  }

  /** `repr` of a parameter value. */
  function ParamRepr(v: ParamValue): (r: string)
    ensures Printable(r)
  {
    match v
    case IntParam(i) => IntToString(i)
    case StrParam(s) => StrRepr(s)
  }

  /** The entries of a parameter dictionary as `repr` lists them. */
  function ParamsRepr(ps: seq<(string, ParamValue)>): (r: string)
    ensures Printable(r)
  {
    if ps == [] then ""
    else
      var key, sep := StrRepr(ps[0].0), if |ps| > 1 then ", " else "";
      PrintableConcat(key, ": ");
      PrintableConcat(key + ": ", ParamRepr(ps[0].1));
      PrintableConcat(key + ": " + ParamRepr(ps[0].1), sep);
      PrintableConcat(key + ": " + ParamRepr(ps[0].1) + sep, ParamsRepr(ps[1..]));
      key + ": " + ParamRepr(ps[0].1) + sep + ParamsRepr(ps[1..])
  }

  /** `str(action_result)`: Python's rendering of the result dictionary. */
  function ActionText(r: ActionResult): (s: string)
    ensures Printable(s)
  {
    var kind, params, status := StrRepr(r.actionType), ParamsRepr(r.parameters), StrRepr(r.status);
    ActionFramePrintable(kind, params, status);
    "{'action_type': " + kind + ", 'parameters': {" + params + "}, 'status': " + status + "}"
  }

  /** The fixed text around the fields of a rendered action result adds no
      control character. */
  lemma ActionFramePrintable(kind: string, params: string, status: string)
    requires Printable(kind) && Printable(params) && Printable(status)
    ensures Printable("{'action_type': " + kind + ", 'parameters': {" + params + "}, 'status': " + status + "}")
  {
    var a, b, c, d := "{'action_type': ", ", 'parameters': {", "}, 'status': ", "}";
    assert Printable(a) && Printable(b) && Printable(c) && Printable(d);
    PrintableConcat(a, kind);
    PrintableConcat(a + kind, b);
    PrintableConcat(a + kind + b, params);
    PrintableConcat(a + kind + b + params, c);
    PrintableConcat(a + kind + b + params + c, status);
    PrintableConcat(a + kind + b + params + c + status, d);
  }

  // ----- recording and bounding -----

  /** Records one step numbered with the current counter and advances the
      counter. It does not look at the ceiling. */
  function AddStep(loop: ReActLoop, thought: string, action: string, observation: string): (r: ReActLoop)
    ensures r.history == loop.history + [ReActStep(thought, action, observation, loop.currentStep)]
    ensures |r.history| == |loop.history| + 1 && r.history[..|loop.history|] == loop.history
    ensures r.currentStep == loop.currentStep + 1 && r.maxIterations == loop.maxIterations
    ensures Valid(loop) ==> Valid(r)
    ensures !ShouldContinue(loop) ==> |r.history| == |loop.history| + 1 && !ShouldContinue(r)
  {
    ReActLoop(loop.maxIterations, loop.history + [ReActStep(thought, action, observation, loop.currentStep)],
              loop.currentStep + 1)
  }

  /** Step `s` is step `n` that thought `thought`, took `action` and observed
      `observed`: its thought and its observation read back as those texts
      under step number `n + 1`. */
  predicate RecordsStep(s: ReActStep, n: int, thought: string, action: string, observed: string) {
    && s.stepNumber == n
    && DecodeTagged(s.thought) == Wrappers.Some(Tagged(n + 1, "THOUGHT", thought))
    && s.action == action
    && DecodeTagged(s.observation) == Wrappers.Some(Tagged(n + 1, "OBSERVATION", observed))
  }

  /** `r` continues `loop`: the steps of `loop` are kept as they were, and a
      valid loop stays valid. */
  predicate Extends(loop: ReActLoop, r: ReActLoop) {
    && |loop.history| <= |r.history|
    && r.history[..|loop.history|] == loop.history
    && (Valid(loop) ==> Valid(r))
  }

  /** Continuing a continuation continues the original. */
  lemma ExtendsTrans(a: ReActLoop, b: ReActLoop, c: ReActLoop)
    requires Extends(a, b) && Extends(b, c)
    ensures Extends(a, c)
  {
  }

  /** A step made of a thought and an observation on the loop, together with
      an action, is recorded as that thought, action and observation. */
  lemma ThinkActObserve(loop: ReActLoop, thought: string, action: string, observed: string)
    ensures var r := AddStep(loop, Think(loop, thought), action, Observe(loop, observed));
      && |r.history| == |loop.history| + 1 && r.currentStep == loop.currentStep + 1 && Extends(loop, r)
      && RecordsStep(r.history[|loop.history|], loop.currentStep, thought, action, observed)
  {
    ThinkTagged(loop, thought);
    ObserveTagged(loop, observed);
  }

  /** Whether the ceiling still leaves room for another step. */
  predicate ShouldContinue(loop: ReActLoop) {
    loop.currentStep < loop.maxIterations
  }

  /** Records the given (thought, action, observation) triples in order. */
  function AddSteps(loop: ReActLoop, steps: seq<(string, string, string)>): ReActLoop
    decreases |steps|
  {
    if steps == [] then loop
    else AddSteps(AddStep(loop, steps[0].0, steps[0].1, steps[0].2), steps[1..])
  }

  /** After any number of steps recorded on a fresh loop, the counter equals
      the number of steps, step `i` is the `i`-th triple and carries number `i`,
      and `ShouldContinue` holds exactly while fewer than `maxIterations` steps
      have been recorded; nothing stops a caller from recording more. */
  lemma {:induction false} AddStepsFromFresh(maxIterations: int, steps: seq<(string, string, string)>)
    ensures var r := AddSteps(NewLoop(maxIterations), steps);
      && Valid(r)
      && |r.history| == |steps|
      && r.maxIterations == maxIterations
      && (forall i :: 0 <= i < |steps| ==>
            r.history[i] == ReActStep(steps[i].0, steps[i].1, steps[i].2, i))
      && (ShouldContinue(r) <==> |steps| < maxIterations)
  {
    var start := NewLoop(maxIterations);
    AddStepsExtend(start, steps);
    var r := AddSteps(start, steps);
    assert |start.history| == 0 && r.currentStep == |steps|;
    forall i | 0 <= i < |steps|
      ensures r.history[i] == ReActStep(steps[i].0, steps[i].1, steps[i].2, i)
    {
      assert r.history[|start.history| + i] == r.history[i];
    }
  }

  lemma {:induction false} AddStepsExtend(loop: ReActLoop, steps: seq<(string, string, string)>)
    requires Valid(loop)
    ensures var r := AddSteps(loop, steps);
      && Valid(r)
      && |r.history| == |loop.history| + |steps|
      && r.history[..|loop.history|] == loop.history
      && r.maxIterations == loop.maxIterations
      && (forall i :: 0 <= i < |steps| ==>
            r.history[|loop.history| + i] == ReActStep(steps[i].0, steps[i].1, steps[i].2, |loop.history| + i))
    decreases |steps|
  {
    if steps != [] {
      var next := AddStep(loop, steps[0].0, steps[0].1, steps[0].2);
      AddStepsExtend(next, steps[1..]);
      var r := AddSteps(next, steps[1..]);
      assert r.history[..|next.history|] == next.history;
      assert r.history[..|loop.history|] == next.history[..|loop.history|];
      forall i | 0 <= i < |steps|
        ensures r.history[|loop.history| + i] == ReActStep(steps[i].0, steps[i].1, steps[i].2, |loop.history| + i)
      {
        if i > 0 {
          assert r.history[|next.history| + (i - 1)] == r.history[|loop.history| + i];
        } else {
          assert r.history[|loop.history|] == next.history[|loop.history|];
        }
      }
    }
  }

  /** One entry of `get_reasoning_trace`. */
  datatype TraceEntry = TraceEntry(step: int, thought: string, action: string, observation: string)

  /** The recorded steps as report entries, one per step and in order. */
  function GetReasoningTrace(loop: ReActLoop): (r: seq<TraceEntry>)
    ensures |r| == |loop.history|
    ensures forall i :: 0 <= i < |r| ==>
      var s := loop.history[i];
      r[i] == TraceEntry(s.stepNumber, s.thought, s.action, s.observation)
    ensures Valid(loop) ==> forall i :: 0 <= i < |r| ==> r[i].step == i
  {
    seq(|loop.history|, i requires 0 <= i < |loop.history| =>
      TraceEntry(loop.history[i].stepNumber, loop.history[i].thought,
                 loop.history[i].action, loop.history[i].observation))
  }

  /** Clears the history and the counter, keeping the ceiling. */
  function Reset(loop: ReActLoop): (r: ReActLoop)
    ensures Valid(r) && r.history == [] && r.currentStep == 0
    ensures r == NewLoop(loop.maxIterations)
  {
    ReActLoop(loop.maxIterations, [], 0)
  }
}

=== FILE: risk_agent.dfy ===
/** The risk analyst agent: the keyword strategy, the parser for the language
    model's free-text answer, the recommendation rules, strategy selection with
    fallback, and batch analysis. The language-model backend is an oracle
    argument; Python's `hash(article.url)` is a function argument. */
module RiskAgent {
  import Wrappers
  import opened Text
  import opened Tally
  import opened Articles
  import opened RiskCategories
  import opened ReactLoop

  // ----- keyword strategy: scan and banding -----

  /** `f"{title} {description or ''}".lower()`. */
  function KeywordText(a: Article): string {
    Lower(a.title + " " + a.description)
  }

  /** Some phrase of `keywords`, lower-cased, occurs in `text`. */
  predicate AnyKeyword(text: string, keywords: seq<string>) {
    exists j | 0 <= j < |keywords| :: Contains(text, Lower(keywords[j]))
  }

  /** The inner loop: tries the phrases in order and stops at the first hit. */
  function HasKeyword(text: string, keywords: seq<string>): (b: bool)
    ensures b <==> AnyKeyword(text, keywords)
    decreases |keywords|
  {
    if keywords == [] then false
    else if Contains(text, Lower(keywords[0])) then true
    else
      assert forall j :: 1 <= j < |keywords| ==> keywords[1..][j - 1] == keywords[j];
      HasKeyword(text, keywords[1..])
  }

  /** A category the scan reports for `text`: one of its phrases occurs. */
  predicate Flagged(text: string, c: RiskCategory) {
    AnyKeyword(text, GetKeywords(c))
  }

  /** The categories the keyword scan finds: the tabled categories, in table
      order, with at least one phrase in the text (see `KeywordCategoriesSpec`). */
  function KeywordCategories(text: string): (found: seq<RiskCategory>)
    ensures |found| <= 10
  {
    Filter(Keys(Indicators), (c: RiskCategory) => Flagged(text, c))
  }

  /** A category is found exactly when it is tabled and one of its phrases
      occurs; the found categories come in table order, each once. */
  lemma KeywordCategoriesSpec(text: string)
    ensures forall c: RiskCategory :: c in KeywordCategories(text) <==> c in TabledCategories && Flagged(text, c)
    ensures StrictlyIncreasing(KeywordCategories(text), CategoryOrder) && Distinct(KeywordCategories(text))
  {
    IndicatorCategories();
    var p := (c: RiskCategory) => Flagged(text, c);
    FilterOrdered(Keys(Indicators), p, CategoryOrder);
    forall c: RiskCategory | c in TabledCategories ensures c in Filter(Keys(Indicators), p) <==> p(c) {
      FilterMembership(Keys(Indicators), p, c);
    }
  }

  /** The test the inner loop applies to one table entry. */
  function EntryHit(text: string): ((RiskCategory, seq<string>)) -> bool {
    (e: (RiskCategory, seq<string>)) => AnyKeyword(text, e.1)
  }

  /** The loop over the table's items: each entry whose phrases hit appends its
      category once (the `break`) and adds one to the score. */
  function ScanTable(table: seq<(RiskCategory, seq<string>)>, text: string): (r: (seq<RiskCategory>, int))
    ensures r.0 == Keys(Filter(table, EntryHit(text)))
    ensures r.1 == |r.0|
    decreases |table|
  {
    if table == [] then ([], 0)
    else
      var (rest, score) := ScanTable(table[1..], text);
      var hit := HasKeyword(text, table[0].1);
      assert hit == EntryHit(text)(table[0]);
      if hit then
        KeysCons(table[0], Filter(table[1..], EntryHit(text)));
        ([table[0].0] + rest, score + 1)
      else (rest, score)
  }

  /** The scan over the indicator table finds exactly `KeywordCategories`, and
      its score is their number: each tabled category counts at most once, so
      the score is at most ten. */
  lemma KeywordScan(text: string)
    ensures ScanTable(Indicators, text) == (KeywordCategories(text), |KeywordCategories(text)|)
    ensures 0 <= |KeywordCategories(text)| <= 10
  {
    var table := AllKeywords();
    TableScan(table, text);
  }

  /** Scanning a table that agrees with `GetKeywords` finds the table's
      flagged categories. */
  lemma TableScan(table: seq<(RiskCategory, seq<string>)>, text: string)
    requires forall i :: 0 <= i < |table| ==> GetKeywords(table[i].0) == table[i].1
    ensures ScanTable(table, text).0 == Filter(Keys(table), (c: RiskCategory) => Flagged(text, c))
  {
    var q := EntryHit(text);
    var p := (c: RiskCategory) => Flagged(text, c);
    forall i | 0 <= i < |table| ensures q(table[i]) == p(table[i].0) {
    }
    KeysFilter(table, q, p);
  }

  /** Filtering entries by a test on their keys, then taking keys, is taking
      keys, then filtering. */
  lemma {:induction false} KeysFilter<K, V>(table: seq<(K, V)>, q: ((K, V)) -> bool, p: K -> bool)
    requires forall i :: 0 <= i < |table| ==> q(table[i]) == p(table[i].0)
    ensures Keys(Filter(table, q)) == Filter(Keys(table), p)
    decreases |table|
  {
    if table != [] {
      KeysFilter(table[1..], q, p);
      assert Keys(table)[1..] == Keys(table[1..]);
      var rest := Filter(table[1..], q);
      if q(table[0]) {
        assert Keys([table[0]] + rest) == [table[0].0] + Keys(rest);
      }
    }
  }

  /** The score bands: five or more HIGH, three or more MEDIUM, one or more LOW,
      otherwise NONE. The keyword strategy never reaches CRITICAL. */
  function LevelForScore(score: int): (l: RiskLevel)
    ensures l != Critical
    ensures l == High <==> score >= 5
    ensures l == Medium <==> 3 <= score < 5
    ensures l == Low <==> 1 <= score < 3
    ensures l == None <==> score < 1
  {
    if score >= 5 then High
    else if score >= 3 then Medium
    else if score >= 1 then Low
    else None
  }

  /** A higher score never gives a lower level. */
  lemma LevelForScoreMonotonic(s: int, t: int)
    requires s <= t
    ensures LevelForScore(s).Rank() <= LevelForScore(t).Rank()
  {
  }

  /** Finding more categories never lowers the level: a text whose flagged
      categories include another text's gets at least that text's level. */
  lemma {:induction false} MoreFlagsHigherLevel(t: string, u: string)
    requires forall c :: Flagged(t, c) ==> Flagged(u, c)
    ensures |KeywordCategories(t)| <= |KeywordCategories(u)|
    ensures LevelForScore(|KeywordCategories(t)|).Rank() <= LevelForScore(|KeywordCategories(u)|).Rank()
  {
    FilterMonotone(Keys(Indicators), (c: RiskCategory) => Flagged(t, c), (c: RiskCategory) => Flagged(u, c));
    LevelForScoreMonotonic(|KeywordCategories(t)|, |KeywordCategories(u)|);
  }

  lemma {:induction false} FilterMonotone<T>(xs: seq<T>, p: T -> bool, q: T -> bool)
    requires forall x :: p(x) ==> q(x)
    ensures |Filter(xs, p)| <= |Filter(xs, q)|
    decreases |xs|
  {
    if xs != [] {
      FilterMonotone(xs[1..], p, q);
    }
  }

  // ----- recommendations -----

  /** The fixed actions of each level, before any category addendum. */
  function TierActions(l: RiskLevel): (r: seq<string>)
    ensures 1 <= |r| <= 3
    ensures l == Critical || l == High <==> |r| == 3
  {
    match l
    case Critical => ["🚨 ESCALATE: Notify senior analysts immediately",
                      "📊 Create detailed intelligence report",
                      "👥 Brief relevant stakeholders"]
    case High => ["⚠️ MONITOR: Set up continuous monitoring",
                  "🔍 INVESTIGATE: Gather additional intelligence",
                  "📋 Document for compliance review"]
    case Medium => ["👀 WATCH: Add to monitoring watchlist",
                    "📝 Log in risk register"]
    case Low => ["ℹ️ RECORD: Add to intelligence database"]
    case None => ["✓ No immediate action required"]
  }

  const CorruptionAction: string := "🔎 Cross-reference with sanctions databases"
  const PoliticalAction: string := "🌍 Check international response and implications"

  /** The addenda `categories` earns: Corruption's, then Political Instability's. */
  function Addenda(cats: seq<RiskCategory>): seq<string> {
    (if Corruption in cats then [CorruptionAction] else [])
      + (if PoliticalInstability in cats then [PoliticalAction] else [])
  }

  /** `_generate_recommendations`: at most three actions, the level's own
      actions first; CRITICAL and HIGH fill all three places, so an addendum
      appears only for a lower level, only for its category, and only while
      there is room, Corruption's before Political Instability's. */
  function Recommendations(level: RiskLevel, cats: seq<RiskCategory>): (r: seq<string>)
    ensures |r| <= 3
    ensures |TierActions(level)| <= |r| && r[..|TierActions(level)|] == TierActions(level)
    ensures level == Critical || level == High ==> r == TierActions(level)
    ensures CorruptionAction in r <==> Corruption in cats && |TierActions(level)| < 3
    ensures PoliticalAction in r <==>
      PoliticalInstability in cats && |TierActions(level)| + (if Corruption in cats then 1 else 0) < 3
    ensures |r| == Min(3, |TierActions(level)| + |Addenda(cats)|)
  {
    RecommendationsFacts(level, cats);
    Take(TierActions(level) + Addenda(cats), 3)
  }

  lemma RecommendationsFacts(level: RiskLevel, cats: seq<RiskCategory>)
    ensures var r := Take(TierActions(level) + Addenda(cats), 3);
      && (CorruptionAction in r <==> Corruption in cats && |TierActions(level)| < 3)
      && (PoliticalAction in r <==>
            PoliticalInstability in cats && |TierActions(level)| + (if Corruption in cats then 1 else 0) < 3)
  {
    var t, d := TierActions(level), Addenda(cats);
    var r := Take(t + d, 3);
    assert CorruptionAction !in t && PoliticalAction !in t && CorruptionAction != PoliticalAction;
    if |t| == 3 {
      assert r == t;
    } else {
      assert r == t + Take(d, 3 - |t|);
    }
  }

  function Min(a: int, b: int): int {
    if a <= b then a else b
  }

  // ----- assessments built by the two strategies -----

  const KeywordThought: string := "Using keyword-based risk detection..."
  const LlmThought: string := "Analyzing article for risk indicators..."

  /** The assessment the keyword strategy builds for `a`. */
  function KeywordAssessment(a: Article, hash: string -> int): (r: RiskAssessment)
    ensures var found := KeywordCategories(KeywordText(a));
      && r.riskLevel == LevelForScore(|found|)
      && r.riskCategories == Take(found, 3)
      && r.confidence == (if found == [] then 0.3 else 0.6)
      && r.recommendedActions == Recommendations(r.riskLevel, found)
      && r.reasoning == "Keyword-based analysis found " + IntToString(|found|) + " risk indicators"
    ensures r.riskLevel != Critical && |r.riskCategories| <= 3 && |r.recommendedActions| <= 3
    ensures r.articleId == IntToString(hash(a.url)) && r.articleTitle == a.title
    ensures r.keyEntities == [] && r.geographicScope == DefaultScope && r.reasoningTrace.None?
  {
    var found := KeywordCategories(KeywordText(a));
    var score := |found|;
    var level := LevelForScore(score);
    NewAssessment(IntToString(hash(a.url)), a.title, level, Take(found, 3),
                  "Keyword-based analysis found " + IntToString(score) + " risk indicators",
                  if found != [] then 0.6 else 0.3,
                  Recommendations(level, found),
                  Wrappers.Some([]), Wrappers.Some(DefaultScope))
  }

  /** The action text of the keyword step: the KEYWORD_SCAN result carrying
      the number of categories found. */
  function KeywordActionText(a: Article): string {
    var score := |KeywordCategories(KeywordText(a))|;
    ActionText(Act("KEYWORD_SCAN", Wrappers.Some([("keywords_found", IntParam(score))])))
  }

  /** What the keyword step observes: the number of categories found and the
      list of their display strings. */
  function KeywordObservation(a: Article): string {
    var found := KeywordCategories(KeywordText(a));
    "Found " + IntToString(|found|) + " risk categories: " + StrListRepr(Displays(found))
  }

  /** Step `s`, numbered `n`, is the keyword step: it thinks the fixed keyword
      thought, takes the KEYWORD_SCAN action and observes the categories
      found. */
  predicate RecordsKeywordStep(s: ReActStep, a: Article, n: int) {
    RecordsStep(s, n, KeywordThought, KeywordActionText(a), KeywordObservation(a))
  }

  /** The step the keyword strategy records. */
  function KeywordStep(loop: ReActLoop, a: Article): ReActLoop {
    AddStep(loop, Think(loop, KeywordThought), KeywordActionText(a), Observe(loop, KeywordObservation(a)))
  }

  /** `_keyword_based_analysis`: the keyword assessment, with exactly one step
      appended to the loop, labelled with the next step number. */
  function KeywordAnalysis(a: Article, loop: ReActLoop, hash: string -> int): (r: (RiskAssessment, ReActLoop))
    ensures r.0 == KeywordAssessment(a, hash)
    ensures |r.1.history| == |loop.history| + 1 && r.1.history[..|loop.history|] == loop.history
    ensures r.1.currentStep == loop.currentStep + 1 && r.1.maxIterations == loop.maxIterations
    ensures Valid(loop) ==> Valid(r.1)
    ensures r.1.history[|loop.history|].stepNumber == loop.currentStep
  {
    var next := KeywordStep(loop, a);
    (KeywordAssessment(a, hash), next)
  }

  /** The step the keyword strategy appends reads back as a THOUGHT under the
      next step number. */
  lemma KeywordAnalysisTagged(a: Article, loop: ReActLoop, hash: string -> int)
    ensures DecodeTagged(KeywordAnalysis(a, loop, hash).1.history[|loop.history|].thought) ==
      Wrappers.Some(Tagged(loop.currentStep + 1, "THOUGHT", KeywordThought))
  {
    ThinkTagged(loop, KeywordThought);
  }

  // ----- parsing the model's answer -----

  /** Whether the lower-cased answer names level `l` (NONE needs no word). */
  predicate MentionsLevel(lowered: string, l: RiskLevel) {
    match l
    case Critical => Contains(lowered, "critical")
    case High => Contains(lowered, "high")
    case Medium => Contains(lowered, "medium") || Contains(lowered, "moderate")
    case Low => Contains(lowered, "low")
    case None => true
  }

  /** The level read from the lower-cased answer: the most severe level it
      names, checked in the order critical, high, medium/moderate, low. */
  function ParseLevel(lowered: string): (l: RiskLevel)
    ensures MentionsLevel(lowered, l)
    ensures forall m :: MentionsLevel(lowered, m) ==> m.Rank() <= l.Rank()
  {
    if Contains(lowered, "critical") then Critical
    else if Contains(lowered, "high") then High
    else if Contains(lowered, "medium") || Contains(lowered, "moderate") then Medium
    else if Contains(lowered, "low") then Low
    else None
  }

  /** The categories whose lower-cased display string occurs in the
      lower-cased answer, in declaration order (see `MentionedCategoriesSpec`). */
  function MentionedCategories(lowered: string): (r: seq<RiskCategory>)
    ensures |r| <= 20
  {
    Filter(AllCategories(), (c: RiskCategory) => Contains(lowered, Lower(c.Display())))
  }

  /** A category is mentioned exactly when its lower-cased display string
      occurs; the mentioned categories come in declaration order, each once. */
  lemma MentionedCategoriesSpec(lowered: string)
    ensures forall c: RiskCategory :: c in MentionedCategories(lowered) <==> Contains(lowered, Lower(c.Display()))
    ensures StrictlyIncreasing(MentionedCategories(lowered), CategoryOrder)
    ensures Distinct(MentionedCategories(lowered))
  {
    var p := (c: RiskCategory) => Contains(lowered, Lower(c.Display()));
    AllCategoriesOrdered();
    FilterOrdered(AllCategories(), p, CategoryOrder);
    forall c: RiskCategory ensures c in Filter(AllCategories(), p) <==> p(c) {
      InAllCategories(c);
      FilterMembership(AllCategories(), p, c);
    }
  }

  /** The end of the run of digits that starts at `i`. */
  function RunEnd(s: string, i: nat): (e: nat)
    requires i <= |s|
    ensures i <= e <= |s|
    ensures forall k :: i <= k < e ==> IsDigit(s[k])
    ensures e == |s| || !IsDigit(s[e])
    decreases |s| - i
  {
    if i < |s| && IsDigit(s[i]) then RunEnd(s, i + 1) else i
  }

  /** Every position inside a run of digits sees the same end. */
  lemma RunEndSame(s: string, i: nat, j: nat)
    requires i <= |s| && i <= j < RunEnd(s, i)
    ensures RunEnd(s, j) == RunEnd(s, i)
  {
  }

  /** The pattern `(\d+)%` matches at `i`: a digit starts there and the digits
      from `i` on are followed by `%` (the greedy run cannot back off, since a
      shorter run is followed by a digit). */
  predicate PercentMatchAt(s: string, i: nat) {
    i < |s| && IsDigit(s[i]) && RunEnd(s, i) < |s| && s[RunEnd(s, i)] == '%'
  }

  /** The leftmost position from `i` on where `(\d+)%` matches. */
  function FirstPercentFrom(s: string, i: nat): (r: Wrappers.Option<nat>)
    requires i <= |s|
    ensures r.Some? ==> i <= r.value && PercentMatchAt(s, r.value)
    ensures r.Some? ==> forall j :: i <= j < r.value ==> !PercentMatchAt(s, j)
    ensures r.None? ==> forall j :: i <= j < |s| ==> !PercentMatchAt(s, j)
    decreases |s| - i
  {
    if i == |s| then Wrappers.None
    else if !IsDigit(s[i]) then FirstPercentFrom(s, i + 1)
    else
      var e := RunEnd(s, i);
      if e < |s| && s[e] == '%' then Wrappers.Some(i)
      else
        assert forall j :: i <= j < e ==> !PercentMatchAt(s, j) by {
          forall j | i <= j < e ensures !PercentMatchAt(s, j) { RunEndSame(s, i, j); }
        }
        FirstPercentFrom(s, e)
  }

  /** `re.search(r'(\d+)%', s)` with `int(match.group(1))`: the value of the
      digits of the leftmost match, if there is one. */
  function PercentNumber(s: string): (r: Wrappers.Option<nat>)
    ensures r.None? <==> forall j :: 0 <= j < |s| ==> !PercentMatchAt(s, j)
  {
    match FirstPercentFrom(s, 0)
    case None => Wrappers.None
    case Some(i) => Wrappers.Some(DigitsValue(s[i..RunEnd(s, i)]))
  }

  /** The confidence used when the answer states none. */
  const DefaultConfidence: real := 0.75

  /** The confidence read from the answer: its first `digits%` divided by 100
      when the lower-cased answer mentions "confidence" and has such a match,
      else 0.75. The value is not clamped to 1. */
  function ParseConfidence(response: string): (r: real)
    ensures r >= 0.0
    ensures !Contains(Lower(response), "confidence") ==> r == DefaultConfidence
    ensures PercentNumber(response).None? ==> r == DefaultConfidence
    ensures Contains(Lower(response), "confidence") && PercentNumber(response).Some? ==>
      r * 100.0 == PercentNumber(response).value as real
  {
    if Contains(Lower(response), "confidence") then
      match PercentNumber(response)
      case Some(n) => n as real / 100.0
      case None => DefaultConfidence
    else DefaultConfidence
  }

  /** `_parse_llm_response`: the level and categories come from the
      lower-cased answer, at most three categories are kept, the
      recommendations see every mentioned category, and the reasoning is the
      answer itself. */
  function ParseLlmResponse(a: Article, response: string, hash: string -> int): (r: RiskAssessment)
    ensures r.riskLevel == ParseLevel(Lower(response))
    ensures r.riskCategories == Take(MentionedCategories(Lower(response)), 3)
    ensures r.confidence == ParseConfidence(response)
    ensures r.recommendedActions == Recommendations(r.riskLevel, MentionedCategories(Lower(response)))
    ensures r.reasoning == response && r.articleTitle == a.title
    ensures r.articleId == IntToString(hash(a.url))
    ensures r.keyEntities == [] && r.geographicScope == DefaultScope && r.reasoningTrace.None?
  {
    var lowered := Lower(response);
    var level := ParseLevel(lowered);
    var cats := MentionedCategories(lowered);
    NewAssessment(IntToString(hash(a.url)), a.title, level, Take(cats, 3), response,
                  ParseConfidence(response), Recommendations(level, cats),
                  Wrappers.Some([]), Wrappers.Some(DefaultScope))
  }

  // ----- strategy selection -----

  /** What the backend call gives: an answer, a response without content
      (`message.content` is `None`), or an exception. */
  datatype BackendResult = Reply(text: string) | NoContent | Failed

  /** The fixed instructions that follow the article fields in the prompt. */
  const PromptInstructions: string :=
    "\n\nFollow the ReAct pattern:\n"
      + "1. THOUGHT: What risks might this article indicate?\n"
      + "2. ACTION: What should I do with this information?\n"
      + "3. OBSERVATION: What specific evidence supports my assessment?\n\nProvide:\n"
      + "- Risk Level (Critical/High/Medium/Low/None)\n"
      + "- Risk Categories (list all that apply)\n"
      + "- Confidence (0-100%)\n"
      + "- Key Entities (people, orgs, places mentioned)\n"
      + "- Recommended Actions (2-3 specific next steps)\n"

  /** The per-article instruction sent to the backend. */
  function AnalysisPrompt(title: string, content: string, url: string): string {
    "Analyze this news article for risk assessment:\n\nTitle: " + title + "\nURL: " + url
      + "\nContent: " + content + PromptInstructions
  }

  /** The prompt for an article: its description, or its title when it has
      none, stands for the content. */
  function ArticlePrompt(a: Article): string {
    AnalysisPrompt(a.title, if a.description != "" then a.description else a.title, a.url)
  }

  /** The action text of the model step: the ANALYZE_WITH_LLM result carrying
      the prompt. */
  function LlmActionText(a: Article): string {
    ActionText(Act("ANALYZE_WITH_LLM", Wrappers.Some([("prompt", StrParam(ArticlePrompt(a)))])))
  }

  /** The step the model strategy records once the backend has answered. */
  function LlmStep(loop: ReActLoop, a: Article, observed: string): ReActLoop {
    AddStep(loop, Think(loop, LlmThought), LlmActionText(a), Observe(loop, observed))
  }

  /** The prompt spans several lines, yet the action the model step records
      is one line: `str()` of the result dictionary escapes the prompt's
      newlines. */
  lemma LlmActionOneLine(loop: ReActLoop, a: Article, observed: string)
    ensures '\n' in ArticlePrompt(a)
    ensures Printable(LlmStep(loop, a, observed).history[|loop.history|].action)
  {
    var prompt := ArticlePrompt(a);
    assert prompt[46] == '\n';
  }

  /** Step `s`, numbered `n`, is the model step: it thinks the fixed model
      thought, takes the ANALYZE_WITH_LLM action and observes `observed`. */
  predicate RecordsModelStep(s: ReActStep, a: Article, n: int, observed: string) {
    RecordsStep(s, n, LlmThought, LlmActionText(a), observed)
  }

  /** The assessment `_llm_based_analysis` returns: the parsed answer, or the
      keyword assessment when the call fails or the response has no content
      (parsing it fails). */
  function LlmAssessment(a: Article, backend: BackendResult, hash: string -> int): (r: RiskAssessment)
    ensures backend.Reply? ==> r == ParseLlmResponse(a, backend.text, hash)
    ensures !backend.Reply? ==> r == KeywordAssessment(a, hash)
  {
    match backend
    case Reply(text) => ParseLlmResponse(a, text, hash)
    case _ => KeywordAssessment(a, hash)
  }

  /** The steps `_llm_based_analysis` records: one after an answer or a failed
      call (the keyword step), two after a response without content (its own
      step, observing `None`, then the keyword step). The earlier history is
      kept and the numbering stays consistent. Which steps these are is stated
      case by case in `LlmLoopReply`, `LlmLoopNoContent` and `LlmLoopFailed`. */
  function LlmLoop(a: Article, loop: ReActLoop, backend: BackendResult): (r: ReActLoop)
    ensures |r.history| == |loop.history| + (if backend.NoContent? then 2 else 1)
    ensures Extends(loop, r)
  {
    match backend
    case Failed => KeywordStepRecorded(loop, a); KeywordStep(loop, a)
    case NoContent => NoContentRecorded(loop, a); KeywordStep(LlmStep(loop, a, "None"), a)
    case Reply(text) => LlmStepRecorded(loop, a, text); LlmStep(loop, a, text)
  }

  /** After an answer, the step added is the model step: the ANALYZE_WITH_LLM
      action, observing the answer's text. */
  lemma LlmLoopReply(a: Article, loop: ReActLoop, text: string)
    ensures RecordsModelStep(LlmLoop(a, loop, Reply(text)).history[|loop.history|], a, loop.currentStep, text)
  {
    LlmStepRecorded(loop, a, text);
  }

  /** After a response without content, the model step observing `None` is
      followed by the keyword step, numbered one later. */
  lemma LlmLoopNoContent(a: Article, loop: ReActLoop)
    ensures var r := LlmLoop(a, loop, NoContent);
      && RecordsModelStep(r.history[|loop.history|], a, loop.currentStep, "None")
      && RecordsKeywordStep(r.history[|loop.history| + 1], a, loop.currentStep + 1)
  {
    NoContentRecorded(loop, a);
  }

  /** After a failed call, the step added is the keyword step alone. */
  lemma LlmLoopFailed(a: Article, loop: ReActLoop)
    ensures RecordsKeywordStep(LlmLoop(a, loop, Failed).history[|loop.history|], a, loop.currentStep)
  {
    KeywordStepRecorded(loop, a);
  }

  /** The model step is one new step, numbered by the counter, that records
      the model thought, the ANALYZE_WITH_LLM action and what was observed. */
  lemma LlmStepRecorded(loop: ReActLoop, a: Article, observed: string)
    ensures var r := LlmStep(loop, a, observed);
      && |r.history| == |loop.history| + 1 && r.currentStep == loop.currentStep + 1 && Extends(loop, r)
      && RecordsModelStep(r.history[|loop.history|], a, loop.currentStep, observed)
  {
    ThinkActObserve(loop, LlmThought, LlmActionText(a), observed);
    assert LlmStep(loop, a, observed) == AddStep(loop, Think(loop, LlmThought), LlmActionText(a), Observe(loop, observed));
  }

  /** The keyword step is one new step, numbered by the counter, that records
      the keyword thought, the KEYWORD_SCAN action and the categories found. */
  lemma KeywordStepRecorded(loop: ReActLoop, a: Article)
    ensures var r := KeywordStep(loop, a);
      && |r.history| == |loop.history| + 1 && Extends(loop, r)
      && RecordsKeywordStep(r.history[|loop.history|], a, loop.currentStep)
  {
    ThinkActObserve(loop, KeywordThought, KeywordActionText(a), KeywordObservation(a));
    assert KeywordStep(loop, a) == AddStep(loop, Think(loop, KeywordThought), KeywordActionText(a), Observe(loop, KeywordObservation(a)));
  }

  /** The model step observing `None`, then the keyword step numbered one
      later. */
  lemma NoContentRecorded(loop: ReActLoop, a: Article)
    ensures var r := KeywordStep(LlmStep(loop, a, "None"), a);
      && |r.history| == |loop.history| + 2 && Extends(loop, r)
      && RecordsModelStep(r.history[|loop.history|], a, loop.currentStep, "None")
      && RecordsKeywordStep(r.history[|loop.history| + 1], a, loop.currentStep + 1)
  {
    var next := LlmStep(loop, a, "None");
    LlmStepRecorded(loop, a, "None");
    KeywordStepRecorded(next, a);
    var r := KeywordStep(next, a);
    ExtendsTrans(loop, next, r);
    assert r.history[|loop.history|] == next.history[|loop.history|];
  }

  /** `_llm_based_analysis`: the returned assessment with the loop it leaves
      behind. A failed call is exactly the keyword strategy on the loop as it
      was. */
  function LlmAnalysis(a: Article, loop: ReActLoop, backend: BackendResult, hash: string -> int)
    : (r: (RiskAssessment, ReActLoop))
    ensures backend.Failed? ==> r == KeywordAnalysis(a, loop, hash)
  {
    (LlmAssessment(a, backend, hash), LlmLoop(a, loop, backend))
  }

  /** The iteration ceiling of the loop each analysis starts with. */
  const AnalysisIterations: int := 3

  /** `analyze_article`: a fresh loop, the model strategy exactly when the
      backend is available, and the loop's trace attached to the result. */
  function AnalyzeArticle(a: Article, llmAvailable: bool, backend: BackendResult, hash: string -> int)
    : (r: RiskAssessment)
    ensures r.reasoningTrace.Some?
    ensures |r.reasoningTrace.value| == (if llmAvailable && backend.NoContent? then 2 else 1)
    ensures forall i :: 0 <= i < |r.reasoningTrace.value| ==> r.reasoningTrace.value[i].step == i
    ensures llmAvailable && backend.Reply? ==>
      r == ParseLlmResponse(a, backend.text, hash).(reasoningTrace := r.reasoningTrace)
    ensures !(llmAvailable && backend.Reply?) ==>
      r == KeywordAssessment(a, hash).(reasoningTrace := r.reasoningTrace)
  {
    var loop := NewLoop(AnalysisIterations);
    var (assessment, after) :=
      if llmAvailable then LlmAnalysis(a, loop, backend, hash) else KeywordAnalysis(a, loop, hash);
    assessment.(reasoningTrace := Wrappers.Some(GetReasoningTrace(after)))
  }

  /** Fallback idempotence: when the backend always fails, analysing an article
      gives exactly what the keyword strategy gives on its own, trace included. */
  lemma FallbackIdempotence(a: Article, backend: BackendResult, hash: string -> int)
    ensures AnalyzeArticle(a, true, Failed, hash) == AnalyzeArticle(a, false, backend, hash)
  {
  }

  /** The trace of a failed call holds the single keyword step, numbered 0 and
      labelled step 1. */
  lemma FallbackTrace(a: Article, hash: string -> int)
    ensures var t := AnalyzeArticle(a, true, Failed, hash).reasoningTrace.value;
      && |t| == 1 && t[0].step == 0
      && DecodeTagged(t[0].thought) == Wrappers.Some(Tagged(1, "THOUGHT", KeywordThought))
  {
    var loop := NewLoop(AnalysisIterations);
    var r := KeywordAnalysis(a, loop, hash);
    var t := GetReasoningTrace(r.1);
    assert AnalyzeArticle(a, true, Failed, hash).reasoningTrace.value == t;
    assert t[0].thought == r.1.history[0].thought;
    KeywordAnalysisTagged(a, loop, hash);
  }

  /** The trace of an answered call holds the single model step: numbered 0,
      the ANALYZE_WITH_LLM action, observing the answer's text. */
  lemma ModelTrace(a: Article, text: string, hash: string -> int)
    ensures var t := AnalyzeArticle(a, true, Reply(text), hash).reasoningTrace.value;
      && |t| == 1
      && RecordsModelStep(ReActStep(t[0].thought, t[0].action, t[0].observation, t[0].step), a, 0, text)
  {
    var loop := NewLoop(AnalysisIterations);
    var after := LlmLoop(a, loop, Reply(text));
    var t := GetReasoningTrace(after);
    assert AnalyzeArticle(a, true, Reply(text), hash).reasoningTrace.value == t;
    LlmLoopReply(a, loop, text);
    assert ReActStep(t[0].thought, t[0].action, t[0].observation, t[0].step) == after.history[0];
  }

  // ----- batches -----

  /** How the analysis of one batch item goes: it completes with the given
      backend outcome, or it raises. */
  datatype Attempt = Completes(backend: BackendResult) | Raises

  predicate Completed(item: (Article, Attempt)) {
    item.1.Completes?
  }

  /** The loop of `analyze_batch` for any per-item analysis `f`: the results
      of the items that complete, in input order; an item that raises is
      skipped. */
  function KeepCompleted<R>(items: seq<(Article, Attempt)>, f: (Article, BackendResult) -> R): (r: seq<R>)
    ensures |r| == |Filter(items, Completed)| <= |items|
    ensures forall i :: 0 <= i < |r| ==>
      r[i] == f(Filter(items, Completed)[i].0, Filter(items, Completed)[i].1.backend)
    decreases |items|
  {
    if items == [] then []
    else
      var rest := KeepCompleted(items[1..], f);
      match items[0].1
      case Raises => rest
      case Completes(backend) => [f(items[0].0, backend)] + rest
  }

  /** The batch loop works item by item: splitting the input anywhere and
      processing the two parts gives the same results in the same order. */
  lemma {:induction false} KeepCompletedAppend<R>(xs: seq<(Article, Attempt)>, ys: seq<(Article, Attempt)>,
                                                  f: (Article, BackendResult) -> R)
    ensures KeepCompleted(xs + ys, f) == KeepCompleted(xs, f) + KeepCompleted(ys, f)
    decreases |xs|
  {
    if xs == [] {
      assert xs + ys == ys;
    } else {
      assert (xs + ys)[1..] == xs[1..] + ys;
      KeepCompletedAppend(xs[1..], ys, f);
    }
  }

  /** In a batch of three whose second item raises, the loop keeps the
      results of the first and third items, in that order. */
  lemma KeepCompletedIsolation<R>(a1: Article, a2: Article, a3: Article, b1: BackendResult, b3: BackendResult,
                                  f: (Article, BackendResult) -> R)
    ensures KeepCompleted([(a1, Completes(b1)), (a2, Raises), (a3, Completes(b3))], f) == [f(a1, b1), f(a3, b3)]
  {
    var items := [(a1, Completes(b1)), (a2, Raises), (a3, Completes(b3))];
    assert items[1..][1..] == [items[2]] && [items[2]][1..] == [];
  }

  /** `analyze_batch`: the assessment of each item whose analysis completes,
      in input order; an item that raises is skipped. */
  function AnalyzeBatch(items: seq<(Article, Attempt)>, llmAvailable: bool, hash: string -> int)
    : (r: seq<RiskAssessment>)
    ensures |r| == |Filter(items, Completed)| <= |items|
    ensures forall i :: 0 <= i < |r| ==>
      r[i] == AnalyzeArticle(Filter(items, Completed)[i].0, llmAvailable, Filter(items, Completed)[i].1.backend, hash)
  {
    KeepCompleted(items, (a, b) => AnalyzeArticle(a, llmAvailable, b, hash))
  }

  /** A batch is analysed item by item: splitting it anywhere and analysing the
      two parts gives the same assessments in the same order. */
  lemma AnalyzeBatchAppend(xs: seq<(Article, Attempt)>, ys: seq<(Article, Attempt)>,
                           llmAvailable: bool, hash: string -> int)
    ensures AnalyzeBatch(xs + ys, llmAvailable, hash) ==
            AnalyzeBatch(xs, llmAvailable, hash) + AnalyzeBatch(ys, llmAvailable, hash)
  {
    KeepCompletedAppend(xs, ys, (a, b) => AnalyzeArticle(a, llmAvailable, b, hash));
  }

  /** Failure isolation: in a batch of three whose second item raises, the
      output holds the first and third assessments, in that order, each with
      its trace. */
  lemma BatchIsolation(a1: Article, a2: Article, a3: Article, b1: BackendResult, b3: BackendResult,
                       llmAvailable: bool, hash: string -> int)
    ensures AnalyzeBatch([(a1, Completes(b1)), (a2, Raises), (a3, Completes(b3))], llmAvailable, hash)
         == [AnalyzeArticle(a1, llmAvailable, b1, hash), AnalyzeArticle(a3, llmAvailable, b3, hash)]
  {
    KeepCompletedIsolation(a1, a2, a3, b1, b3, (a, b) => AnalyzeArticle(a, llmAvailable, b, hash));
  }
}

=== FILE: risk_agent_examples.dfy ===
/** Worked cases of the risk agent's rules, each fixed by its inputs. */
module RiskAgentExamples {
  import Wrappers
  import opened Text
  import opened Tally
  import opened Articles
  import opened RiskCategories
  import opened RiskAgent

  /** The search skips a stretch without digits. */
  lemma {:induction false} SkipNonDigits(s: string, i: nat, j: nat)
    requires i <= j <= |s|
    requires forall k :: i <= k < j ==> !IsDigit(s[k])
    ensures FirstPercentFrom(s, i) == FirstPercentFrom(s, j)
    decreases j - i
  {
    if i < j {
      SkipNonDigits(s, i + 1, j);
    }
  }

  /** The answer's confidence is not clamped: "Confidence: 150%" reads as 1.5. */
  lemma ConfidenceNotClamped()
    ensures ParseConfidence("Confidence: 150%") == 1.5
  {
    var s := "Confidence: 150%";
    assert OccursAt(Lower(s), "confidence", 0);
    SkipNonDigits(s, 0, 12);
    assert RunEnd(s, 12) == 15;
    assert FirstPercentFrom(s, 12) == Wrappers.Some(12);
    assert s[12..15] == "150";
    assert DigitsValue("150") == 150 by {
      assert "150"[..2] == "15" && "15"[..1] == "1" && "1"[..0] == "";
    }
    assert PercentNumber(s) == Wrappers.Some(150);
  }

  /** An answer with no `digits%` keeps the default confidence. */
  lemma ConfidenceDefault()
    ensures ParseConfidence("Confidence is high") == DefaultConfidence
  {
    var s := "Confidence is high";
    SkipNonDigits(s, 0, |s|);
  }

  /** Every level's own name, lower-cased, reads back as that level. */
  lemma ParseLevelReadsDisplay(l: RiskLevel)
    ensures ParseLevel(Lower(l.Display())) == l
  {
    var s := Lower(l.Display());
    match l
    case Critical =>
      assert s == "critical";
      assert OccursAt(s, "critical", 0);
    case High =>
      assert s == "high";
      NotContainsByFirst(s, "critical");
      assert OccursAt(s, "high", 0);
    case Medium =>
      assert s == "medium";
      NotContainsByFirst(s, "critical");
      NotContainsByFirst(s, "high");
      assert OccursAt(s, "medium", 0);
    case Low =>
      assert s == "low";
      NotContainsByFirst(s, "critical");
      NotContainsByFirst(s, "high");
      NotContainsByFirst(s, "medium");
      NotContainsByFirst(s, "moderate");
      assert OccursAt(s, "low", 0);
    case None =>
      assert s == "none";
      NotContainsByFirst(s, "critical");
      NotContainsByFirst(s, "high");
      NotContainsByFirst(s, "medium");
      NotContainsByFirst(s, "moderate");
      NotContainsByFirst(s, "low");
  }

  /** The level words are matched as substrings: "follow" contains "low", so
      an answer that says nothing but "Follow up" reads as LOW. */
  lemma SubstringLevel()
    ensures ParseLevel(Lower("Follow up")) == Low
  {
    var s := Lower("Follow up");
    assert s == "follow up";
    NotContainsByFirst(s, "critical");
    NotContainsByFirst(s, "high");
    NotContainsByFirst(s, "medium");
    NotContainsByFirst(s, "moderate");
    assert OccursAt(s, "low", 3);
  }

  /** An article without any indicator phrase gets NONE, no categories, the
      low confidence and the single no-action recommendation. */
  lemma QuietArticle(a: Article, hash: string -> int)
    requires KeywordCategories(KeywordText(a)) == []
    ensures var r := KeywordAssessment(a, hash);
      && r.riskLevel == None && r.riskCategories == [] && r.confidence == 0.3
      && r.recommendedActions == ["✓ No immediate action required"]
      && r.reasoning == "Keyword-based analysis found 0 risk indicators"
  {
    var r := KeywordAssessment(a, hash);
    assert r.riskLevel == None;
    assert Addenda([]) == [];
    var recs := Recommendations(None, []);
    assert recs[..1] == TierActions(None);
    assert IntToString(0) == "0";
  }
}

=== FILE: risk_categories.dfy ===
/** The risk taxonomy: severity levels, risk categories, the keyword-indicator
    table and the assessment record with its dictionary rendering. */
module RiskCategories {
  import Wrappers
  import opened Tally
  import ReactLoop

  /** Risk severity, most severe first (the enumeration's declaration order). */
  datatype RiskLevel = Critical | High | Medium | Low | None {

    /** The enumeration value, used in every report. */
    function Display(): string {
      match this
      case Critical => "Critical"
      case High => "High"
      case Medium => "Medium"
      case Low => "Low"
      case None => "None"
    }

    /** Position in the order None < Low < Medium < High < Critical. */
    function Rank(): nat {
      match this
      case None => 0
      case Low => 1
      case Medium => 2
      case High => 3
      case Critical => 4
    }
  }

  /** The levels in declaration order, as `for level in RiskLevel` visits them. */
  const AllLevels: seq<RiskLevel> := [Critical, High, Medium, Low, None]

  /** `RiskLevel(value)`: the level whose value is `s`. */
  function LevelFromDisplay(s: string): Wrappers.Option<RiskLevel> {
    match s
    case "Critical" => Wrappers.Some(Critical)
    case "High" => Wrappers.Some(High)
    case "Medium" => Wrappers.Some(Medium)
    case "Low" => Wrappers.Some(Low)
    case "None" => Wrappers.Some(None)
    case _ => Wrappers.None
  }

  /** There are exactly five levels, each listed once, and each one's display
      string reads back as that level: the five display strings are distinct. */
  lemma LevelsEnumerated(l: RiskLevel)
    ensures |AllLevels| == 5 && Distinct(AllLevels) && l in AllLevels
    ensures LevelFromDisplay(l.Display()) == Wrappers.Some(l)
    ensures l.Display() in ["Critical", "High", "Medium", "Low", "None"]
  {
  }

  /** The rank order is total and strict: distinct levels have distinct ranks. */
  lemma RankInjective(l: RiskLevel, m: RiskLevel)
    ensures l.Rank() == m.Rank() ==> l == m
  {
  }

  /** The kinds of risk monitored, in declaration order. */
  datatype RiskCategory =
    | PoliticalInstability | CivilUnrest | Terrorism | MilitaryConflict
    | EconomicCrisis | FinancialFraud | Corruption | Sanctions
    | RegulatoryChanges | LegalViolations | HumanRights
    | InfrastructureDamage | SupplyChain | CyberSecurity
    | CorporateScandal | Environmental | SocialIssues
    | PublicHealth | NaturalDisaster | Unknown
  {
    function Display(): string {
      match this
      case PoliticalInstability => "Political Instability"
      case CivilUnrest => "Civil Unrest"
      case Terrorism => "Terrorism"
      case MilitaryConflict => "Military Conflict"
      case EconomicCrisis => "Economic Crisis"
      case FinancialFraud => "Financial Fraud"
      case Corruption => "Corruption"
      case Sanctions => "Sanctions"
      case RegulatoryChanges => "Regulatory Changes"
      case LegalViolations => "Legal Violations"
      case HumanRights => "Human Rights Violations"
      case InfrastructureDamage => "Infrastructure Damage"
      case SupplyChain => "Supply Chain Disruption"
      case CyberSecurity => "Cyber Security Threat"
      case CorporateScandal => "Corporate Scandal"
      case Environmental => "Environmental Risk"
      case SocialIssues => "Social Issues"
      case PublicHealth => "Public Health Crisis"
      case NaturalDisaster => "Natural Disaster"
      case Unknown => "Unknown/Other"
    }

    /** Position in the declaration order. */
    function Ordinal(): nat {
      match this
      case PoliticalInstability => 0
      case CivilUnrest => 1
      case Terrorism => 2
      case MilitaryConflict => 3
      case EconomicCrisis => 4
      case FinancialFraud => 5
      case Corruption => 6
      case Sanctions => 7
      case RegulatoryChanges => 8
      case LegalViolations => 9
      case HumanRights => 10
      case InfrastructureDamage => 11
      case SupplyChain => 12
      case CyberSecurity => 13
      case CorporateScandal => 14
      case Environmental => 15
      case SocialIssues => 16
      case PublicHealth => 17
      case NaturalDisaster => 18
      case Unknown => 19
    }
  }

  /** The declaration order as a ranking function. */
  function CategoryOrder(c: RiskCategory): int {
    c.Ordinal()
  }

  /** The category declared `i`-th (the catch-all past the end). */
  function CategoryWithOrdinal(i: int): (c: RiskCategory)
    ensures 0 <= i < 20 ==> c.Ordinal() == i
  {
    match i
    case 0 => PoliticalInstability
    case 1 => CivilUnrest
    case 2 => Terrorism
    case 3 => MilitaryConflict
    case 4 => EconomicCrisis
    case 5 => FinancialFraud
    case 6 => Corruption
    case 7 => Sanctions
    case 8 => RegulatoryChanges
    case 9 => LegalViolations
    case 10 => HumanRights
    case 11 => InfrastructureDamage
    case 12 => SupplyChain
    case 13 => CyberSecurity
    case 14 => CorporateScandal
    case 15 => Environmental
    case 16 => SocialIssues
    case 17 => PublicHealth
    case 18 => NaturalDisaster
    case _ => Unknown
  }

  /** The categories in declaration order, as `for category in RiskCategory`
      visits them. */
  function AllCategories(): seq<RiskCategory> {
    seq(20, CategoryWithOrdinal)
  }

  lemma InAllCategories(c: RiskCategory)
    ensures c in AllCategories()
  {
    assert AllCategories()[c.Ordinal()] == c;
  }

  /** `AllCategories()` lists the categories in declaration order: the `i`-th
      entry has ordinal `i`. */
  lemma AllCategoriesOrdered()
    ensures forall i :: 0 <= i < |AllCategories()| ==> AllCategories()[i].Ordinal() == i
    ensures StrictlyIncreasing(AllCategories(), CategoryOrder)
  {
  }

  /** `RiskCategory(value)`: the category whose value is `s`. */
  function CategoryFromDisplay(s: string): Wrappers.Option<RiskCategory> {
    match s
    case "Political Instability" => Wrappers.Some(PoliticalInstability)
    case "Civil Unrest" => Wrappers.Some(CivilUnrest)
    case "Terrorism" => Wrappers.Some(Terrorism)
    case "Military Conflict" => Wrappers.Some(MilitaryConflict)
    case "Economic Crisis" => Wrappers.Some(EconomicCrisis)
    case "Financial Fraud" => Wrappers.Some(FinancialFraud)
    case "Corruption" => Wrappers.Some(Corruption)
    case "Sanctions" => Wrappers.Some(Sanctions)
    case "Regulatory Changes" => Wrappers.Some(RegulatoryChanges)
    case "Legal Violations" => Wrappers.Some(LegalViolations)
    case "Human Rights Violations" => Wrappers.Some(HumanRights)
    case "Infrastructure Damage" => Wrappers.Some(InfrastructureDamage)
    case "Supply Chain Disruption" => Wrappers.Some(SupplyChain)
    case "Cyber Security Threat" => Wrappers.Some(CyberSecurity)
    case "Corporate Scandal" => Wrappers.Some(CorporateScandal)
    case "Environmental Risk" => Wrappers.Some(Environmental)
    case "Social Issues" => Wrappers.Some(SocialIssues)
    case "Public Health Crisis" => Wrappers.Some(PublicHealth)
    case "Natural Disaster" => Wrappers.Some(NaturalDisaster)
    case "Unknown/Other" => Wrappers.Some(Unknown)
    case _ => Wrappers.None
  }

  /** Every category's display string reads back as that category. */
  lemma CategoryDisplayRoundTrip(c: RiskCategory)
    ensures CategoryFromDisplay(c.Display()) == Wrappers.Some(c)
  {
  }

  /** No two categories share a display string. */
  lemma CategoryDisplayInjective(c: RiskCategory, d: RiskCategory)
    ensures c.Display() == d.Display() ==> c == d
  {
    CategoryDisplayRoundTrip(c);
    CategoryDisplayRoundTrip(d);
  }

  /** There are exactly twenty categories, each listed once. */
  lemma CategoriesEnumerated(c: RiskCategory)
    ensures |AllCategories()| == 20 && c in AllCategories()
    ensures Distinct(AllCategories())
  {
    InAllCategories(c);
    forall i, j | 0 <= i < j < |AllCategories()|
      ensures AllCategories()[i] != AllCategories()[j]
    {
      CategoryDisplayInjective(AllCategories()[i], AllCategories()[j]);
    }
  }

  // ----- keyword indicators -----

  /** The indicator table: trigger phrases for ten of the categories, in the
      dictionary's insertion order (the order the keyword scan visits). */
  const Indicators: seq<(RiskCategory, seq<string>)> := [
    (PoliticalInstability, [
      "government collapse", "coup", "regime change", "political crisis",
      "election violence", "parliament dissolved", "cabinet reshuffle"]),
    (CivilUnrest, [
      "protest", "riot", "strike", "demonstration", "unrest",
      "clashes", "violence", "mob", "agitation"]),
    (Terrorism, [
      "terrorist", "bomb", "explosion", "attack", "militant",
      "extremist", "suicide bomber", "ISIS", "Al-Qaeda"]),
    (EconomicCrisis, [
      "economic crisis", "inflation", "debt default", "bankruptcy",
      "currency collapse", "recession", "financial crisis", "IMF bailout"]),
    (Corruption, [
      "corruption", "bribery", "embezzlement", "fraud", "kickback",
      "money laundering", "misappropriation", "graft"]),
    (HumanRights, [
      "human rights", "torture", "arbitrary arrest", "disappearance",
      "unlawful detention", "abuse", "violation"]),
    (CyberSecurity, [
      "cyber attack", "data breach", "hacking", "ransomware",
      "phishing", "malware", "cyber threat"]),
    (Environmental, [
      "pollution", "toxic", "environmental damage", "deforestation",
      "oil spill", "chemical leak", "waste dumping"]),
    (PublicHealth, [
      "epidemic", "pandemic", "outbreak", "disease", "health crisis",
      "contamination", "food poisoning"]),
    (NaturalDisaster, [
      "flood", "landslide", "cyclone", "earthquake", "tsunami",
      "drought", "wildfire", "natural disaster"])
  ]

  /** The ten tabled categories, in table order. */
  const TabledCategories: seq<RiskCategory> := [
    PoliticalInstability, CivilUnrest, Terrorism, EconomicCrisis, Corruption,
    HumanRights, CyberSecurity, Environmental, PublicHealth, NaturalDisaster]

  /** The table covers exactly the ten tabled categories, each once and in
      declaration order. */
  lemma IndicatorCategories()
    ensures Keys(Indicators) == TabledCategories
    ensures Distinct(Keys(Indicators))
    ensures StrictlyIncreasing(Keys(Indicators), CategoryOrder)
  {
    assert Keys(Indicators) == TabledCategories;
    TabledOrdered();
  }

  lemma TabledOrdered()
    ensures StrictlyIncreasing(TabledCategories, CategoryOrder) && Distinct(TabledCategories)
  {
    var ords := [0, 1, 2, 4, 6, 10, 13, 15, 17, 18];
    assert forall i :: 0 <= i < 10 ==> CategoryOrder(TabledCategories[i]) == ords[i];
  }

  /** `RiskIndicators.get_keywords`: the table's phrases for a tabled category,
      the empty list for the ten others. */
  function GetKeywords(c: RiskCategory): (r: seq<string>)
    ensures forall i :: 0 <= i < |Indicators| && Indicators[i].0 == c ==> r == Indicators[i].1
    ensures c !in Keys(Indicators) ==> r == []
  {
    IndicatorCategories();
    assert forall i :: 0 <= i < |Indicators| ==> Indicators[i].0 !in Keys(Indicators[..i]);
    Lookup(Indicators, c, [])
  }

  /** `RiskIndicators.all_keywords`: the table itself, which agrees entry by
      entry with `GetKeywords` and has one entry per tabled category. */
  function AllKeywords(): (r: seq<(RiskCategory, seq<string>)>)
    ensures |r| == 10 && Distinct(Keys(r))
    ensures forall i :: 0 <= i < |r| ==> GetKeywords(r[i].0) == r[i].1
    ensures forall c: RiskCategory :: c !in Keys(r) ==> GetKeywords(c) == []
  {
    IndicatorCategories();
    Indicators
  }

  // ----- the assessment record -----

  /** The result of analysing one article. `reasoningTrace` is absent until the
      agent attaches the trace. */
  datatype RiskAssessment = RiskAssessment(
    articleId: string,
    articleTitle: string,
    riskLevel: RiskLevel,
    riskCategories: seq<RiskCategory>,
    reasoning: string,
    confidence: real,
    recommendedActions: seq<string>,
    keyEntities: seq<string>,
    geographicScope: string,
    reasoningTrace: Wrappers.Option<seq<ReactLoop.TraceEntry>>)

  /** The scope an assessment gets when none is given. */
  const DefaultScope: string := "Sri Lanka"

  /** The constructor: omitted or empty key entities become the empty list, an
      omitted scope becomes "Sri Lanka". */
  function NewAssessment(
    articleId: string, articleTitle: string, riskLevel: RiskLevel,
    riskCategories: seq<RiskCategory>, reasoning: string, confidence: real,
    recommendedActions: seq<string>,
    keyEntities: Wrappers.Option<seq<string>>,
    geographicScope: Wrappers.Option<string>): (r: RiskAssessment)
    ensures r.articleId == articleId && r.articleTitle == articleTitle
    ensures r.riskLevel == riskLevel && r.riskCategories == riskCategories
    ensures r.reasoning == reasoning && r.confidence == confidence
    ensures r.recommendedActions == recommendedActions
    ensures keyEntities.None? ==> r.keyEntities == []
    ensures keyEntities.Some? ==> r.keyEntities == keyEntities.value
    ensures geographicScope.None? ==> r.geographicScope == "Sri Lanka"
    ensures geographicScope.Some? ==> r.geographicScope == geographicScope.value
    ensures r.reasoningTrace.None?
  {
    RiskAssessment(articleId, articleTitle, riskLevel, riskCategories, reasoning, confidence,
                   recommendedActions, keyEntities.GetOr([]), geographicScope.GetOr(DefaultScope),
                   Wrappers.None)
  }

  /** A value in the rendered dictionary. */
  datatype DictValue = Str(s: string) | Num(x: real) | Strs(xs: seq<string>)

  /** The nine keys of the rendered dictionary. */
  const AssessmentFields: set<string> := {
    "article_id", "article_title", "risk_level", "risk_categories", "reasoning",
    "confidence", "recommended_actions", "key_entities", "geographic_scope"}

  function Displays(cs: seq<RiskCategory>): (r: seq<string>)
    ensures |r| == |cs|
    ensures forall i :: 0 <= i < |cs| ==> r[i] == cs[i].Display()
  {
    seq(|cs|, i requires 0 <= i < |cs| => cs[i].Display())
  }

  /** `RiskAssessment.to_dict`: nine keys; the level and the categories are
      rendered as their display strings, in order; the trace is not included. */
  function ToDict(a: RiskAssessment): (d: map<string, DictValue>)
    ensures d.Keys == AssessmentFields && |d| == 9
    ensures d["article_id"] == Str(a.articleId) && d["article_title"] == Str(a.articleTitle)
    ensures d["risk_level"] == Str(a.riskLevel.Display())
    ensures d["risk_categories"].Strs? && |d["risk_categories"].xs| == |a.riskCategories|
    ensures forall i :: 0 <= i < |a.riskCategories| ==>
      d["risk_categories"].xs[i] == a.riskCategories[i].Display()
    ensures d["reasoning"] == Str(a.reasoning) && d["confidence"] == Num(a.confidence)
    ensures d["recommended_actions"] == Strs(a.recommendedActions)
    ensures d["key_entities"] == Strs(a.keyEntities)
    ensures d["geographic_scope"] == Str(a.geographicScope)
  {
    var d := map[
      "article_id" := Str(a.articleId),
      "article_title" := Str(a.articleTitle),
      "risk_level" := Str(a.riskLevel.Display()),
      "risk_categories" := Strs(Displays(a.riskCategories)),
      "reasoning" := Str(a.reasoning),
      "confidence" := Num(a.confidence),
      "recommended_actions" := Strs(a.recommendedActions),
      "key_entities" := Strs(a.keyEntities),
      "geographic_scope" := Str(a.geographicScope)];
    assert |AssessmentFields| == 9;
    d
  }

  /** Reads rendered category names back, failing on any unknown name. */
  function CategoriesFromDisplays(xs: seq<string>): Wrappers.Option<seq<RiskCategory>> {
    if xs == [] then Wrappers.Some([])
    else
      match (CategoryFromDisplay(xs[0]), CategoriesFromDisplays(xs[1..]))
      case (Some(c), Some(cs)) => Wrappers.Some([c] + cs)
      case _ => Wrappers.None
  }

  lemma {:induction false} DisplaysRoundTrip(cs: seq<RiskCategory>)
    ensures CategoriesFromDisplays(Displays(cs)) == Wrappers.Some(cs)
  {
    if cs != [] {
      CategoryDisplayRoundTrip(cs[0]);
      assert Displays(cs)[1..] == Displays(cs[1..]);
      DisplaysRoundTrip(cs[1..]);
      assert cs == [cs[0]] + cs[1..];
    }
  }

  /** The rendering loses nothing about the level and the categories: both read
      back from their display strings. */
  lemma ToDictDecodes(a: RiskAssessment)
    ensures LevelFromDisplay(ToDict(a)["risk_level"].s) == Wrappers.Some(a.riskLevel)
    ensures CategoriesFromDisplays(ToDict(a)["risk_categories"].xs) == Wrappers.Some(a.riskCategories)
  {
    LevelsEnumerated(a.riskLevel);
    assert ToDict(a)["risk_categories"].xs == Displays(a.riskCategories);
    DisplaysRoundTrip(a.riskCategories);
  }
}

=== FILE: risk_summary.dfy ===
/** The executive summary of a batch of assessments: how many there are, how
    they spread over the levels, the most frequent categories, the
    high-priority items and the mean confidence. The generation time is an
    argument. */
module RiskSummary {
  import opened Tally
  import opened RiskCategories

  function LevelOf(a: RiskAssessment): RiskLevel {
    a.riskLevel
  }

  /** The position of `l` in `AllLevels`. */
  function LevelIndex(l: RiskLevel): (k: nat)
    ensures k < 5 && AllLevels[k] == l
  {
    4 - l.Rank()
  }

  /** The counting loop: one counter per level, in declaration order, starting
      at zero, the counter of each assessment's level raised by one. */
  function LevelCounts(assessments: seq<RiskAssessment>): (c: seq<int>)
    ensures |c| == 5
    ensures forall i :: 0 <= i < 5 ==> c[i] == Occurrences(Map(assessments, LevelOf), AllLevels[i])
    decreases |assessments|
  {
    if assessments == [] then [0, 0, 0, 0, 0]
    else
      var init := assessments[..|assessments| - 1];
      var last := assessments[|assessments| - 1];
      var c := LevelCounts(init);
      var k := LevelIndex(last.riskLevel);
      assert Map(assessments, LevelOf) == Map(init, LevelOf) + [last.riskLevel];
      c[k := c[k] + 1]
  }

  /** Every assessment is counted under exactly one level. */
  lemma {:induction false} LevelCountsSum(assessments: seq<RiskAssessment>)
    ensures var c := LevelCounts(assessments); c[0] + c[1] + c[2] + c[3] + c[4] == |assessments|
    decreases |assessments|
  {
    if assessments != [] {
      LevelCountsSum(assessments[..|assessments| - 1]);
    }
  }

  /** `risk_distribution`: each level's value with its count, in declaration order. */
  function Distribution(assessments: seq<RiskAssessment>): (r: seq<(string, int)>)
    ensures Keys(r) == ["Critical", "High", "Medium", "Low", "None"]
    ensures forall i :: 0 <= i < 5 ==> r[i].1 == Occurrences(Map(assessments, LevelOf), AllLevels[i])
  {
    var c := LevelCounts(assessments);
    [("Critical", c[0]), ("High", c[1]), ("Medium", c[2]), ("Low", c[3]), ("None", c[4])]
  }

  /** The distribution accounts for every assessment exactly once. */
  lemma DistributionSum(assessments: seq<RiskAssessment>)
    ensures SumCounts(Distribution(assessments)) == |assessments|
  {
    var d := Distribution(assessments);
    LevelCountsSum(assessments);
    assert SumCounts(d[4..]) == d[4].1 by { assert d[4..][1..] == []; }
    assert SumCounts(d[3..]) == d[3].1 + SumCounts(d[4..]) by { assert d[3..][1..] == d[4..]; }
    assert SumCounts(d[2..]) == d[2].1 + SumCounts(d[3..]) by { assert d[2..][1..] == d[3..]; }
    assert SumCounts(d[1..]) == d[1].1 + SumCounts(d[2..]) by { assert d[1..][1..] == d[2..]; }
  }

  /** The nested loop over the assessments and their categories: every
      category value, in visiting order. */
  function CategoryNames(assessments: seq<RiskAssessment>): seq<string> {
    Flatten(seq(|assessments|, i requires 0 <= i < |assessments| => Displays(assessments[i].riskCategories)))
  }

  /** `top_risk_categories`: the five most frequent category values with their
      counts, most frequent first; a category is left out only when five at
      least as frequent are listed. */
  function TopCategories(assessments: seq<RiskAssessment>): (r: seq<(string, int)>)
    ensures |r| <= 5 && NonIncreasing(r) && Distinct(Keys(r))
    ensures forall i :: 0 <= i < |r| ==> r[i].1 == Occurrences(CategoryNames(assessments), r[i].0) > 0
    ensures forall i :: 0 <= i < |CategoryNames(assessments)| && CategoryNames(assessments)[i] !in Keys(r) ==>
      |r| == 5 && Occurrences(CategoryNames(assessments), CategoryNames(assessments)[i]) <= r[4].1
    ensures TiesFirstSeen(r, CategoryNames(assessments)) && CutFirstSeen(r, CategoryNames(assessments), 5)
  {
    MostCommon(CategoryNames(assessments), 5)
  }

  /** A category's count is the sum, over the assessments, of how often each
      lists it. */
  lemma TopCategoriesCounted(assessments: seq<RiskAssessment>, name: string)
    ensures Occurrences(CategoryNames(assessments), name) ==
      SumOf(seq(|assessments|, i requires 0 <= i < |assessments| => Displays(assessments[i].riskCategories)),
            (xs: seq<string>) => Occurrences(xs, name))
  {
    FlattenOccurrences(seq(|assessments|, i requires 0 <= i < |assessments| => Displays(assessments[i].riskCategories)), name);
  }

  /** An assessment at CRITICAL or HIGH. */
  predicate IsHighPriority(a: RiskAssessment) {
    a.riskLevel == Critical || a.riskLevel == High
  }

  /** The high-priority assessments are exactly those the distribution counts
      under CRITICAL and HIGH. */
  lemma {:induction false} HighPriorityCounted(assessments: seq<RiskAssessment>)
    ensures |Filter(assessments, IsHighPriority)| == LevelCounts(assessments)[0] + LevelCounts(assessments)[1]
    decreases |assessments|
  {
    if assessments != [] {
      FilterLast(assessments, IsHighPriority);
      HighPriorityCounted(assessments[..|assessments| - 1]);
    }
  }

  /** The sum of the confidences. */
  function ConfidenceSum(assessments: seq<RiskAssessment>): real
    decreases |assessments|
  {
    if assessments == [] then 0.0 else assessments[0].confidence + ConfidenceSum(assessments[1..])
  }

  /** `average_confidence`: the mean confidence, 0 for no assessments. */
  function AverageConfidence(assessments: seq<RiskAssessment>): (r: real)
    ensures assessments == [] ==> r == 0.0
    ensures assessments != [] ==> r * |assessments| as real == ConfidenceSum(assessments)
  {
    if assessments == [] then 0.0 else ConfidenceSum(assessments) / |assessments| as real
  }

  /** Confidences within [0, 1] sum to at most their number. */
  lemma {:induction false} ConfidenceSumBounds(assessments: seq<RiskAssessment>)
    requires forall i :: 0 <= i < |assessments| ==> 0.0 <= assessments[i].confidence <= 1.0
    ensures 0.0 <= ConfidenceSum(assessments) <= |assessments| as real
    decreases |assessments|
  {
    if assessments != [] {
      ConfidenceSumBounds(assessments[1..]);
    }
  }

  /** A mean of confidences within [0, 1] is within [0, 1]. */
  lemma AverageConfidenceBounds(assessments: seq<RiskAssessment>)
    requires forall i :: 0 <= i < |assessments| ==> 0.0 <= assessments[i].confidence <= 1.0
    ensures 0.0 <= AverageConfidence(assessments) <= 1.0
  {
    ConfidenceSumBounds(assessments);
  }

  /** `[a.to_dict() for a in high_priority[:5]]`. */
  function RenderFirst(xs: seq<RiskAssessment>, n: int): (r: seq<map<string, DictValue>>)
    ensures |r| == |Take(xs, n)|
    ensures forall i :: 0 <= i < |r| ==> r[i] == ToDict(xs[i])
  {
    var shown := Take(xs, n);
    seq(|shown|, i requires 0 <= i < |shown| => ToDict(shown[i]))
  }

  /** The report `generate_summary_report` returns. */
  datatype SummaryReport = SummaryReport(
    timestamp: string,
    totalArticlesAnalyzed: int,
    riskDistribution: seq<(string, int)>,
    topRiskCategories: seq<(string, int)>,
    highPriorityCount: int,
    highPriorityArticles: seq<map<string, DictValue>>,
    averageConfidence: real)

  /** `generate_summary_report`: the total, a distribution that accounts for
      every assessment, at most five top categories, the number of CRITICAL
      and HIGH assessments with the first five of them rendered in order, and
      the mean confidence. */
  function GenerateSummaryReport(assessments: seq<RiskAssessment>, timestamp: string): (r: SummaryReport)
    ensures r.timestamp == timestamp && r.totalArticlesAnalyzed == |assessments|
    ensures r.riskDistribution == Distribution(assessments)
    ensures SumCounts(r.riskDistribution) == r.totalArticlesAnalyzed
    ensures r.topRiskCategories == TopCategories(assessments)
    ensures r.highPriorityCount == LevelCounts(assessments)[0] + LevelCounts(assessments)[1] <= |assessments|
    ensures |r.highPriorityArticles| == (if r.highPriorityCount < 5 then r.highPriorityCount else 5)
    ensures r.highPriorityArticles == RenderFirst(Filter(assessments, IsHighPriority), 5)
    ensures forall i :: 0 <= i < |r.highPriorityArticles| ==>
      var a := Filter(assessments, IsHighPriority)[i];
      IsHighPriority(a) && a in assessments
    ensures r.averageConfidence == AverageConfidence(assessments)
  {
    var high := Filter(assessments, IsHighPriority);
    DistributionSum(assessments);
    HighPriorityCounted(assessments);
    SummaryReport(timestamp, |assessments|, Distribution(assessments), TopCategories(assessments),
                  |high|, RenderFirst(high, 5), AverageConfidence(assessments))
  }
}

=== FILE: tally.dfy ===
/** Counting, de-duplicating, grouping and ranking over sequences. These are the
    Python idioms the core leans on: the `if x not in xs: xs.append(x)` loop,
    `defaultdict(int)` / `dict.get(k, 0) + 1` counting (insertion-ordered),
    `defaultdict(list)` grouping, `sorted(items, key=count, reverse=True)`
    (a stable sort) and `Counter.most_common(n)`. */
module Tally {

  predicate Distinct<T(==)>(xs: seq<T>) {
    forall i, j :: 0 <= i < j < |xs| ==> xs[i] != xs[j]
  }

  /** How many times `x` occurs in `xs`. */
  function Occurrences<T(==)>(xs: seq<T>, x: T): nat {
    multiset(xs)[x]
  }

  /** Index of the first occurrence of `x` in `xs`. */
  function FirstIndex<T(==)>(xs: seq<T>, x: T): (k: nat)
    requires x in xs
    ensures k < |xs| && xs[k] == x
    ensures forall i :: 0 <= i < k ==> xs[i] != x
  {
    if xs[0] == x then 0 else 1 + FirstIndex(xs[1..], x)
  }

  lemma FirstIndexInPrefix<T>(xs: seq<T>, n: nat, x: T)
    requires n <= |xs| && x in xs[..n]
    ensures FirstIndex(xs, x) == FirstIndex(xs[..n], x)
  {
    var k := FirstIndex(xs[..n], x);
    assert xs[k] == x;
    forall i | 0 <= i < k ensures xs[i] != x {
      assert xs[..n][i] == xs[i];
    }
  }

  /** The elements of `xs` with later repetitions removed, in the order of their
      first occurrence (see `DedupFirstSeenOrder`). */
  function Dedup<T(==)>(xs: seq<T>): (r: seq<T>)
    ensures Distinct(r)
    ensures forall i :: 0 <= i < |r| ==> r[i] in xs
    ensures forall i :: 0 <= i < |xs| ==> xs[i] in r
    decreases |xs|
  {
    if xs == [] then []
    else
      var init := xs[..|xs| - 1];
      var last := xs[|xs| - 1];
      var rest := Dedup(init);
      assert forall i :: 0 <= i < |xs| - 1 ==> xs[i] == init[i];
      if last in init then rest else rest + [last]
  }

  /** `Dedup` lists elements in the order in which they are first seen. */
  lemma {:induction false} DedupFirstSeenOrder<T>(xs: seq<T>)
    ensures forall i, j :: 0 <= i < j < |Dedup(xs)| ==>
      FirstIndex(xs, Dedup(xs)[i]) < FirstIndex(xs, Dedup(xs)[j])
    decreases |xs|
  {
    if xs != [] {
      var n := |xs| - 1;
      var init, last := xs[..n], xs[n];
      DedupFirstSeenOrder(init);
      var rest := Dedup(init);
      forall i | 0 <= i < |rest|
        ensures FirstIndex(xs, rest[i]) == FirstIndex(init, rest[i])
      {
        FirstIndexInPrefix(xs, n, rest[i]);
      }
      if last !in init {
        assert FirstIndex(xs, last) == n;
      }
    }
  }

  // ----- insertion-ordered counting -----

  /** The keys of an association list, in order. */
  function Keys<K, V>(ps: seq<(K, V)>): (r: seq<K>)
    ensures |r| == |ps|
    ensures forall i :: 0 <= i < |ps| ==> r[i] == ps[i].0
  {
    seq(|ps|, i requires 0 <= i < |ps| => ps[i].0)
  }

  /** `d[x] = d.get(x, 0) + 1` on an insertion-ordered dictionary. */
  function Bump<T(==)>(ps: seq<(T, int)>, x: T): (r: seq<(T, int)>)
    requires Distinct(Keys(ps))
    ensures x in Keys(ps) ==> |r| == |ps|
    ensures x !in Keys(ps) ==> |r| == |ps| + 1 && r[|ps|] == (x, 1)
    ensures forall i :: 0 <= i < |ps| ==>
      r[i].0 == ps[i].0 && r[i].1 == ps[i].1 + (if ps[i].0 == x then 1 else 0)
  {
    if ps == [] then [(x, 1)]
    else if ps[0].0 == x then
      assert x !in Keys(ps[1..]) by {
        assert forall i :: 0 <= i < |ps| - 1 ==> Keys(ps[1..])[i] == Keys(ps)[i + 1];
      }
      [(x, ps[0].1 + 1)] + ps[1..]
    else
      assert Keys(ps[1..]) == Keys(ps)[1..];
      [ps[0]] + Bump(ps[1..], x)
  }

  /** Counts of the elements of `xs`, keyed in first-seen order: the dictionary
      a `for x in xs: d[x] = d.get(x, 0) + 1` loop builds, or `Counter(xs)`. */
  function Counts<T(==)>(xs: seq<T>): (r: seq<(T, int)>)
    ensures Keys(r) == Dedup(xs)
    ensures forall i :: 0 <= i < |r| ==> r[i].1 == Occurrences(xs, r[i].0) && r[i].1 > 0
    decreases |xs|
  {
    if xs == [] then []
    else
      var prev := Counts(xs[..|xs| - 1]);
      var r := Bump(prev, xs[|xs| - 1]);
      TallyKeysStep(xs, prev, r);
      TallyCountsStep(xs, prev, r);
      r
  }

  /** Removing later repetitions from `init + [last]` keeps `last` only if it is new. */
  lemma DedupSnoc<T>(init: seq<T>, last: T)
    ensures Dedup(init + [last]) == if last in init then Dedup(init) else Dedup(init) + [last]
  {
    var xs := init + [last];
    assert xs[..|xs| - 1] == init;
  }

  lemma OccurrencesSnoc<T>(init: seq<T>, last: T, x: T)
    ensures Occurrences(init + [last], x) == Occurrences(init, x) + (if x == last then 1 else 0)
  {
    assert multiset(init + [last]) == multiset(init) + multiset{last};
  }

  lemma TallyKeysStep<T>(xs: seq<T>, prev: seq<(T, int)>, r: seq<(T, int)>)
    requires xs != [] && Keys(prev) == Dedup(xs[..|xs| - 1])
    requires r == Bump(prev, xs[|xs| - 1])
    ensures Keys(r) == Dedup(xs)
  {
    var init, last := xs[..|xs| - 1], xs[|xs| - 1];
    BumpKeys(prev, last);
    assert last in Keys(prev) <==> last in init;
  }

  lemma BumpKeys<T>(ps: seq<(T, int)>, x: T)
    requires Distinct(Keys(ps))
    ensures Keys(Bump(ps, x)) == if x in Keys(ps) then Keys(ps) else Keys(ps) + [x]
  {
    var r := Bump(ps, x);
    if x in Keys(ps) {
      assert forall i :: 0 <= i < |r| ==> Keys(r)[i] == Keys(ps)[i];
    } else {
      assert forall i :: 0 <= i < |r| ==> Keys(r)[i] == (Keys(ps) + [x])[i];
    }
  }

  /** Counting in a non-empty list: the count in all but the last element,
      plus one if the last element is the one counted. */
  lemma OccurrencesLast<T>(xs: seq<T>, x: T)
    requires xs != []
    ensures Occurrences(xs, x) == Occurrences(xs[..|xs| - 1], x) + (if x == xs[|xs| - 1] then 1 else 0)
  {
    var init, last := xs[..|xs| - 1], xs[|xs| - 1];
    assert xs == init + [last];
    OccurrencesSnoc(init, last, x);
  }

  lemma TallyCountAt<T>(init: seq<T>, last: T, prev: seq<(T, int)>, r: seq<(T, int)>, i: int)
    requires Keys(prev) == Dedup(init)
    requires forall j :: 0 <= j < |prev| ==> prev[j].1 == Occurrences(init, prev[j].0) && prev[j].1 > 0
    requires r == Bump(prev, last) && 0 <= i < |r|
    ensures r[i].1 == Occurrences(init, r[i].0) + (if r[i].0 == last then 1 else 0) && r[i].1 > 0
  {
    if i < |prev| {
      assert r[i].0 == prev[i].0;
    } else {
      assert last !in init by {
        forall j | 0 <= j < |init| ensures init[j] != last {
          assert init[j] in Dedup(init);
        }
      }
      assert r[i] == (last, 1);
    }
  }

  lemma TallyCountsStep<T>(xs: seq<T>, prev: seq<(T, int)>, r: seq<(T, int)>)
    requires xs != [] && Keys(prev) == Dedup(xs[..|xs| - 1])
    requires forall i :: 0 <= i < |prev| ==>
      prev[i].1 == Occurrences(xs[..|xs| - 1], prev[i].0) && prev[i].1 > 0
    requires r == Bump(prev, xs[|xs| - 1])
    ensures forall i :: 0 <= i < |r| ==> r[i].1 == Occurrences(xs, r[i].0) && r[i].1 > 0
  {
    forall i | 0 <= i < |r| ensures r[i].1 == Occurrences(xs, r[i].0) && r[i].1 > 0 {
      TallyCountAt(xs[..|xs| - 1], xs[|xs| - 1], prev, r, i);
      OccurrencesLast(xs, r[i].0);
    }
  }

  function SumCounts<T>(ps: seq<(T, int)>): int {
    if ps == [] then 0 else ps[0].1 + SumCounts(ps[1..])
  }

  lemma {:induction false} BumpSum<T>(ps: seq<(T, int)>, x: T)
    requires Distinct(Keys(ps))
    ensures SumCounts(Bump(ps, x)) == SumCounts(ps) + 1
  {
    if ps != [] && ps[0].0 != x {
      assert Keys(ps[1..]) == Keys(ps)[1..];
      BumpSum(ps[1..], x);
    }
  }

  /** Every element is counted exactly once: the counts sum to the length. */
  lemma {:induction false} TallySum<T>(xs: seq<T>)
    ensures SumCounts(Counts(xs)) == |xs|
    decreases |xs|
  {
    if xs != [] {
      var init := xs[..|xs| - 1];
      TallySum(init);
      BumpSum(Counts(init), xs[|xs| - 1]);
    }
  }

  // ----- stable descending sort by count -----

  predicate NonIncreasing<T>(ps: seq<(T, int)>) {
    forall i, j :: 0 <= i < j < |ps| ==> ps[i].1 >= ps[j].1
  }

  /** The entries of `ps` whose count is `k`, in order. */
  function WithCount<T>(ps: seq<(T, int)>, k: int): seq<(T, int)> {
    if ps == [] then [] else (if ps[0].1 == k then [ps[0]] else []) + WithCount(ps[1..], k)
  }

  /** Places `p` before the first entry whose count is not larger than its own,
      so that `p` stays ahead of the equal entries that followed it. */
  function InsertByCount<T>(p: (T, int), s: seq<(T, int)>): (r: seq<(T, int)>)
    ensures |r| == |s| + 1
  {
    if s == [] || s[0].1 <= p.1 then [p] + s else [s[0]] + InsertByCount(p, s[1..])
  }

  lemma {:induction false} InsertSorted<T>(p: (T, int), s: seq<(T, int)>)
    requires NonIncreasing(s)
    ensures NonIncreasing(InsertByCount(p, s))
    ensures forall i :: 0 <= i < |InsertByCount(p, s)| ==>
      InsertByCount(p, s)[i] == p || InsertByCount(p, s)[i] in s
  {
    if s != [] && s[0].1 > p.1 {
      InsertSorted(p, s[1..]);
      var r := InsertByCount(p, s);
      forall j | 0 < j < |r| ensures r[0].1 >= r[j].1 {
        assert r[j] == InsertByCount(p, s[1..])[j - 1];
      }
    }
  }

  lemma {:induction false} InsertPermutes<T>(p: (T, int), s: seq<(T, int)>)
    ensures multiset(InsertByCount(p, s)) == multiset(s) + multiset{p}
    ensures multiset(Keys(InsertByCount(p, s))) == multiset(Keys(s)) + multiset{p.0}
  {
    if s == [] || s[0].1 <= p.1 {
      KeysCons(p, s);
    } else {
      InsertPermutes(p, s[1..]);
      assert s == [s[0]] + s[1..];
      KeysCons(s[0], s[1..]);
      KeysCons(s[0], InsertByCount(p, s[1..]));
    }
  }

  lemma KeysCons<K, V>(p: (K, V), s: seq<(K, V)>)
    ensures Keys([p] + s) == [p.0] + Keys(s)
  {
  }

  lemma WithCountAppend<T>(a: seq<(T, int)>, b: seq<(T, int)>, k: int)
    ensures WithCount(a + b, k) == WithCount(a, k) + WithCount(b, k)
  {
    if a != [] {
      assert (a + b)[0] == a[0];
      assert (a + b)[1..] == a[1..] + b;
      WithCountAppend(a[1..], b, k);
      assert WithCount(a + b, k) == (if a[0].1 == k then [a[0]] else []) + WithCount(a[1..] + b, k);
    } else {
      assert a + b == b;
    }
  }

  lemma {:induction false} InsertKeepsTies<T>(p: (T, int), s: seq<(T, int)>, k: int)
    ensures WithCount(InsertByCount(p, s), k) == WithCount([p], k) + WithCount(s, k)
  {
    if s == [] || s[0].1 <= p.1 {
      WithCountAppend([p], s, k);
    } else {
      InsertKeepsTies(p, s[1..], k);
      WithCountAppend([s[0]], InsertByCount(p, s[1..]), k);
      WithCountAppend([s[0]], s[1..], k);
      assert s == [s[0]] + s[1..];
    }
  }

  /** Python's `sorted(ps, key=lambda e: e[1], reverse=True)`: non-increasing by
      count, a permutation, and stable (entries with equal counts keep their
      relative order). */
  function SortByCount<T(==)>(ps: seq<(T, int)>): (r: seq<(T, int)>)
    ensures NonIncreasing(r)
    ensures multiset(r) == multiset(ps)
    ensures multiset(Keys(r)) == multiset(Keys(ps))
    ensures forall k :: WithCount(r, k) == WithCount(ps, k)
  {
    if ps == [] then []
    else
      var rest := SortByCount(ps[1..]);
      SortStep(ps, rest);
      InsertByCount(ps[0], rest)
  }

  lemma SortStep<T>(ps: seq<(T, int)>, rest: seq<(T, int)>)
    requires ps != []
    requires NonIncreasing(rest)
    requires multiset(rest) == multiset(ps[1..])
    requires multiset(Keys(rest)) == multiset(Keys(ps[1..]))
    requires forall k :: WithCount(rest, k) == WithCount(ps[1..], k)
    ensures NonIncreasing(InsertByCount(ps[0], rest))
    ensures multiset(InsertByCount(ps[0], rest)) == multiset(ps)
    ensures multiset(Keys(InsertByCount(ps[0], rest))) == multiset(Keys(ps))
    ensures forall k :: WithCount(InsertByCount(ps[0], rest), k) == WithCount(ps, k)
  {
    var ins := InsertByCount(ps[0], rest);
    InsertSorted(ps[0], rest);
    InsertPermutes(ps[0], rest);
    HeadSplit(ps);
    forall k ensures WithCount(ins, k) == WithCount(ps, k) {
      InsertKeepsTies(ps[0], rest, k);
    }
  }

  /** What a list of entries is made of: its head and its tail. */
  lemma HeadSplit<T>(ps: seq<(T, int)>)
    requires ps != []
    ensures multiset(ps) == multiset(ps[1..]) + multiset{ps[0]}
    ensures multiset(Keys(ps)) == multiset(Keys(ps[1..])) + multiset{ps[0].0}
    ensures forall k :: WithCount(ps, k) == WithCount([ps[0]], k) + WithCount(ps[1..], k)
  {
    assert ps == [ps[0]] + ps[1..];
    KeysCons(ps[0], ps[1..]);
    forall k ensures WithCount(ps, k) == WithCount([ps[0]], k) + WithCount(ps[1..], k) {
      WithCountAppend([ps[0]], ps[1..], k);
    }
  }

  /** Python's `xs[:n]`, for any integer `n` (a non-positive `n` keeps nothing,
      as `heapq.nlargest` does). */
  function Take<T>(xs: seq<T>, n: int): (r: seq<T>)
    ensures |r| <= |xs| && (n >= 0 ==> |r| <= n)
    ensures |r| == if n <= 0 then 0 else if n < |xs| then n else |xs|
    ensures r == xs[..|r|]
  {
    if n <= 0 then [] else if n < |xs| then xs[..n] else xs
  }

  /** Each of the first `n` elements survives `Take(xs, n)` in place. */
  lemma TakeAt<T>(xs: seq<T>, n: int, k: int)
    requires 0 <= k < n && k < |xs|
    ensures k < |Take(xs, n)| && Take(xs, n)[k] == xs[k]
  {
  }

  /** `Counter(xs).most_common(n)`: the `n` most frequent elements with their
      counts, most frequent first; an element is left out only when `n`
      elements at least as frequent are listed. Equal counts come in first-seen
      order, and among elements as frequent as the last one listed, those
      first seen earliest are the ones kept. */
  function MostCommon<T(==)>(xs: seq<T>, n: int): (r: seq<(T, int)>)
    ensures n >= 0 ==> |r| <= n
    ensures n <= 0 ==> r == []
    ensures NonIncreasing(r)
    ensures Distinct(Keys(r))
    ensures forall i :: 0 <= i < |r| ==> r[i].1 == Occurrences(xs, r[i].0) && r[i].1 > 0
    ensures n > 0 ==> forall i :: 0 <= i < |xs| && xs[i] !in Keys(r) ==>
      |r| == n && Occurrences(xs, xs[i]) <= r[n - 1].1
    ensures TiesFirstSeen(r, xs)
    ensures CutFirstSeen(r, xs, n)
  {
    var sorted := RankedCounts(xs);
    var r := Take(sorted, n);
    MostCommonFacts(xs, sorted, r, n);
    r
  }

  /** An element left out of a full list of `n` entries, with the count of the
      last entry, is first seen after that entry. */
  predicate CutFirstSeen<K(==)>(r: seq<(K, int)>, xs: seq<K>, n: int) {
    0 < n == |r| ==> forall i :: 0 <= i < |xs| && xs[i] !in Keys(r) && Occurrences(xs, xs[i]) == r[n - 1].1 ==>
      SeenAt(xs, r[n - 1].0) < SeenAt(xs, xs[i])
  }

  lemma MostCommonTies<T>(xs: seq<T>, sorted: seq<(T, int)>, r: seq<(T, int)>, n: int)
    requires TiesFirstSeen(sorted, xs)
    requires forall i :: 0 <= i < |sorted| ==> sorted[i].1 == Occurrences(xs, sorted[i].0)
    requires forall i :: 0 <= i < |xs| ==> xs[i] in Keys(sorted)
    requires r == Take(sorted, n)
    ensures TiesFirstSeen(r, xs)
    ensures CutFirstSeen(r, xs, n)
  {
    assert forall i :: 0 <= i < |r| ==> r[i] == sorted[i];
    forall k | 0 < n == |r| && 0 <= k < |xs| && xs[k] !in Keys(r) && Occurrences(xs, xs[k]) == r[n - 1].1
      ensures SeenAt(xs, r[n - 1].0) < SeenAt(xs, xs[k])
    {
      var p :| 0 <= p < |sorted| && Keys(sorted)[p] == xs[k];
      assert sorted[n - 1].1 == sorted[p].1;
    }
  }

  /** Every distinct element with its count, most frequent first. */
  function RankedCounts<T(==)>(xs: seq<T>): (r: seq<(T, int)>)
    ensures NonIncreasing(r) && Distinct(Keys(r))
    ensures forall i :: 0 <= i < |r| ==> r[i].1 == Occurrences(xs, r[i].0) && r[i].1 > 0
    ensures forall i :: 0 <= i < |xs| ==> xs[i] in Keys(r)
    ensures TiesFirstSeen(r, xs)
  {
    var tally := Counts(xs);
    var r := SortByCount(tally);
    RankedCountsFacts(xs, tally, r);
    DedupSeenInOrder(tally, xs);
    SortByCountTies(tally, r, xs);
    r
  }

  /** Sorting entries in first-seen order stably by count keeps equal counts in
      first-seen order. */
  lemma SortByCountTies<T>(ps: seq<(T, int)>, sorted: seq<(T, int)>, xs: seq<T>)
    requires SeenInOrder(ps, xs)
    requires forall k :: WithCount(sorted, k) == WithCount(ps, k)
    ensures TiesFirstSeen(sorted, xs)
  {
    forall k ensures Select(sorted, CountOf, k) == Select(ps, CountOf, k) {
      WithCountIsSelect(sorted, k);
      WithCountIsSelect(ps, k);
    }
    StableTies(ps, sorted, xs, CountOf);
    assert forall i :: 0 <= i < |sorted| ==> CountOf(sorted[i]) == sorted[i].1;
  }

  /** A prefix keeps the order of ties. */
  lemma TakeTies<T>(ps: seq<(T, int)>, xs: seq<T>, n: int)
    requires TiesFirstSeen(ps, xs)
    ensures TiesFirstSeen(Take(ps, n), xs)
  {
    assert forall i :: 0 <= i < |Take(ps, n)| ==> Take(ps, n)[i] == ps[i];
  }

  lemma RankedCountsFacts<T>(xs: seq<T>, tally: seq<(T, int)>, sorted: seq<(T, int)>)
    requires Distinct(Keys(tally))
    requires forall i :: 0 <= i < |tally| ==> tally[i].1 == Occurrences(xs, tally[i].0) && tally[i].1 > 0
    requires forall i :: 0 <= i < |xs| ==> xs[i] in Keys(tally)
    requires multiset(sorted) == multiset(tally)
    ensures Distinct(Keys(sorted))
    ensures forall i :: 0 <= i < |sorted| ==> sorted[i].1 == Occurrences(xs, sorted[i].0) && sorted[i].1 > 0
    ensures forall i :: 0 <= i < |xs| ==> xs[i] in Keys(sorted)
  {
    PermutedKeysDistinct(tally, sorted);
    forall i | 0 <= i < |sorted| ensures sorted[i].1 == Occurrences(xs, sorted[i].0) && sorted[i].1 > 0 {
      assert sorted[i] in multiset(tally);
    }
    forall k | 0 <= k < |xs| ensures xs[k] in Keys(sorted) {
      var a :| 0 <= a < |tally| && Keys(tally)[a] == xs[k];
      assert tally[a] in multiset(sorted);
      var p :| 0 <= p < |sorted| && sorted[p] == tally[a];
    }
  }

  lemma MostCommonFacts<T>(xs: seq<T>, sorted: seq<(T, int)>, r: seq<(T, int)>, n: int)
    requires NonIncreasing(sorted) && Distinct(Keys(sorted)) && TiesFirstSeen(sorted, xs)
    requires forall i :: 0 <= i < |sorted| ==> sorted[i].1 == Occurrences(xs, sorted[i].0) && sorted[i].1 > 0
    requires forall i :: 0 <= i < |xs| ==> xs[i] in Keys(sorted)
    requires r == Take(sorted, n)
    ensures NonIncreasing(r) && Distinct(Keys(r))
    ensures forall i :: 0 <= i < |r| ==> r[i].1 == Occurrences(xs, r[i].0) && r[i].1 > 0
    ensures n > 0 ==> forall i :: 0 <= i < |xs| && xs[i] !in Keys(r) ==>
      |r| == n && Occurrences(xs, xs[i]) <= r[n - 1].1
    ensures TiesFirstSeen(r, xs) && CutFirstSeen(r, xs, n)
  {
    assert forall i :: 0 <= i < |r| ==> r[i] == sorted[i];
    assert forall i :: 0 <= i < |r| ==> Keys(r)[i] == Keys(sorted)[i];
    forall k | 0 < n && 0 <= k < |xs| && xs[k] !in Keys(r)
      ensures |r| == n && Occurrences(xs, xs[k]) <= r[n - 1].1
    {
      var p :| 0 <= p < |sorted| && Keys(sorted)[p] == xs[k];
    }
    MostCommonTies(xs, sorted, r, n);
  }

  /** An element that sits at two positions occurs at least twice. */
  lemma TwoOccurrences<T>(s: seq<T>, i: nat, j: nat)
    requires i < j < |s| && s[i] == s[j]
    ensures multiset(s)[s[i]] >= 2
  {
    assert s == s[..j] + s[j..];
    assert s[i] in s[..j];
    assert s[j] in s[j..];
  }

  /** Reordering an association list with distinct keys keeps its keys distinct. */
  lemma PermutedKeysDistinct<K, V>(ps: seq<(K, V)>, qs: seq<(K, V)>)
    requires Distinct(Keys(ps)) && multiset(qs) == multiset(ps)
    ensures Distinct(Keys(qs))
  {
    forall i, j | 0 <= i < j < |qs| ensures Keys(qs)[i] != Keys(qs)[j] {
      if qs[i].0 == qs[j].0 {
        assert qs[i] in multiset(ps) && qs[j] in multiset(ps);
        var a :| 0 <= a < |ps| && ps[a] == qs[i];
        var b :| 0 <= b < |ps| && ps[b] == qs[j];
        assert Keys(ps)[a] == Keys(ps)[b];
        DistinctKeysSingle(ps, a);
        TwoOccurrences(qs, i, j);
        assert false;
      }
    }
  }

  /** With distinct keys, each entry of an association list occurs once. */
  lemma DistinctKeysSingle<K, V>(ps: seq<(K, V)>, a: nat)
    requires Distinct(Keys(ps)) && a < |ps|
    ensures multiset(ps)[ps[a]] == 1
  {
    assert ps == ps[..a] + [ps[a]] + ps[a + 1..];
    assert ps[a] !in ps[..a] by {
      forall i | 0 <= i < a ensures ps[i] != ps[a] { assert Keys(ps)[i] != Keys(ps)[a]; }
    }
    assert ps[a] !in ps[a + 1..] by {
      forall i | a < i < |ps| ensures ps[i] != ps[a] { assert Keys(ps)[i] != Keys(ps)[a]; }
    }
  }

  // ----- grouping and sorting by a key -----

  /** The elements of `xs` whose key is `k`, in order. */
  function Select<T, K(==)>(xs: seq<T>, key: T -> K, k: K): (r: seq<T>)
    ensures |r| <= |xs|
    ensures forall i :: 0 <= i < |r| ==> key(r[i]) == k && r[i] in xs
  {
    if xs == [] then [] else (if key(xs[0]) == k then [xs[0]] else []) + Select(xs[1..], key, k)
  }

  /** Selecting distributes over concatenation. */
  lemma {:induction false} SelectAppend<T, K>(a: seq<T>, b: seq<T>, key: T -> K, k: K)
    ensures Select(a + b, key, k) == Select(a, key, k) + Select(b, key, k)
    decreases |a|
  {
    if a == [] {
      assert a + b == b;
    } else {
      assert (a + b)[1..] == a[1..] + b;
      SelectAppend(a[1..], b, key, k);
    }
  }

  /** The last element is selected after those before it, if its key is `k`. */
  lemma SelectLast<T, K>(xs: seq<T>, key: T -> K, k: K)
    requires xs != []
    ensures Select(xs, key, k) ==
      Select(xs[..|xs| - 1], key, k) + (if key(xs[|xs| - 1]) == k then [xs[|xs| - 1]] else [])
  {
    var init, last := xs[..|xs| - 1], xs[|xs| - 1];
    assert xs == init + [last];
    SelectAppend(init, [last], key, k);
    assert [last][1..] == [];
  }

  /** Nothing is selected under a key no element has. */
  lemma {:induction false} SelectAbsent<T, K>(xs: seq<T>, key: T -> K, k: K)
    requires forall i :: 0 <= i < |xs| ==> key(xs[i]) != k
    ensures Select(xs, key, k) == []
    decreases |xs|
  {
    if xs != [] {
      SelectAbsent(xs[1..], key, k);
    }
  }

  /** Every element is selected under its own key. */
  lemma {:induction false} SelectMembership<T, K>(xs: seq<T>, key: T -> K, x: T)
    requires x in xs
    ensures x in Select(xs, key, key(x))
    decreases |xs|
  {
    if xs[0] != x {
      SelectMembership(xs[1..], key, x);
    }
  }

  lemma {:induction false} SelectSize<T, K>(xs: seq<T>, key: T -> K, k: K)
    ensures |Select(xs, key, k)| == Occurrences(Map(xs, key), k)
  {
    if xs != [] {
      SelectSize(xs[1..], key, k);
      assert Map(xs, key) == [key(xs[0])] + Map(xs[1..], key);
    }
  }

  function GroupsFor<T, K(==)>(ks: seq<K>, xs: seq<T>, key: T -> K): (r: seq<(K, seq<T>)>)
    ensures Keys(r) == ks
    ensures forall i :: 0 <= i < |r| ==> r[i].1 == Select(xs, key, r[i].0)
  {
    seq(|ks|, i requires 0 <= i < |ks| => (ks[i], Select(xs, key, ks[i])))
  }

  /** `defaultdict(list)` grouping: one group per key, in first-seen order of the
      keys, each holding the elements with that key in their original order. */
  function GroupBy<T, K(==)>(xs: seq<T>, key: T -> K): (r: seq<(K, seq<T>)>)
    ensures Keys(r) == Dedup(Map(xs, key))
    ensures forall i :: 0 <= i < |r| ==> r[i].1 == Select(xs, key, r[i].0)
  {
    GroupsFor(Dedup(Map(xs, key)), xs, key)
  }

  /** Each group paired with its size. */
  function Sizes<K, T>(gs: seq<(K, seq<T>)>): (r: seq<(K, int)>)
    ensures |r| == |gs|
    ensures forall i :: 0 <= i < |gs| ==> r[i] == (gs[i].0, |gs[i].1|)
  {
    seq(|gs|, i requires 0 <= i < |gs| => (gs[i].0, |gs[i].1|))
  }

  /** The group sizes are the counts of the keys. */
  lemma GroupSizesAreCounts<T, K>(xs: seq<T>, key: T -> K)
    ensures Sizes(GroupBy(xs, key)) == Counts(Map(xs, key))
  {
    var gs, t := GroupBy(xs, key), Counts(Map(xs, key));
    assert Keys(gs) == Keys(t);
    forall i | 0 <= i < |gs| ensures Sizes(gs)[i] == t[i] {
      assert gs[i].0 == t[i].0 by { assert Keys(gs)[i] == Keys(t)[i]; }
      SelectSize(xs, key, gs[i].0);
    }
  }

  /** Grouping loses and duplicates nothing: the group sizes sum to the length. */
  lemma GroupBySum<T, K>(xs: seq<T>, key: T -> K)
    ensures SumCounts(Sizes(GroupBy(xs, key))) == |xs|
  {
    GroupSizesAreCounts(xs, key);
    TallySum(Map(xs, key));
  }

  /** Each element paired with its weight. */
  function Weighted<T>(xs: seq<T>, w: T -> int): (r: seq<(T, int)>)
    ensures |r| == |xs|
    ensures forall i :: 0 <= i < |xs| ==> r[i] == (xs[i], w(xs[i]))
  {
    seq(|xs|, i requires 0 <= i < |xs| => (xs[i], w(xs[i])))
  }

  /** `sorted(xs, key=w, reverse=True)` (or `xs.sort(key=w, reverse=True)`):
      a permutation of `xs`, non-increasing in `w`, in which elements of equal
      weight keep their relative order. */
  function SortDescBy<T(==)>(xs: seq<T>, w: T -> int): (r: seq<T>)
    ensures multiset(r) == multiset(xs)
    ensures forall i, j :: 0 <= i < j < |r| ==> w(r[i]) >= w(r[j])
    ensures forall k :: Select(r, w, k) == Select(xs, w, k)
  {
    var sorted := SortByCount(Weighted(xs, w));
    SortDescByFacts(xs, w, sorted);
    Keys(sorted)
  }

  lemma SortDescByFacts<T>(xs: seq<T>, w: T -> int, sorted: seq<(T, int)>)
    requires multiset(sorted) == multiset(Weighted(xs, w)) && NonIncreasing(sorted)
    requires multiset(Keys(sorted)) == multiset(Keys(Weighted(xs, w)))
    requires forall k :: WithCount(sorted, k) == WithCount(Weighted(xs, w), k)
    ensures multiset(Keys(sorted)) == multiset(xs)
    ensures forall i, j :: 0 <= i < j < |sorted| ==> w(Keys(sorted)[i]) >= w(Keys(sorted)[j])
    ensures forall k :: Select(Keys(sorted), w, k) == Select(xs, w, k)
  {
    WeightedKeys(xs, w);
    SortedEntriesWeighted(xs, w, sorted);
    forall k ensures Select(Keys(sorted), w, k) == Select(xs, w, k) {
      SelectIsWithCount(Keys(sorted), w, k);
      SelectIsWithCount(xs, w, k);
    }
  }

  lemma WeightedKeys<T>(xs: seq<T>, w: T -> int)
    ensures Keys(Weighted(xs, w)) == xs
  {
  }

  lemma SortedEntriesWeighted<T>(xs: seq<T>, w: T -> int, sorted: seq<(T, int)>)
    requires multiset(sorted) == multiset(Weighted(xs, w))
    ensures Weighted(Keys(sorted), w) == sorted
  {
    forall i | 0 <= i < |sorted| ensures sorted[i].1 == w(sorted[i].0) {
      assert sorted[i] in multiset(Weighted(xs, w));
    }
  }

  lemma {:induction false} SelectIsWithCount<T>(xs: seq<T>, w: T -> int, k: int)
    ensures Keys(WithCount(Weighted(xs, w), k)) == Select(xs, w, k)
  {
    if xs != [] {
      SelectIsWithCount(xs[1..], w, k);
      assert Weighted(xs, w)[1..] == Weighted(xs[1..], w);
      var rest := WithCount(Weighted(xs[1..], w), k);
      if w(xs[0]) == k {
        assert Keys([(xs[0], k)] + rest) == [xs[0]] + Keys(rest);
      }
    }
  }

  // ----- ties in first-seen order -----

  /** Where `x` first occurs in `xs`; `|xs|` when it does not occur. */
  function SeenAt<T(==)>(xs: seq<T>, x: T): nat {
    if x in xs then FirstIndex(xs, x) else |xs|
  }

  /** The keys of `ps` come in the order in which they are first seen in `xs`. */
  predicate SeenInOrder<K(==), V>(ps: seq<(K, V)>, xs: seq<K>) {
    forall i, j :: 0 <= i < j < |ps| ==> SeenAt(xs, ps[i].0) < SeenAt(xs, ps[j].0)
  }

  /** Entries of equal count come in the order in which their keys are first
      seen in `xs`. */
  predicate TiesFirstSeen<K(==)>(ps: seq<(K, int)>, xs: seq<K>) {
    forall i, j :: 0 <= i < j < |ps| && ps[i].1 == ps[j].1 ==> SeenAt(xs, ps[i].0) < SeenAt(xs, ps[j].0)
  }

  /** The count of an entry. */
  function CountOf<T>(p: (T, int)): int {
    p.1
  }

  lemma {:induction false} WithCountIsSelect<T>(ps: seq<(T, int)>, k: int)
    ensures WithCount(ps, k) == Select(ps, CountOf, k)
  {
    if ps != [] {
      WithCountIsSelect(ps[1..], k);
    }
  }

  lemma SeenInOrderSuffix<K, V>(ps: seq<(K, V)>, xs: seq<K>, m: int)
    requires SeenInOrder(ps, xs) && 0 <= m <= |ps|
    ensures SeenInOrder(ps[m..], xs)
  {
    forall i, j | 0 <= i < j < |ps[m..]| ensures SeenAt(xs, ps[m..][i].0) < SeenAt(xs, ps[m..][j].0) {
      assert ps[m..][i] == ps[m + i] && ps[m..][j] == ps[m + j];
    }
  }

  /** Selecting keeps the order of the selected entries. */
  lemma {:induction false} SelectSeenInOrder<K, V, W>(ps: seq<(K, V)>, xs: seq<K>, w: ((K, V)) -> W, k: W)
    requires SeenInOrder(ps, xs)
    ensures SeenInOrder(Select(ps, w, k), xs)
    decreases |ps|
  {
    if ps != [] {
      SeenInOrderSuffix(ps, xs, 1);
      SelectSeenInOrder(ps[1..], xs, w, k);
      var rest := Select(ps[1..], w, k);
      if w(ps[0]) == k {
        forall b | 0 <= b < |rest| ensures SeenAt(xs, ps[0].0) < SeenAt(xs, rest[b].0) {
          var m :| 0 <= m < |ps[1..]| && ps[1..][m] == rest[b];
          assert ps[m + 1] == rest[b];
        }
        assert Select(ps, w, k) == [ps[0]] + rest;
      } else {
        assert Select(ps, w, k) == rest;
      }
    }
  }

  /** When every selection is in first-seen order, entries of equal weight are. */
  lemma {:induction false} TieAt<K, V, W>(qs: seq<(K, V)>, xs: seq<K>, w: ((K, V)) -> W, i: int, j: int)
    requires forall k :: SeenInOrder(Select(qs, w, k), xs)
    requires 0 <= i < j < |qs| && w(qs[i]) == w(qs[j])
    ensures SeenAt(xs, qs[i].0) < SeenAt(xs, qs[j].0)
    decreases i
  {
    var k := w(qs[0]);
    if i == 0 {
      var rest := Select(qs[1..], w, k);
      assert Select(qs, w, k) == [qs[0]] + rest;
      assert qs[1..][j - 1] == qs[j];
      SelectMembership(qs[1..], w, qs[j]);
      var b :| 0 <= b < |rest| && rest[b] == qs[j];
      var s := Select(qs, w, k);
      assert s[0] == qs[0] && s[b + 1] == qs[j];
      assert SeenInOrder(s, xs);
    } else {
      forall c ensures SeenInOrder(Select(qs[1..], w, c), xs) {
        if w(qs[0]) == c {
          assert Select(qs, w, c)[1..] == Select(qs[1..], w, c);
          SeenInOrderSuffix(Select(qs, w, c), xs, 1);
        } else {
          assert Select(qs, w, c) == Select(qs[1..], w, c);
        }
      }
      TieAt(qs[1..], xs, w, i - 1, j - 1);
    }
  }

  /** A reordering that selects like an input in first-seen order keeps entries
      of equal weight in first-seen order. */
  lemma StableTies<K, V, W>(ps: seq<(K, V)>, qs: seq<(K, V)>, xs: seq<K>, w: ((K, V)) -> W)
    requires SeenInOrder(ps, xs)
    requires forall k :: Select(qs, w, k) == Select(ps, w, k)
    ensures forall i, j :: 0 <= i < j < |qs| && w(qs[i]) == w(qs[j]) ==> SeenAt(xs, qs[i].0) < SeenAt(xs, qs[j].0)
  {
    forall k ensures SeenInOrder(Select(qs, w, k), xs) {
      SelectSeenInOrder(ps, xs, w, k);
    }
    forall i, j | 0 <= i < j < |qs| && w(qs[i]) == w(qs[j])
      ensures SeenAt(xs, qs[i].0) < SeenAt(xs, qs[j].0)
    {
      TieAt(qs, xs, w, i, j);
    }
  }

  /** Keys in first-seen order, as `Dedup` lists them. */
  lemma DedupSeenInOrder<K, V>(ps: seq<(K, V)>, xs: seq<K>)
    requires Keys(ps) == Dedup(xs)
    ensures SeenInOrder(ps, xs)
  {
    DedupFirstSeenOrder(xs);
    forall i, j | 0 <= i < j < |ps| ensures SeenAt(xs, ps[i].0) < SeenAt(xs, ps[j].0) {
      assert Keys(ps)[i] == ps[i].0 && Keys(ps)[j] == ps[j].0;
    }
  }

  // ----- filtering and flattening -----

  /** The elements of `xs` that satisfy `p`, in order: `[x for x in xs if p(x)]`. */
  function Filter<T(==)>(xs: seq<T>, p: T -> bool): (r: seq<T>)
    ensures |r| <= |xs|
    ensures forall i :: 0 <= i < |r| ==> p(r[i]) && r[i] in xs
    decreases |xs|
  {
    if xs == [] then [] else (if p(xs[0]) then [xs[0]] else []) + Filter(xs[1..], p)
  }

  /** Filtering is selecting the elements on which the test is true. */
  lemma {:induction false} FilterIsSelect<T>(xs: seq<T>, p: T -> bool)
    ensures Filter(xs, p) == Select(xs, p, true)
    decreases |xs|
  {
    if xs != [] {
      FilterIsSelect(xs[1..], p);
    }
  }

  lemma {:induction false} FilterMembership<T>(xs: seq<T>, p: T -> bool, x: T)
    requires x in xs
    ensures x in Filter(xs, p) <==> p(x)
    decreases |xs|
  {
    if xs[0] != x {
      FilterMembership(xs[1..], p, x);
    }
  }

  /** The filter keeps every copy of an element that passes and no copy of
      one that fails. */
  lemma {:induction false} FilterOccurrences<T>(xs: seq<T>, p: T -> bool, x: T)
    ensures Occurrences(Filter(xs, p), x) == if p(x) then Occurrences(xs, x) else 0
    decreases |xs|
  {
    if xs != [] {
      FilterOccurrences(xs[1..], p, x);
      assert xs == [xs[0]] + xs[1..];
    }
  }

  /** The last element passes the filter after those before it, if it passes. */
  lemma FilterLast<T>(xs: seq<T>, p: T -> bool)
    requires xs != []
    ensures Filter(xs, p) == Filter(xs[..|xs| - 1], p) + (if p(xs[|xs| - 1]) then [xs[|xs| - 1]] else [])
  {
    var init, last := xs[..|xs| - 1], xs[|xs| - 1];
    assert xs == init + [last];
    FilterAppend(init, [last], p);
    assert [last][1..] == [];
  }

  /** Nothing passes a test no element meets. */
  lemma {:induction false} FilterNone<T>(xs: seq<T>, p: T -> bool)
    requires forall i :: 0 <= i < |xs| ==> !p(xs[i])
    ensures Filter(xs, p) == []
    decreases |xs|
  {
    if xs != [] {
      FilterNone(xs[1..], p);
    }
  }

  /** Filtering distributes over concatenation. */
  lemma {:induction false} FilterAppend<T>(a: seq<T>, b: seq<T>, p: T -> bool)
    ensures Filter(a + b, p) == Filter(a, p) + Filter(b, p)
    decreases |a|
  {
    if a != [] {
      assert (a + b)[0] == a[0] && (a + b)[1..] == a[1..] + b;
      FilterAppend(a[1..], b, p);
    } else {
      assert a + b == b;
    }
  }

  /** `xs` strictly increases in `f`. */
  predicate StrictlyIncreasing<T>(xs: seq<T>, f: T -> int) {
    forall i, j :: 0 <= i < j < |xs| ==> f(xs[i]) < f(xs[j])
  }

  /** Filtering keeps the relative order: a list ordered by `f` stays ordered,
      and so it has no repetitions. */
  lemma {:induction false} FilterOrdered<T>(xs: seq<T>, p: T -> bool, f: T -> int)
    requires StrictlyIncreasing(xs, f)
    ensures StrictlyIncreasing(Filter(xs, p), f) && Distinct(Filter(xs, p))
    decreases |xs|
  {
    if xs != [] {
      FilterOrdered(xs[1..], p, f);
      var rest := Filter(xs[1..], p);
      forall j | 0 <= j < |rest| ensures f(xs[0]) < f(rest[j]) {
        var k :| 0 <= k < |xs[1..]| && xs[1..][k] == rest[j];
        assert xs[k + 1] == rest[j];
      }
    }
  }

  /** `d.get(k, absent)` on an association list: the value of the first entry
      for `k`, or `absent`. */
  function Lookup<K(==), V>(ps: seq<(K, V)>, k: K, absent: V): (r: V)
    ensures k !in Keys(ps) ==> r == absent
    ensures forall i :: 0 <= i < |ps| && ps[i].0 == k && k !in Keys(ps[..i]) ==> r == ps[i].1
    decreases |ps|
  {
    if ps == [] then absent
    else if ps[0].0 == k then ps[0].1
    else
      assert forall i :: 1 <= i <= |ps| ==> Keys(ps[1..][..i - 1]) == Keys(ps[..i])[1..];
      Lookup(ps[1..], k, absent)
  }

  /** `[f(x) for x in xs]`. */
  function Map<A, B>(xs: seq<A>, f: A -> B): (r: seq<B>)
    ensures |r| == |xs|
    ensures forall i :: 0 <= i < |xs| ==> r[i] == f(xs[i])
  {
    seq(|xs|, i requires 0 <= i < |xs| => f(xs[i]))
  }

  lemma MapAppend<T, K>(a: seq<T>, b: seq<T>, key: T -> K)
    ensures Map(a + b, key) == Map(a, key) + Map(b, key)
  {
  }

  lemma MapLast<T, K>(xs: seq<T>, key: T -> K)
    requires xs != []
    ensures Map(xs, key) == Map(xs[..|xs| - 1], key) + [key(xs[|xs| - 1])]
  {
  }

  /** The lists of `xss`, concatenated in order. */
  function Flatten<T>(xss: seq<seq<T>>): seq<T>
    decreases |xss|
  {
    if xss == [] then [] else xss[0] + Flatten(xss[1..])
  }

  /** Every element of every list is in the flattened list. */
  lemma {:induction false} FlattenMember<T>(xss: seq<seq<T>>, j: int, m: int)
    requires 0 <= j < |xss| && 0 <= m < |xss[j]|
    ensures xss[j][m] in Flatten(xss)
    decreases j
  {
    if j == 0 {
      assert Flatten(xss)[m] == xss[0][m];
    } else {
      FlattenMember(xss[1..], j - 1, m);
    }
  }

  /** Sum of `f` over `xs`. */
  function SumOf<T>(xs: seq<T>, f: T -> int): int
    decreases |xs|
  {
    if xs == [] then 0 else f(xs[0]) + SumOf(xs[1..], f)
  }

  /** Sums do not depend on the order of the terms. */
  lemma {:induction false} SumOfPermuted<T>(xs: seq<T>, ys: seq<T>, f: T -> int)
    requires multiset(xs) == multiset(ys)
    ensures SumOf(xs, f) == SumOf(ys, f)
    decreases |xs|
  {
    if xs != [] {
      assert xs[0] in multiset(ys);
      var k :| 0 <= k < |ys| && ys[k] == xs[0];
      var rest := ys[..k] + ys[k + 1..];
      RemoveOne(xs, ys, k);
      SumOfPermuted(xs[1..], rest, f);
      SumOfRemove(ys, k, f);
    }
  }

  /** Taking the head of `xs` out of a permutation `ys` of it leaves a
      permutation of its tail. */
  lemma RemoveOne<T>(xs: seq<T>, ys: seq<T>, k: int)
    requires xs != [] && multiset(xs) == multiset(ys)
    requires 0 <= k < |ys| && ys[k] == xs[0]
    ensures multiset(xs[1..]) == multiset(ys[..k] + ys[k + 1..])
  {
    var x := xs[0];
    assert xs == [x] + xs[1..];
    assert ys == ys[..k] + [x] + ys[k + 1..];
    calc {
      multiset(xs[1..]);
      multiset(xs) - multiset{x};
      multiset(ys) - multiset{x};
      multiset(ys[..k]) + multiset(ys[k + 1..]);
    }
  }

  /** Taking one term out of a sum. */
  lemma {:induction false} SumOfRemove<T>(ys: seq<T>, k: int, f: T -> int)
    requires 0 <= k < |ys|
    ensures SumOf(ys, f) == f(ys[k]) + SumOf(ys[..k] + ys[k + 1..], f)
  {
    var a, b := ys[..k], ys[k + 1..];
    var mid := [ys[k]] + b;
    assert mid[1..] == b;
    assert SumOf(mid, f) == f(ys[k]) + SumOf(b, f);
    assert ys == a + mid;
    SumOfAppend(a, mid, f);
    SumOfAppend(a, b, f);
  }

  /** Sums distribute over concatenation. */
  lemma {:induction false} SumOfAppend<T>(a: seq<T>, b: seq<T>, f: T -> int)
    ensures SumOf(a + b, f) == SumOf(a, f) + SumOf(b, f)
    decreases |a|
  {
    if a != [] {
      assert (a + b)[1..] == a[1..] + b;
      SumOfAppend(a[1..], b, f);
    } else {
      assert a + b == b;
    }
  }

  /** Every occurrence in every list is an occurrence in the concatenation, and
      nothing else is. */
  lemma {:induction false} FlattenOccurrences<T>(xss: seq<seq<T>>, x: T)
    ensures Occurrences(Flatten(xss), x) == SumOf(xss, (xs: seq<T>) => Occurrences(xs, x))
    ensures |Flatten(xss)| == SumOf(xss, (xs: seq<T>) => |xs|)
    decreases |xss|
  {
    if xss != [] {
      FlattenOccurrences(xss[1..], x);
    }
  }

  /** Concatenating the lists of `a + b` is concatenating those of `a`, then of `b`. */
  lemma {:induction false} FlattenAppend<T>(a: seq<seq<T>>, b: seq<seq<T>>)
    ensures Flatten(a + b) == Flatten(a) + Flatten(b)
    decreases |a|
  {
    if a != [] {
      assert (a + b)[1..] == a[1..] + b;
      FlattenAppend(a[1..], b);
    } else {
      assert a + b == b;
    }
  }

  /** Being a prefix is transitive. */
  lemma PrefixTrans<T>(a: seq<T>, b: seq<T>, c: seq<T>)
    requires |a| <= |b| <= |c| && b[..|a|] == a && c[..|b|] == b
    ensures c[..|a|] == a
  {
    assert c[..|a|] == c[..|b|][..|a|];
  }
}

=== FILE: text.dfy ===
/** Text helpers shared by every component: ASCII case folding, Python's `in`
    test on strings, decimal rendering and parsing of integers, and the
    list and join renderings the source builds with f-strings. */
module Text {
  import Wrappers

  /** `str.lower` restricted to ASCII letters. */
  function LowerChar(c: char): char {
    if 'A' <= c <= 'Z' then (c as int + 32) as char else c
  }

  function Lower(s: string): (r: string)
    ensures |r| == |s|
    ensures forall i :: 0 <= i < |s| ==> r[i] == LowerChar(s[i])
  {
    seq(|s|, i requires 0 <= i < |s| => LowerChar(s[i]))
  }

  /** Lower-casing twice is lower-casing once: the agent lowers a keyword and
      tests it against text it has already lowered. */
  lemma LowerIdempotent(s: string)
    ensures Lower(Lower(s)) == Lower(s)
  {
    assert forall i :: 0 <= i < |s| ==> LowerChar(LowerChar(s[i])) == LowerChar(s[i]);
  }

  /** `needle` occurs in `hay` starting at index `i`. */
  predicate OccursAt(hay: string, needle: string, i: int) {
    0 <= i <= |hay| - |needle| && hay[i..i + |needle|] == needle
  }

  /** Python's `needle in hay` for strings (the empty needle occurs everywhere). */
  predicate Contains(hay: string, needle: string) {
    exists i | 0 <= i <= |hay| - |needle| :: OccursAt(hay, needle, i)
  }

  /** A needle whose first character does not occur in `hay` does not occur in it. */
  lemma NotContainsByFirst(hay: string, needle: string)
    requires |needle| > 0 && needle[0] !in hay
    ensures !Contains(hay, needle)
  {
    forall i | 0 <= i <= |hay| - |needle| ensures !OccursAt(hay, needle, i) {
      assert hay[i..i + |needle|][0] == hay[i];
    }
  }

  /** A string occurs in any text that has it as a middle part. */
  lemma ContainsInContext(a: string, x: string, b: string)
    ensures Contains(a + x + b, x)
  {
    assert OccursAt(a + x + b, x, |a|) by {
      assert (a + x + b)[|a|..|a| + |x|] == x;
    }
  }

  /** Text around a haystack keeps every needle it holds. */
  lemma ContainsExtend(a: string, hay: string, b: string, x: string)
    requires Contains(hay, x)
    ensures Contains(a + hay + b, x)
  {
    var i :| 0 <= i <= |hay| - |x| && OccursAt(hay, x, i);
    assert OccursAt(a + hay + b, x, |a| + i) by {
      assert (a + hay + b)[|a| + i..|a| + i + |x|] == hay[i..i + |x|];
    }
  }

  /** Joins `parts` with `sep` between consecutive parts (Python's `sep.join(parts)`). */
  function Join(parts: seq<string>, sep: string): string {
    if parts == [] then ""
    else if |parts| == 1 then parts[0]
    else parts[0] + sep + Join(parts[1..], sep)
  }

  /** Every part occurs in the joined text. */
  lemma {:induction false} JoinContains(parts: seq<string>, sep: string, k: int)
    requires 0 <= k < |parts|
    ensures Contains(Join(parts, sep), parts[k])
    decreases k
  {
    if |parts| == 1 {
      ContainsInContext([], parts[0], []);
      assert [] + parts[0] + [] == parts[0];
    } else if k == 0 {
      ContainsInContext([], parts[0], sep + Join(parts[1..], sep));
      assert [] + parts[0] + (sep + Join(parts[1..], sep)) == Join(parts, sep);
    } else {
      JoinContains(parts[1..], sep, k - 1);
      ContainsExtend(parts[0] + sep, Join(parts[1..], sep), [], parts[k]);
      assert parts[0] + sep + Join(parts[1..], sep) + [] == Join(parts, sep);
    }
  }

  /** `s.startswith(p)`. */
  predicate StartsWith(s: string, p: string) {
    |p| <= |s| && s[..|p|] == p
  }

  /** A join of three or more parts opens with the first two and their
      separators. */
  lemma JoinStartsWith(parts: seq<string>, sep: string)
    requires |parts| >= 3
    ensures StartsWith(Join(parts, sep), parts[0] + sep + parts[1] + sep)
  {
    var rest := Join(parts[2..], sep);
    assert parts[1..][1..] == parts[2..];
    assert Join(parts, sep) == (parts[0] + sep + parts[1] + sep) + rest;
  }

  // ----- Python string literals -----

  /** The quote `repr` puts around `s`: double quotes when `s` holds a single
      quote and no double quote, single quotes otherwise. */
  function QuoteFor(s: string): (q: char)
    ensures q == '\'' || q == '"'
  {
    if '\'' in s && '"' !in s then '"' else '\''
  }

  /** A lower-case hexadecimal digit. */
  function HexDigit(d: nat): (c: char)
    requires d < 16
  {
    "0123456789abcdef"[d]
  }

  function HexValue(c: char): Wrappers.Option<nat> {
    if '0' <= c <= '9' then Wrappers.Some(c as int - '0' as int)
    else if 'a' <= c <= 'f' then Wrappers.Some(c as int - 'a' as int + 10)
    else Wrappers.None
  }

  /** An ASCII control character, which `repr` writes as an escape. */
  predicate IsControl(c: char) {
    c as int < 32 || c as int == 127
  }

  /** `s` holds no control character, so it prints on a single line. */
  predicate Printable(s: string) {
    forall i :: 0 <= i < |s| ==> !IsControl(s[i])
  }

  lemma PrintableConcat(a: string, b: string)
    requires Printable(a) && Printable(b)
    ensures Printable(a + b)
  {
    assert forall i :: |a| <= i < |a + b| ==> (a + b)[i] == b[i - |a|];
  }

  /** How `repr` writes one character inside quotes `q`: backslash, the quote,
      tab, newline and carriage return as two-character escapes, the other
      ASCII control characters as `\xNN`, everything else as itself. */
  function EscapeChar(c: char, q: char): (r: string)
    requires q == '\'' || q == '"'
    ensures r != [] && Printable(r)
  {
    if c == '\\' then "\\\\"
    else if c == q then ['\\', q]
    else if c == '\t' then "\\t"
    else if c == '\n' then "\\n"
    else if c == '\r' then "\\r"
    else if IsControl(c) then "\\x" + [HexDigit(c as int / 16), HexDigit(c as int % 16)]
    else [c]
  }

  /** The characters of `s` as `repr` writes them between quotes `q`. */
  function Escape(s: string, q: char): (r: string)
    requires q == '\'' || q == '"'
    ensures |r| >= |s| && Printable(r)
    decreases |s|
  {
    if s == [] then []
    else
      var head, rest := EscapeChar(s[0], q), Escape(s[1..], q);
      PrintableConcat(head, rest);
      head + rest
  }

  /** Python's `repr` of a string, for text whose non-ASCII characters are
      all printable. */
  function StrRepr(s: string): (r: string)
    ensures |r| >= 2 && r[0] == r[|r| - 1] == QuoteFor(s)
    ensures Printable(r)
  {
    var q := QuoteFor(s);
    PrintableConcat([q], Escape(s, q));
    PrintableConcat([q] + Escape(s, q), [q]);
    [q] + Escape(s, q) + [q]
  }

  /** The character a two-character escape `\e` stands for. */
  function ShortEscape(e: char, q: char): Wrappers.Option<char> {
    if e == '\\' || e == q then Wrappers.Some(e)
    else if e == 't' then Wrappers.Some('\t')
    else if e == 'n' then Wrappers.Some('\n')
    else if e == 'r' then Wrappers.Some('\r')
    else Wrappers.None
  }

  /** `c` followed by what `rest` reads back as. */
  function Prepend(c: char, rest: Wrappers.Option<string>): Wrappers.Option<string> {
    match rest
    case Some(u) => Wrappers.Some([c] + u)
    case None => Wrappers.None
  }

  /** Reads back what `Escape` writes: the inverse of `repr` between the
      quotes. An unescaped quote or an unknown escape is rejected. */
  function Unescape(t: string, q: char): Wrappers.Option<string>
    decreases |t|
  {
    if t == [] then Wrappers.Some([])
    else if t[0] == q then Wrappers.None
    else if t[0] != '\\' then Prepend(t[0], Unescape(t[1..], q))
    else if |t| >= 2 && ShortEscape(t[1], q).Some? then Prepend(ShortEscape(t[1], q).value, Unescape(t[2..], q))
    else if |t| >= 4 && t[1] == 'x' && HexValue(t[2]).Some? && HexValue(t[3]).Some? then
      Prepend((16 * HexValue(t[2]).value + HexValue(t[3]).value) as char, Unescape(t[4..], q))
    else Wrappers.None
  }

  lemma HexRoundTrip(d: nat)
    requires d < 16
    ensures HexValue(HexDigit(d)) == Wrappers.Some(d)
  {
  }

  /** One escaped character followed by more text reads back as that
      character followed by what the rest reads back as. */
  lemma {:induction false} UnescapeChar(c: char, q: char, rest: string)
    requires q == '\'' || q == '"'
    ensures Unescape(EscapeChar(c, q) + rest, q) == Prepend(c, Unescape(rest, q))
  {
    var t := EscapeChar(c, q) + rest;
    if c == '\\' || c == q || c == '\t' || c == '\n' || c == '\r' {
      assert t[2..] == rest;
    } else if IsControl(c) {
      var hi, lo := c as int / 16, c as int % 16;
      HexRoundTrip(hi);
      HexRoundTrip(lo);
      assert t[2] == HexDigit(hi) && t[3] == HexDigit(lo);
      assert t[4..] == rest;
    } else {
      assert t[1..] == rest;
    }
  }

  /** `repr` loses nothing: the escaped text reads back as the original. */
  lemma {:induction false} EscapeRoundTrip(s: string, q: char)
    requires q == '\'' || q == '"'
    ensures Unescape(Escape(s, q), q) == Wrappers.Some(s)
    decreases |s|
  {
    if s != [] {
      EscapeRoundTrip(s[1..], q);
      UnescapeChar(s[0], q, Escape(s[1..], q));
      assert [s[0]] + s[1..] == s;
    }
  }

  /** The text between the quotes of a `repr` reads back as the string. */
  lemma StrReprRoundTrip(s: string)
    ensures var r := StrRepr(s); Unescape(r[1..|r| - 1], r[0]) == Wrappers.Some(s)
  {
    var r := StrRepr(s);
    assert r[1..|r| - 1] == Escape(s, QuoteFor(s));
    EscapeRoundTrip(s, QuoteFor(s));
  }

  /** Python's `str()` of a list of strings: `['a', 'b']`. */
  function StrListRepr(xs: seq<string>): string {
    "[" + Join(ReprAll(xs), ", ") + "]"
  }

  function ReprAll(xs: seq<string>): (r: seq<string>)
    ensures |r| == |xs|
  {
    if xs == [] then [] else [StrRepr(xs[0])] + ReprAll(xs[1..])
  }

  // ----- decimal digits -----

  predicate IsDigit(c: char) {
    '0' <= c <= '9'
  }

  predicate AllDigits(s: string) {
    forall i :: 0 <= i < |s| ==> IsDigit(s[i])
  }

  function DigitChar(d: nat): (c: char)
    requires d < 10
    ensures IsDigit(c)
  {
    ('0' as int + d) as char
  }

  /** The value of a run of ASCII digits, as Python's `int()` reads it
      (leading zeros allowed). */
  function DigitsValue(s: string): nat
    requires AllDigits(s)
    decreases |s|
  {
    if s == [] then 0 else 10 * DigitsValue(s[..|s| - 1]) + (s[|s| - 1] as int - '0' as int)
  }

  /** Python's `str(n)` for a non-negative integer. */
  function NatToString(n: nat): (r: string)
    ensures r != [] && AllDigits(r)
    decreases n
  {
    if n < 10 then [DigitChar(n)] else NatToString(n / 10) + [DigitChar(n % 10)]
  }

  /** Python's `str(n)` for any integer. */
  function IntToString(n: int): (r: string)
    ensures r != []
    ensures forall i :: 0 <= i < |r| ==> IsDigit(r[i]) || r[i] == '-'
  {
    if n < 0 then "-" + NatToString(-n) else NatToString(n)
  }

  /** Python's `int(s)` on an optionally signed run of ASCII digits; anything
      else is rejected. */
  function ParseInt(s: string): Wrappers.Option<int> {
    if |s| > 1 && s[0] == '-' && AllDigits(s[1..]) then Wrappers.Some(0 - DigitsValue(s[1..]) as int)
    else if s != [] && AllDigits(s) then Wrappers.Some(DigitsValue(s))
    else Wrappers.None
  }

  lemma {:induction false} NatToStringRoundTrip(n: nat)
    ensures DigitsValue(NatToString(n)) == n
    decreases n
  {
    if n >= 10 {
      var prefix := NatToString(n / 10);
      var s := prefix + [DigitChar(n % 10)];
      assert s[..|s| - 1] == prefix;
      NatToStringRoundTrip(n / 10);
    }
  }

  /** Decimal rendering and parsing are inverse: `int(str(n)) == n`. */
  lemma IntToStringRoundTrip(n: int)
    ensures ParseInt(IntToString(n)) == Wrappers.Some(n)
  {
    if n < 0 {
      var s := IntToString(n);
      assert s[1..] == NatToString(-n);
      NatToStringRoundTrip(-n);
    } else {
      NatToStringRoundTrip(n);
    }
  }

  /** Index of the first `c` in `s`, or `|s|` when there is none. */
  function FindChar(s: string, c: char): (k: nat)
    ensures k <= |s|
    ensures forall i :: 0 <= i < k ==> s[i] != c
    ensures k < |s| ==> s[k] == c
  {
    if s == [] then 0 else if s[0] == c then 0 else 1 + FindChar(s[1..], c)
  }

  /** The first occurrence of `c` is found at the end of a prefix free of `c`. */
  lemma FindCharAfter(pre: string, c: char, post: string)
    requires forall i :: 0 <= i < |pre| ==> pre[i] != c
    requires post != [] && post[0] == c
    ensures FindChar(pre + post, c) == |pre|
  {
    var s := pre + post;
    var k := FindChar(s, c);
    assert s[|pre|] == c;
  }

  /** The rest of `s` after the prefix `p`, if `s` starts with `p`. */
  function StripPrefix(s: string, p: string): Wrappers.Option<string> {
    if |p| <= |s| && s[..|p|] == p then Wrappers.Some(s[|p|..]) else Wrappers.None
  }

  lemma StripPrefixOf(p: string, t: string)
    ensures StripPrefix(p + t, p) == Wrappers.Some(t)
  {
    assert (p + t)[..|p|] == p;
    assert (p + t)[|p|..] == t;
  }

  /** `s` split just before the first `c` (the second part is empty when there is none). */
  function SplitAtChar(s: string, c: char): (string, string) {
    var k := FindChar(s, c);
    (s[..k], s[k..])
  }

  lemma SplitAtCharOf(pre: string, c: char, post: string)
    requires forall i :: 0 <= i < |pre| ==> pre[i] != c
    requires post != [] && post[0] == c
    ensures SplitAtChar(pre + post, c) == (pre, post)
  {
    FindCharAfter(pre, c, post);
    assert (pre + post)[..|pre|] == pre;
    assert (pre + post)[|pre|..] == post;
  }
}

=== FILE: topic_analyzer.dfy ===
/** Topic analysis by keyword counting: each headline goes to the topic whose
    keywords it mentions most often, and articles are counted and bucketed by
    topic. The keyword table is a parameter, with the configured table as the
    default. */
module TopicAnalyzer {
  import Wrappers
  import opened Text
  import opened Tally
  import opened Articles

  /** The configured topic table: ten topics, each with its keywords, in order. */
  const TopicKeywords: seq<(string, seq<string>)> := [
    ("Politics & Government", [
      "parliament", "minister", "president", "government", "election",
      "political", "cabinet", "pm", "prime minister", "opposition",
      "mp", "politician", "party", "vote", "democracy"]),
    ("Economy & Business", [
      "economy", "business", "trade", "export", "import", "rupee",
      "inflation", "gdp", "investment", "stock", "market", "financial",
      "bank", "economic", "revenue", "budget", "tax", "debt"]),
    ("Sports", [
      "cricket", "football", "rugby", "sports", "match", "tournament",
      "player", "team", "victory", "championship", "game", "athlete",
      "coach", "score", "win", "trophy"]),
    ("Health", [
      "health", "hospital", "doctor", "medical", "disease", "covid",
      "pandemic", "vaccine", "treatment", "patient", "medicine",
      "healthcare", "clinic", "virus", "infection"]),
    ("Technology", [
      "technology", "tech", "digital", "internet", "software", "app",
      "computer", "mobile", "cyber", "ai", "artificial intelligence",
      "data", "online", "innovation"]),
    ("Entertainment", [
      "film", "movie", "cinema", "actor", "actress", "music", "singer",
      "entertainment", "celebrity", "concert", "festival", "culture",
      "art", "theatre", "drama"]),
    ("Crime & Law", [
      "crime", "police", "arrest", "court", "judge", "law", "justice",
      "murder", "theft", "fraud", "investigation", "suspect", "jail",
      "prison", "criminal", "lawyer", "legal"]),
    ("International", [
      "international", "world", "global", "foreign", "diplomatic",
      "embassy", "united nations", "india", "china", "usa", "uk",
      "country", "abroad", "treaty", "relations"]),
    ("Education", [
      "education", "school", "university", "student", "teacher",
      "exam", "academic", "college", "learning", "course"]),
    ("Environment", [
      "environment", "climate", "weather", "flood", "drought",
      "pollution", "wildlife", "nature", "conservation", "disaster"])
  ]

  /** `topic_keywords or config.TOPIC_KEYWORDS`: a missing or empty table
      falls back to the configured one. */
  function TableOrDefault(given: Wrappers.Option<seq<(string, seq<string>)>>): (t: seq<(string, seq<string>)>)
    ensures given.Some? && given.value != [] ==> t == given.value
    ensures given.None? || given.value == [] ==> t == TopicKeywords
  {
    match given
    case Some(t) => if t != [] then t else TopicKeywords
    case None => TopicKeywords
  }

  // ----- classification -----

  /** Whether keyword `k`, lower-cased, occurs in the lower-cased text. */
  function Mentions(lowered: string): string -> bool {
    (k: string) => Contains(lowered, Lower(k))
  }

  /** `sum(1 for keyword in keywords if keyword.lower() in text_lower)`. */
  function Score(lowered: string, keywords: seq<string>): (n: int)
    ensures 0 <= n <= |keywords|
    ensures n == 0 <==> forall j :: 0 <= j < |keywords| ==> !Contains(lowered, Lower(keywords[j]))
    decreases |keywords|
  {
    if keywords == [] then 0
    else
      assert forall j :: 1 <= j < |keywords| ==> keywords[1..][j - 1] == keywords[j];
      (if Contains(lowered, Lower(keywords[0])) then 1 else 0) + Score(lowered, keywords[1..])
  }

  /** The score counts the keywords that occur, repeats included. */
  lemma {:induction false} ScoreCountsMentions(lowered: string, keywords: seq<string>)
    ensures Score(lowered, keywords) == |Filter(keywords, Mentions(lowered))|
    decreases |keywords|
  {
    if keywords != [] {
      ScoreCountsMentions(lowered, keywords[1..]);
    }
  }

  /** Every topic of the table with its score, in table order. */
  function Scores(table: seq<(string, seq<string>)>, lowered: string): (r: seq<(string, int)>)
    ensures Keys(r) == Keys(table)
    ensures forall i :: 0 <= i < |r| ==> r[i].1 == Score(lowered, table[i].1)
  {
    seq(|table|, i requires 0 <= i < |table| => (table[i].0, Score(lowered, table[i].1)))
  }

  predicate Positive<K>(p: (K, int)) {
    p.1 > 0
  }

  /** `max(items, key=count)`: the position of the first entry of largest count. */
  function FirstMaxIndex<K>(ps: seq<(K, int)>): (k: nat)
    requires ps != []
    ensures k < |ps|
    ensures forall j :: 0 <= j < |ps| ==> ps[j].1 <= ps[k].1
    ensures forall j :: 0 <= j < k ==> ps[j].1 < ps[k].1
    decreases |ps|
  {
    if |ps| == 1 then 0
    else
      var k := FirstMaxIndex(ps[..|ps| - 1]);
      assert forall j :: 0 <= j < |ps| - 1 ==> ps[..|ps| - 1][j] == ps[j];
      if ps[|ps| - 1].1 > ps[k].1 then |ps| - 1 else k
  }

  /** The winner of a list with one more entry: the new entry if it beats the
      old winner, else the old winner. */
  lemma FirstMaxSnoc<K>(ps: seq<(K, int)>, x: (K, int))
    ensures var r := ps + [x];
      r[FirstMaxIndex(r)] == if ps == [] || x.1 > ps[FirstMaxIndex(ps)].1 then x else ps[FirstMaxIndex(ps)]
  {
    var r := ps + [x];
    assert r[..|r| - 1] == ps;
  }

  /** Dropping the entries of count zero or less does not change the winner,
      as long as some entry has a positive count. */
  lemma {:induction false} FirstMaxOfPositive<K>(ps: seq<(K, int)>)
    requires exists i :: 0 <= i < |ps| && ps[i].1 > 0
    ensures Filter(ps, Positive) != []
    ensures Filter(ps, Positive)[FirstMaxIndex(Filter(ps, Positive))] == ps[FirstMaxIndex(ps)]
    decreases |ps|
  {
    var init, last := ps[..|ps| - 1], ps[|ps| - 1];
    FilterLast(ps, Positive);
    FirstMaxLast(ps);
    var fi := Filter(init, Positive);
    if exists j :: 0 <= j < |init| && init[j].1 > 0 {
      FirstMaxOfPositive(init);
      assert init[FirstMaxIndex(init)].1 > 0;
      if last.1 > 0 {
        FirstMaxSnoc(fi, last);
      } else {
        assert fi + [] == fi;
      }
    } else {
      FilterNone(init, Positive);
      assert [] + [last] == [last];
    }
  }

  /** The winner of a list is its last entry if that beats the winner of the
      others, else the winner of the others. */
  lemma FirstMaxLast<K>(ps: seq<(K, int)>)
    requires ps != []
    ensures var init := ps[..|ps| - 1];
      ps[FirstMaxIndex(ps)] ==
        if init == [] || ps[|ps| - 1].1 > init[FirstMaxIndex(init)].1 then ps[|ps| - 1] else init[FirstMaxIndex(init)]
  {
    var init := ps[..|ps| - 1];
    assert ps == init + [ps[|ps| - 1]];
    FirstMaxSnoc(init, ps[|ps| - 1]);
  }

  /** `categorize_headline`: "Other" for an empty text; otherwise the topic of
      largest positive score among the table's topics, the first one on ties,
      or "Other" when no keyword occurs. */
  function CategorizeHeadline(table: seq<(string, seq<string>)>, text: string): (topic: string)
    ensures text == "" ==> topic == OtherTopic
    ensures topic == OtherTopic || topic in Keys(table)
  {
    if text == "" then OtherTopic
    else
      var positive := Filter(Scores(table, Lower(text)), Positive);
      if positive == [] then OtherTopic
      else
        var best := positive[FirstMaxIndex(positive)];
        assert best in Scores(table, Lower(text));
        best.0
  }

  /** The winner, read against the whole table: when some keyword occurs, the
      result is the topic at the first position of largest score, and that
      score is positive; when none occurs, the result is "Other". */
  lemma CategorizeSpec(table: seq<(string, seq<string>)>, text: string)
    requires text != ""
    ensures var s := Scores(table, Lower(text));
      (forall i :: 0 <= i < |s| ==> s[i].1 == 0) ==> CategorizeHeadline(table, text) == OtherTopic
    ensures var s := Scores(table, Lower(text));
      (exists i :: 0 <= i < |s| && s[i].1 > 0) ==>
        var k := FirstMaxIndex(s);
        && CategorizeHeadline(table, text) == table[k].0
        && s[k].1 > 0
        && (forall j :: 0 <= j < |s| ==> s[j].1 <= s[k].1)
        && (forall j :: 0 <= j < k ==> s[j].1 < s[k].1)
  {
    var s := Scores(table, Lower(text));
    if exists i :: 0 <= i < |s| && s[i].1 > 0 {
      FirstMaxOfPositive(s);
    }
  }

  /** `process_articles`: every article, in order, with its topic set from its
      title and nothing else changed. */
  function ProcessArticles(table: seq<(string, seq<string>)>, articles: seq<Article>): (r: seq<Article>)
    ensures |r| == |articles|
    ensures forall i :: 0 <= i < |r| ==>
      r[i] == articles[i].(topic := CategorizeHeadline(table, articles[i].title))
  {
    seq(|articles|, i requires 0 <= i < |articles| =>
      articles[i].(topic := CategorizeHeadline(table, articles[i].title)))
  }

  /** Every topic of the configured table has a non-empty name. */
  lemma DefaultTopicsNamed()
    ensures forall i :: 0 <= i < |TopicKeywords| ==> TopicKeywords[i].0 != ""
  {
  }

  /** With a table whose topics all have names, every processed article has a
      topic. */
  lemma ProcessedHaveTopics(table: seq<(string, seq<string>)>, articles: seq<Article>)
    requires forall i :: 0 <= i < |table| ==> table[i].0 != ""
    ensures forall i :: 0 <= i < |articles| ==> ProcessArticles(table, articles)[i].topic != ""
  {
    forall i | 0 <= i < |articles| ensures ProcessArticles(table, articles)[i].topic != "" {
      var t := CategorizeHeadline(table, articles[i].title);
      if t != OtherTopic {
        var k :| 0 <= k < |Keys(table)| && Keys(table)[k] == t;
      }
    }
  }

  // ----- counting -----

  /** The number of topics `get_trending_topics` reports when not told otherwise. */
  const DefaultTopN: int := 10

  /** `get_trending_topics`: at most `topN` topics with their counts over the
      articles that have one, most frequent first; a topic is left out only
      when `topN` topics at least as frequent are listed. */
  function TrendingTopics(articles: seq<Article>, topN: int := DefaultTopN): (r: seq<(string, int)>)
    ensures topN >= 0 ==> |r| <= topN
    ensures NonIncreasing(r) && Distinct(Keys(r))
    ensures forall i :: 0 <= i < |r| ==> r[i].0 != "" && r[i].1 == Occurrences(PresentTopics(articles), r[i].0) > 0
    ensures topN > 0 ==> forall i :: 0 <= i < |PresentTopics(articles)| && PresentTopics(articles)[i] !in Keys(r) ==>
      |r| == topN && Occurrences(PresentTopics(articles), PresentTopics(articles)[i]) <= r[topN - 1].1
    ensures TiesFirstSeen(r, PresentTopics(articles)) && CutFirstSeen(r, PresentTopics(articles), topN)
  {
    var r := MostCommon(PresentTopics(articles), topN);
    forall i | 0 <= i < |r| ensures r[i].0 != "" {
      assert r[i].0 in multiset(PresentTopics(articles));
    }
    r
  }

  /** `get_topic_distribution`: one entry per topic present, in first-seen
      order, with the number of articles carrying it. */
  function TopicDistribution(articles: seq<Article>): (r: seq<(string, int)>)
    ensures Keys(r) == Dedup(PresentTopics(articles))
    ensures forall i :: 0 <= i < |r| ==> r[i].1 == Occurrences(PresentTopics(articles), r[i].0) > 0
  {
    Counts(PresentTopics(articles))
  }

  /** The distribution counts exactly the articles that have a topic. */
  lemma TopicDistributionSum(articles: seq<Article>)
    ensures SumCounts(TopicDistribution(articles)) == |Filter(articles, HasTopic)|
  {
    TallySum(PresentTopics(articles));
  }

  /** The report `generate_topic_report` returns. */
  datatype TopicReport = TopicReport(
    totalArticles: int,
    distribution: seq<(string, int)>,
    trendingTopics: seq<(string, int)>,
    articlesByTopic: seq<(string, int)>)

  /** `generate_topic_report`: the total, the distribution, the ten trending
      topics, and the bucket sizes with missing topics under "Other", which
      account for every article. */
  function GenerateTopicReport(articles: seq<Article>): (r: TopicReport)
    ensures r.totalArticles == |articles|
    ensures r.distribution == TopicDistribution(articles)
    ensures r.trendingTopics == TrendingTopics(articles, DefaultTopN)
    ensures Keys(r.articlesByTopic) == Dedup(Map(articles, TopicOrOther))
    ensures forall i :: 0 <= i < |r.articlesByTopic| ==>
      r.articlesByTopic[i].1 == |Select(articles, TopicOrOther, r.articlesByTopic[i].0)|
    ensures SumCounts(r.articlesByTopic) == |articles|
  {
    var groups := GroupBy(articles, TopicOrOther);
    GroupBySum(articles, TopicOrOther);
    assert Keys(Sizes(groups)) == Keys(groups);
    TopicReport(|articles|, TopicDistribution(articles), TrendingTopics(articles, DefaultTopN), Sizes(groups))
  }
}

=== FILE: wrappers.dfy ===
/** The optional-value type used wherever the source has `None` or a missing value. */
module Wrappers {

  datatype Option<+T> = None | Some(value: T) {

    /** Returns the wrapped value, or `default` when there is none (Python's `x or default`). */
    function GetOr(default: T): T {
      match this
      case Some(v) => v
      case None => default
    }
  }
}
